=== FILE: README.md ===
# E-shop core in Dafny

A model of the shop's server-side business rules and of three client state
slices. The store is one immutable `Shop` value: the catalog (products by id),
the carts (by user), the orders and the standalone reviews. Every endpoint is a
pure function from a shop and a request to a `Reply`, which carries the shop
after the call and either a value or an error. Errors are modelled the same
way: a failed call states which parts of the shop it changed. Usually that is
nothing. A few handlers write before they fail, and the contracts say so.

Modules, following the program's layout:

- `Common`, `Text`, `Store`: options, errors and results; `trim`, the UTF-16 length and
  `split`/`join` on strings; the shop and its reply type.
- `Products`, `Carts`, `Orders`, `Reviews`: the four schemas. This covers
  their validators, the cart total computation, the product rating aggregate,
  the stock ledger and the helpful-vote toggle.
- `CartController`, `OrderController`, `ReviewController`, `AdminController`:
  the handlers of the cart, order and review routes, the admin order-status
  update and the revenue figure.
- `ProductController`: the listing query (filter, sort, page window), the
  product update and the legacy embedded-review handler.
- `Helpers`: discount percentage, pagination and sort-string parsing.
- `AuthSlice`, `CartSlice`, `ProductSlice`: the client reducers. Each
  request is represented by its pending, fulfilled and rejected actions.

Parameters stand for what the handlers take from outside. These are the clock
(`now`), fresh ids (`newLineId`, `orderId`, `reviewId`), the order number, the
uploaded files, the base URL, the route kind (admin or not), the products
whose name matches the search pattern (`nameHits`) and whether the database
accepts that pattern at all (`patternValid`).

## Model

| member | source | states |
|---|---|---|
| Text.TrimShape | backend/controllers/product.controller.js:233-234 | Trimming keeps a factor of the input that starts and ends with non-space, cuts only white space, and is empty exactly for an all-space string |
| Text.Trim | backend/controllers/product.controller.js:233-234 | `String.prototype.trim`: the leading cut then the trailing cut (characterised by TrimShape and TrimEmptyIffAllSpace) |
| Text.Utf16Length | backend/models/Review.js:20-24 | The length the schema's maxLength measures: one unit per character, two for one outside the Basic Multilingual Plane |
| Text.TrimStart | backend/controllers/product.controller.js:233 | Cutting leading white space leaves a suffix of the input that starts with non-space, and only spaces were cut |
| Text.TrimEnd | backend/controllers/product.controller.js:233 | Cutting trailing white space leaves a prefix of the input that ends with non-space, and only spaces were cut |
| Text.TrimEmptyIffAllSpace | backend/controllers/product.controller.js:233 | A string trims to the empty string exactly when it is all white space, the blank-tags test of the update |
| Text.TrimIdempotent | backend/models/Review.js:20-24 | Trimming an already trimmed title changes nothing |
| Text.TrimAddsNothing | backend/controllers/product.controller.js:234 | Trimming never introduces a character, so trimmed pieces of a comma split hold no comma |
| Text.Split | backend/utils/helper.js:42-44 | Splitting gives at least one piece, no piece holds the separator, and joining the pieces with it gives the input back |
| Text.SplitJoin | backend/utils/helper.js:42-44 | Splitting a join of separator-free pieces gives exactly those pieces |
| Text.SplitAtSeparator | backend/utils/helper.js:42 | A leading separator contributes an empty first piece and the rest splits as before |
| Text.SplitAtOther | backend/utils/helper.js:42 | A leading non-separator character joins the first piece of the rest |
| Text.SplitPlain | backend/utils/helper.js:44 | A part with no colon splits into itself alone, so its order is missing |
| Products.CalculateAverageRating | backend/models/Product.js:115-125 | The count is the number of embedded reviews; the average is 0 with none, else it times the count is the rating sum |
| Products.WithRatings | backend/models/Product.js:115-125 | Recomputing the aggregate touches neither the reviews nor the stock |
| Products.AverageInRange | backend/models/Product.js:57-68 | With embedded ratings in 1..5, a non-empty average lies in 1..5, so the 0..5 validator always passes |
| Products.MeanBounds | backend/models/Product.js:115-122 | A sum of count values each within lo..hi, divided by count, lies within lo..hi |
| Products.RecalculateIdempotent | backend/models/Product.js:115-125 | A recomputed product is consistent, and recomputing again changes nothing |
| Products.AppendReviewAverage | backend/models/Product.js:115-125 | Pushing one review moves the aggregate to the incremental mean with one more count |
| Products.TwoReviewsExample | backend/models/Product.js:115-125 | Ratings 5 and 3 average 4 over two reviews |
| Products.RatingSumBounds | backend/models/Product.js:75-80 | With ratings in 1..5, the sum lies between count and 5 times count |
| Products.Adjust | backend/controllers/order.controller.js:63-68 | A stock increment never adds or removes a product |
| Products.Shift | backend/controllers/order.controller.js:63-68 | Applying stock moves keeps the same products and changes nothing but their stock |
| Products.ValidProduct | backend/models/Product.js:5-80 | The validators a product save runs: name, category, non-negative prices and stock, average in 0..5, embedded ratings in 1..5 |
| Products.NameValid | backend/models/Product.js:5-10 | A non-empty name of at most 100 UTF-16 code units |
| Products.ShiftEffect | backend/controllers/order.controller.js:63-68 | Applying a list of stock moves changes each product's stock by exactly its moved quantity and nothing else |
| Products.ReleaseUndoesReserve | backend/controllers/order.controller.js:169-174 | Releasing the moves a reservation took restores the catalog exactly |
| Carts.NewCart | backend/controllers/cart.controller.js:44-47 | A lazily created cart has no lines and a zero total |
| Carts.CalculateTotals | backend/models/Cart.js:52-84 | An empty cart is all zeros; otherwise subtotal is the sum of line totals, tax 10 percent, shipping 0 exactly above 50 and else 10, total the sum of the three |
| Carts.ComputeTotals | backend/models/Cart.js:52-84 | The single accumulating pass over the lines computes exactly the totals above |
| Carts.Recalculate | backend/models/Cart.js:52-84 | Recomputing keeps the lines and sets the totals to those of the lines |
| Carts.RecalculateIdempotent | backend/models/Cart.js:52-84 | Recomputing twice is recomputing once |
| Carts.LineSumNonNegative | backend/models/Cart.js:62-67 | Non-negative line totals give a non-negative subtotal |
| Carts.TotalsBounds | backend/models/Cart.js:62-78 | With non-negative line totals, 0 <= subtotal <= total <= 1.1 * subtotal + 10 |
| Carts.ShippingAtThreshold | backend/models/Cart.js:73 | A subtotal of exactly 50 still pays the 10 fee |
| Carts.ThreeAtTwentyExample | backend/models/Cart.js:52-84 | Three units at 20 give 60, 6, 0 and 66 |
| Carts.FindLineByProduct | backend/controllers/cart.controller.js:50-52 | The first line for the product, or none exactly when no line holds it |
| Carts.FindLineById | backend/controllers/cart.controller.js:97-103 | The first line with the id, or none exactly when no line has it |
| Carts.SetQuantity | backend/controllers/cart.controller.js:114-118 | The line keeps its id, product and stored price, takes the new quantity and a total of price times quantity |
| Carts.AddLineExisting | backend/controllers/cart.controller.js:50-58 | Re-adding a product bumps only its line, by the requested quantity, priced at the stored price |
| Carts.AddLineNew | backend/controllers/cart.controller.js:59-66 | A product not yet in the cart gets one new line at the current price, appended last |
| Carts.AddLineKeepsDistinct | backend/controllers/cart.controller.js:50-66 | Adding keeps one line per product and, with a fresh id, one line per id |
| Carts.AddLinePriced | backend/controllers/cart.controller.js:50-66 | Adding keeps every line's subtotal equal to its price times its quantity |
| Carts.AddLine | backend/controllers/cart.controller.js:50-66 | The cart grows by one line exactly when the product had none; lines of other products are kept; afterwards the product has a line |
| Carts.RemoveLine | backend/controllers/cart.controller.js:144 | No line with the id survives the filter, and the list never grows |
| Carts.RemoveAbsentLine | backend/controllers/cart.controller.js:144 | A list without the id passes the filter unchanged |
| Carts.RemoveLineExactly | backend/controllers/cart.controller.js:144 | With distinct ids, removing a line's id drops exactly that line and keeps the rest in order |
| Carts.RemoveLineKeepsLines | backend/controllers/cart.controller.js:144 | Filtering keeps quantities, prices and the distinctness of ids and products |
| Carts.LookupCoupon | backend/controllers/cart.controller.js:189-200 | SAVE10 (10 percent) and SAVE20 (20 fixed) are found, and so is every member name objects inherit, with no fields; anything else is unknown |
| Orders.ParseStatus | backend/models/Order.js:70-74 | Exactly the six status names are accepted, each to the status of that name |
| Orders.StatusRoundTrip | backend/models/Order.js:70-74 | Parsing a status's name gives the status back |
| Orders.ParseMethod | backend/models/Order.js:57-61 | Exactly card, paypal, stripe and cod are accepted |
| Orders.MethodRoundTrip | backend/models/Order.js:57-61 | Parsing a method's name gives the method back |
| Orders.NewOrder | backend/models/Order.js:57-96 | A new order is pending with payment pending, no tracking, no delivery date, and holds the given items, address and totals |
| Orders.FindOrder | backend/controllers/order.controller.js:144-149 | The position of an order with the id, or none exactly when no order has it |
| Orders.AppendKeepsUnique | backend/models/Order.js:4-8 | An order whose number and id are unused can be appended without breaking uniqueness |
| Orders.ReplaceKeepsUnique | backend/models/Order.js:4-8 | Replacing an order by one with the same number and id keeps uniqueness |
| Orders.FindAfterReplace | backend/controllers/order.controller.js:176-177 | Replacing an order by one with the same id leaves every lookup unchanged |
| Reviews.NewReview | backend/models/Review.js:14-42 | A new review stores the title trimmed, no helpful votes, and is verified exactly when the purchase check said so |
| Reviews.ValidReview | backend/models/Review.js:14-28 | The validators a review save runs: rating 1..5, title of at most 100 UTF-16 code units, comment present |
| Reviews.AstralTitleTooLong | backend/models/Review.js:20-24 | Sixty characters outside the Basic Multilingual Plane exceed the title limit |
| Reviews.FindReview | backend/controllers/review.controller.js:196-203 | The position of a review with the id, or none exactly when no review has it |
| Reviews.FindAfterReplace | backend/controllers/review.controller.js:214-217 | Replacing a review by one with the same id leaves every lookup unchanged |
| Reviews.AppendKeepsUnique | backend/models/Review.js:48 | A review whose (product, user) pair and id are unused can be appended keeping uniqueness |
| Reviews.ReplaceKeepsUnique | backend/models/Review.js:48 | Replacing a review by one with the same id, product and user keeps uniqueness |
| Reviews.DeleteKeepsUnique | backend/controllers/review.controller.js:275 | Deleting a review keeps uniqueness |
| Reviews.WithoutUser | backend/controllers/review.controller.js:306-308 | The user's vote is gone, every other voter stays, and the list never grows |
| Reviews.WithoutAbsentUser | backend/controllers/review.controller.js:306-308 | Removing a user who never voted changes nothing |
| Reviews.WithoutPresentUser | backend/controllers/review.controller.js:306-308 | In a distinct voter list, removing a voter shortens it by one and keeps it distinct |
| Reviews.ToggleHelpful | backend/controllers/review.controller.js:302-314 | The caller's vote flips, no other vote changes, the count moves by one (never below 0) and the flag says whether the caller is now marked |
| Reviews.ToggleKeepsConsistent | backend/models/Review.js:33-42 | The toggle keeps the count equal to the number of distinct voters |
| Reviews.ToggleTwiceRestores | backend/controllers/review.controller.js:302-314 | Two toggles by a user who had not voted restore the record exactly |
| Reviews.WithoutAppended | backend/controllers/review.controller.js:302-314 | Removing the voter just appended gives the earlier list |
| Reviews.FindEmbeddedBy | backend/controllers/review.controller.js:220-222 | The first embedded copy by the user, or none exactly when there is none |
| Reviews.WithoutEmbeddedBy | backend/controllers/review.controller.js:268-272 | Every copy by the user goes, and every other copy stays |
| Reviews.WithoutEmbeddedKeepsRange | backend/controllers/review.controller.js:268-272 | Filtering keeps every embedded rating in 1..5 |
| CartController.GetCart | backend/controllers/cart.controller.js:5-21 | Answers the user's stored cart, storing an empty one on first access and otherwise changing nothing |
| CartController.AddToCart | backend/controllers/cart.controller.js:24-81 | Missing or inactive product is 404; stock below the requested increment is refused; otherwise the add succeeds exactly when every line of the bumped or extended cart keeps at least one unit, and fails the save (keeping a lazily created empty cart) when not; on success totals match the lines |
| CartController.UpdateCartItem | backend/controllers/cart.controller.js:84-129 | Missing cart or line is 404; a line whose product is gone throws (500); a quantity above live stock is refused; otherwise the update succeeds exactly when every line keeps at least one unit, else the save fails; on success only that line changes, its total is stored price times quantity, and totals match the lines |
| CartController.RemoveFromCart | backend/controllers/cart.controller.js:132-158 | Fails exactly when the user has no cart; else the cart holds the filtered lines with matching totals |
| CartController.ClearCart | backend/controllers/cart.controller.js:161-182 | Fails exactly when the user has no cart; else no lines and all totals zero |
| CartController.ApplyCoupon | backend/controllers/cart.controller.js:185-227 | A code the table lookup misses is refused before the cart is read; a code it finds, including an inherited member name, keeps the lines and totals equal to those of the lines |
| CartController.CouponIgnored | backend/controllers/cart.controller.js:210-216 | Applying either known coupon to a stored valid cart leaves it exactly as it was: no discount reaches the totals |
| CartController.InheritedCodeAccepted | backend/controllers/cart.controller.js:194-202 | A code such as "toString" passes the table check: 404 without a cart, otherwise the stored cart unchanged |
| CartController.AddChecksOnlyIncrement | backend/controllers/cart.controller.js:37-58 | An add succeeds when the increment fits in stock even though the resulting line quantity exceeds it |
| CartController.AddToCartKeepsCartsValid | backend/controllers/cart.controller.js:24-81 | Adding keeps every stored cart valid, given a fresh line id |
| CartController.UpdateCartItemKeepsCartsValid | backend/controllers/cart.controller.js:84-129 | Updating a quantity keeps every stored cart valid |
| CartController.AddToCartSucceeds | backend/controllers/cart.controller.js:24-81 | On a valid or absent cart, adding at least one unit of an active product with that much stock succeeds |
| CartController.UpdateCartItemSucceeds | backend/controllers/cart.controller.js:84-129 | On a valid cart, setting an existing line to a quantity from 1 to the product's stock succeeds |
| CartController.RemoveFromCartKeepsCartsValid | backend/controllers/cart.controller.js:132-158 | Removing keeps every stored cart valid |
| CartController.RemoveDropsExactlyThatLine | backend/controllers/cart.controller.js:144 | Removal through the handler drops exactly the addressed line |
| OrderController.LineMoves | backend/controllers/order.controller.js:63-68 | One stock move per cart line, with that line's product and quantity |
| OrderController.ItemMoves | backend/controllers/order.controller.js:169-174 | One stock move per order item, with that item's product and quantity |
| OrderController.CheckStock | backend/controllers/order.controller.js:23-31 | Passes exactly when every line's product exists with enough stock; else a 500 or an out-of-stock error |
| OrderController.Snapshot | backend/controllers/order.controller.js:34-41 | One item per line, with the product's current name and first image and the line's price, quantity and total |
| OrderController.SnapshotMoves | backend/controllers/order.controller.js:34-68 | The snapshot moves exactly the stock the cart lines name |
| OrderController.CreateOrder | backend/controllers/order.controller.js:7-84 | An empty or absent cart is refused; a short line aborts with nothing written; with stock for every line, a bad payment method or address fails validation, a used number or id fails the insert, and otherwise checkout succeeds; on success the order is new, stock drops by each line, the cart is emptied with zero totals |
| OrderController.CancelOrder | backend/controllers/order.controller.js:140-187 | Only the owner's order that is neither delivered nor cancelled is cancelled, its quantities go back to stock; any failure writes nothing |
| OrderController.GetOrder | backend/controllers/order.controller.js:110-137 | Changes nothing; 404 for a missing order; the order is answered exactly to its owner or an admin |
| OrderController.ShortLineAbortsCheckout | backend/controllers/order.controller.js:23-31 | A line exceeding live stock makes checkout fail with nothing written |
| OrderController.LineQuantityMoved | backend/controllers/order.controller.js:63-68 | With one line per product, a product's moved quantity is its line's quantity |
| OrderController.AbsentNotMoved | backend/controllers/order.controller.js:63-68 | A product on no line moves nothing |
| OrderController.CheckoutLowersOrderedStock | backend/controllers/order.controller.js:63-68 | A successful checkout lowers each ordered product's stock by exactly its line quantity |
| OrderController.CheckoutKeepsOtherStock | backend/controllers/order.controller.js:63-68 | A successful checkout leaves products not in the cart untouched |
| OrderController.CheckoutKeepsCatalogValid | backend/controllers/order.controller.js:23-68 | After a successful checkout every stock is non-negative and every product still valid |
| OrderController.CheckoutEmptiesCart | backend/controllers/order.controller.js:71-73 | After a successful checkout the cart has no lines and zero totals |
| OrderController.CancelAfterCheckoutRestoresStock | backend/controllers/order.controller.js:169-177 | Cancelling the order a checkout created restores the catalog exactly |
| OrderController.CommittedReplace | backend/controllers/order.controller.js:176-177 | Replacing one order changes the committed quantity by exactly the difference of what the two hold |
| OrderController.CheckoutConserves | backend/controllers/order.controller.js:47-68 | Checkout keeps stock plus quantity held by live orders constant for every product |
| OrderController.CancelConserves | backend/controllers/order.controller.js:169-177 | Cancellation keeps stock plus quantity held by live orders constant for every product |
| OrderController.CancelTwiceRefused | backend/controllers/order.controller.js:161-166 | A second cancel of the same order is refused and releases nothing |
| AdminController.Restamp | backend/controllers/admin.controller.js:174-182 | The status as sent, tracking only when given, the delivery date stamped only on delivered, nothing else changed |
| AdminController.UiNextStatus | client/src/components/admin/OrderDetailmodal.jsx:7-12 | The screen offers a next status except for delivered and cancelled orders, and never offers pending, cancelled or the current status |
| AdminController.UpdateOrderStatus | backend/controllers/admin.controller.js:170-198 | Succeeds exactly for an existing order, which takes the sent status; catalog, carts and reviews are untouched |
| AdminController.NoTransitionGuard | backend/controllers/admin.controller.js:174-182 | Any existing order can be moved to any status, with stock unchanged |
| AdminController.ServerAcceptsWhatTheScreenNeverOffers | backend/controllers/admin.controller.js:174-182 | A delivered order can be set back to pending |
| AdminController.ReopenThenCancelReleasesTwice | backend/controllers/admin.controller.js:174-182 | Reopening a cancelled order lets its owner cancel it again, and stock ends above where it started |
| AdminController.StatusUpdateBreaksConservation | backend/controllers/admin.controller.js:174-182 | Reopening raises the committed quantity with stock unchanged, so the conservation sum moves |
| AdminController.GuardedUpdateOrderStatus | backend/controllers/admin.controller.js:170-198 | Refuses exactly the reopening of a cancelled order; cancelling a live order releases its items; otherwise as the unguarded update |
| AdminController.GuardedUpdateConserves | backend/controllers/order.controller.js:169-177 | The guarded update keeps stock plus committed quantity constant for every product |
| AdminController.GuardedRefusesReopen | backend/controllers/admin.controller.js:174-182 | Under the guard, reopening a cancelled order is refused with the shop unchanged |
| AdminController.AllCancelledEarnNothing | backend/controllers/admin.controller.js:21-24 | Cancelled orders contribute nothing to revenue |
| AdminController.Earned | backend/controllers/admin.controller.js:22-23 | What one order contributes to revenue: nothing when cancelled, otherwise its total (characterised by the revenue lemmas) |
| AdminController.Revenue | backend/controllers/admin.controller.js:21-24 | The `$match`/`$sum` pipeline over all orders (characterised by AllCancelledEarnNothing, RevenueNonNegative and RevenueReplace) |
| AdminController.RevenueNonNegative | backend/controllers/admin.controller.js:21-24 | Non-negative order totals give non-negative revenue |
| AdminController.RevenueReplace | backend/controllers/admin.controller.js:21-24 | Replacing one order changes revenue by the difference of what the two earn |
| AdminController.CheckoutAddsRevenue | backend/controllers/admin.controller.js:21-24 | A successful checkout adds exactly the new order's total to revenue |
| AdminController.CancelRemovesRevenue | backend/controllers/admin.controller.js:21-24 | A cancellation removes exactly the cancelled order's total from revenue |
| ReviewController.DeliveredPurchases | backend/controllers/review.controller.js:36-42 | The count is positive exactly when some delivered order of the user lists the product |
| ReviewController.AddReview | backend/controllers/review.controller.js:7-74 | 404 for a missing product, refused for a second review by the user; an invalid review or a used id fails with nothing written; a saved review stays saved and the add succeeds exactly when the product with the pushed copy passes its validators; a failure never changes the catalog; on success the review is verified exactly by a delivered purchase and the rating is recomputed |
| ReviewController.Merged | backend/controllers/review.controller.js:214-217 | Only a truthy rating, title or comment replaces the stored one; the title is stored trimmed; identity, votes and verification stay |
| ReviewController.RewriteCopy | backend/controllers/review.controller.js:224-231 | Only the author's copy changes, to the values as sent, and the rating aggregate is consistent |
| ReviewController.UpdateReview | backend/controllers/review.controller.js:190-242 | 404, then author only; succeeds exactly when the merged review is valid, its product exists and the author's copy, if any, rewritten with the raw values is valid; the standalone review is saved first, so a rejected product save fails after that write with the catalog unchanged |
| ReviewController.SyncedUpdateReview | backend/controllers/review.controller.js:190-242 | As the update, but every check precedes any write and the author's copy takes the merged values, so on success the two copies agree and on failure nothing is written |
| ReviewController.DeleteReview | backend/controllers/review.controller.js:245-284 | 404, then author or admin; every copy by the author leaves the product, the rating is recomputed, the review is deleted; failure writes nothing |
| ReviewController.RoutedDeleteReview | backend/routes/review.routes.js:18 | The handler reads the route parameter `id`: without it the request answers 404 and writes nothing, with it the deletion proceeds |
| ReviewController.AdminRouteDeletes | backend/routes/admin.routes.js:33 | The admin route, which names its parameter `id`, reaches the deletion with the given review id |
| ReviewController.RoutedDeleteNeverDeletes | backend/controllers/review.controller.js:247 | An author's deletion the handler would perform is answered 404 through the customer route |
| ReviewController.MarkReviewHelpful | backend/controllers/review.controller.js:287-326 | Fails exactly for a missing review; else the caller's vote is toggled on that review only |
| ReviewController.AppendedCopyKeepsProductValid | backend/controllers/review.controller.js:55-65 | Pushing an in-range copy into a valid product keeps it valid with one more count and an average of at least 1 |
| ReviewController.AddReviewKeepsRatings | backend/controllers/review.controller.js:55-65 | A successful add keeps the product valid, its rating consistent and in 1..5, and counts one more review |
| ReviewController.AddReviewOnValidProduct | backend/controllers/review.controller.js:7-74 | On a valid product with a title of at most 100 code units after trimming and a fresh id, the add succeeds |
| ReviewController.SecondReviewRefused | backend/controllers/review.controller.js:23-33 | After a successful add, a second add by the same user is refused and changes nothing |
| ReviewController.AddReviewKeepsUnique | backend/models/Review.js:48 | Adding keeps one review per (product, user) and unique ids |
| ReviewController.AddReviewCopiesAgreeIffTrimmed | backend/controllers/review.controller.js:45-62 | The two copies agree after an add exactly when the title was already trimmed |
| ReviewController.UpdateAgreesWhenAllSupplied | backend/controllers/review.controller.js:214-231 | With every field supplied and the title trimmed, the copies agree after an update |
| ReviewController.UpdateWithoutTitleDiverges | backend/controllers/review.controller.js:224-231 | An update without a title unsets the embedded title, so the copies disagree |
| ReviewController.UpdateWithoutRatingWritesHalf | backend/controllers/review.controller.js:214-233 | An update without a rating on a review with an embedded copy fails after saving the standalone review, leaving the catalog unchanged |
| ReviewController.RewrittenCopyKeepsProductValid | backend/models/Product.js:75-80 | Rewriting one copy with an in-range rating keeps a valid product valid |
| ReviewController.SyncedUpdateWithoutRatingSucceeds | backend/controllers/review.controller.js:214-233 | Where the as-written update writes half, the synced update succeeds with the copies in agreement |
| ReviewController.UpdatedReview | backend/controllers/review.controller.js:196-216 | An accepted update found the review, was made by its author, and returns the prior review with the supplied fields merged in |
| ReviewController.UpdatedCopy | backend/controllers/review.controller.js:218-231 | After an accepted update the author's embedded copy carries the rating, title and comment exactly as sent |
| ReviewController.MergedAgrees | backend/controllers/review.controller.js:213-231 | With every field supplied and the title trimmed, the merged review agrees with a copy built from the raw values |
| ReviewController.DeleteReviewKeepsRatings | backend/controllers/review.controller.js:268-272 | The author or an admin can always delete from a valid product; the product stays valid, consistent and free of the author's copies |
| ReviewController.HelpfulTwiceRestores | backend/controllers/review.controller.js:302-314 | Voting twice as a new voter restores the shop exactly |
| ProductController.BuildQuery | backend/controllers/product.controller.js:19-52 | Active only off the admin route; one clause per supplied search, category and brand; a price clause exactly for a bound that is a number |
| ProductController.ListingFilter | backend/controllers/product.controller.js:19-52 | A product is listed exactly when it is active (off the admin route), matches each supplied parameter and lies within the bounds |
| ProductController.ActiveOnlyOffAdminRoute | backend/controllers/product.controller.js:21-28 | Off the admin route an inactive product never matches; on it activity does not matter |
| ProductController.PriceFreeWithoutBounds | backend/controllers/product.controller.js:40-44 | Without price bounds the price never affects the listing |
| ProductController.ListingSort | backend/controllers/product.controller.js:55-71 | Price order exactly for the two price values, rating order exactly for rating, descending unless price-asc |
| ProductController.UnknownSortIsNewest | backend/controllers/product.controller.js:69-71 | Every other sort value, and none, orders as newest |
| ProductController.Ceil | backend/controllers/product.controller.js:85 | The ceiling is the least integer not below the value |
| ProductController.ListingWindow | backend/controllers/product.controller.js:14-15 | Page 1 and limit 12 by default, skip is (page - 1) * limit, and the page count exists exactly for a non-zero limit |
| ProductController.PageCountCovers | backend/controllers/product.controller.js:85 | With a positive limit the page count is the least number of full pages holding every product |
| ProductController.CeilCovers | backend/controllers/product.controller.js:85 | The ceiling of total / limit is the least page count that covers the total |
| ProductController.PagesWithinCount | backend/controllers/product.controller.js:77-85 | Pages 1 to the page count start inside the result, every later page past its end |
| ProductController.PageBounds | backend/controllers/product.controller.js:77-85 | For a positive limit and the least covering page count, pages 1 to the count start before the total and later pages at or past it |
| ProductController.GetProducts | backend/controllers/product.controller.js:5-91 | The listing holds exactly the matching products and counts them, in the order the sort parameter selects and with the page window of the page and limit over that count; a search text the database rejects as a pattern, a price bound that is not a number, or a negative skip answers 500, and nothing else does |
| ProductController.ListingOnlyActive | backend/controllers/product.controller.js:26-28 | Off the admin route the listing holds active products only |
| ProductController.TrimAll | backend/controllers/product.controller.js:234 | Each piece trimmed, in order |
| ProductController.NormalizeTags | backend/controllers/product.controller.js:233-235 | Non-blank text becomes one tag per comma piece, in order, each the piece trimmed, none holding a comma or outer space; blank text stays a single tag; a list is kept; absent tags keep the stored ones |
| ProductController.TrimmedPiecesClean | backend/controllers/product.controller.js:234 | Trimmed comma-free pieces are trimmed and comma-free |
| ProductController.TagsRoundTrip | backend/controllers/product.controller.js:233-235 | Tags typed without spaces around the commas join back to the text as typed |
| ProductController.TrimAllOfTrimmed | backend/controllers/product.controller.js:234 | Trimming trimmed pieces changes nothing |
| ProductController.UploadedImages | backend/controllers/product.controller.js:188-192 | One image per upload, under the uploads path of the base URL |
| ProductController.ResolveImages | backend/controllers/product.controller.js:168-199 | Uploads are appended to the stored images, or replace them when replaceImages is "true"; without uploads, "false" keeps stored images and anything else takes the submitted ones |
| ProductController.Applied | backend/controllers/product.controller.js:224-240 | Fails exactly when a number does not parse; keeps ratings and reviews; flags on exactly for "true" or true; tags normalised; name trimmed |
| ProductController.UpdateProduct | backend/controllers/product.controller.js:158-258 | 404 for a missing product; succeeds exactly when the form applies and the written paths validate, storing the result; any failure writes nothing |
| ProductController.UpdateKeepsProductValid | backend/controllers/product.controller.js:242-249 | An accepted update of a valid product leaves it valid with rating and reviews untouched |
| ProductController.UploadImages | backend/controllers/product.controller.js:177-194 | With uploads, replaceImages "true" leaves exactly the new images; otherwise the stored ones come first |
| ProductController.AppliedUploads | backend/controllers/product.controller.js:177-194 | With uploads the applied images are the kept stored ones (none when replacing) followed by one image per upload |
| ProductController.AbsentFlagsSwitchOff | backend/controllers/product.controller.js:230-231 | A form without the flags deactivates and unfeatures the product |
| ProductController.LegacyAddReview | backend/controllers/product.controller.js:290-340 | Always fails and writes nothing: 404 exactly for a missing product, duplicate exactly when the user has an embedded review, otherwise an internal error |
| Helpers.Round | backend/utils/helper.js:10 | The nearest integer, halves rounded up |
| Helpers.CalculateDiscount | backend/utils/helper.js:8-11 | Zero for a missing or zero compare price or one not above the price; else the rounded percentage saved |
| Helpers.DiscountInRange | backend/utils/helper.js:8-11 | For a non-negative price the discount lies in 0..100 |
| Helpers.NegativePriceExceedsHundred | backend/utils/helper.js:9-10 | A negative price gives a discount above 100 |
| Helpers.DiscountExamples | backend/utils/helper.js:8-11 | Half off is 50, a free item is 100 |
| Helpers.Paginate | backend/utils/helper.js:26-36 | An unparsable or zero page or limit takes the default 1 or 10, never leaving either 0; skip is (page - 1) * limit of the values used |
| Helpers.PagesTile | backend/utils/helper.js:29 | Page 1 starts at 0 and each page starts where the previous ended |
| Helpers.PaginateDefaults | backend/utils/helper.js:27-28 | No usable parameters read the first ten items |
| Helpers.LookupNone | backend/utils/helper.js:45 | A key is missing exactly when no entry names it |
| Helpers.Put | backend/utils/helper.js:45 | Assigning a key adds at most one entry; assigning a number to `__proto__` goes to the inherited setter and stores nothing |
| Helpers.PutLookup | backend/utils/helper.js:45 | After an assignment the key reads the new value unless it is `__proto__`, and every other key reads as before |
| Helpers.PutKeepsProtoOut | backend/utils/helper.js:45 | No assignment ever stores a `__proto__` key |
| Helpers.PutKeeps | backend/utils/helper.js:45 | Assignment keeps keys distinct and values directions |
| Helpers.DirectionOf | backend/utils/helper.js:44-45 | Every part gives 1 or -1 |
| Helpers.ParseParts | backend/utils/helper.js:43-44 | Each part read as its field and direction, in order |
| Helpers.AssignKeeps | backend/utils/helper.js:43-46 | The assignments give distinct keys, each a direction |
| Helpers.BuildSortOptions | backend/utils/helper.js:38-50 | Empty for a missing or empty string; otherwise distinct keys, each 1 or -1, never `__proto__` |
| Helpers.AssignNamed | backend/utils/helper.js:43-46 | A field is present exactly when some entry names it and it is not `__proto__` |
| Helpers.AssignLastWins | backend/utils/helper.js:43-46 | A field other than `__proto__` takes the value of the last entry naming it; `__proto__` stays absent |
| Helpers.SortOptionsLastWins | backend/utils/helper.js:38-50 | Each field other than `__proto__` takes the direction of its last mention, descending exactly for desc; `__proto__` is never stored |
| Helpers.SortOptionsOnlyNamed | backend/utils/helper.js:38-50 | A field appears exactly when some part names it and it is not `__proto__` |
| Helpers.ProtoFieldDropped | backend/utils/helper.js:38-50 | A sort string naming only `__proto__` builds an empty object |
| Helpers.ProtoDescDropped | backend/utils/helper.js:38-50 | "__proto__:desc" builds an empty object |
| AuthSlice.Reduce | client/src/store/authSlice.js:57-133 | Each action's effect: pending sets loading (and clears the error for login and register), success signs in with the payload's user, failure signs out; logout success clears the user and error only |
| AuthSlice.ReduceKeepsConsistent | client/src/store/authSlice.js:73-131 | With a user in every sign-in payload, signed in holds exactly when a user is held |
| AuthSlice.UserlessPayloadBreaksConsistency | client/src/store/authSlice.js:76-81 | A sign-in payload without a user leaves the state signed in with no user |
| AuthSlice.RunKeepsConsistent | client/src/store/authSlice.js:57-133 | Any run of well-formed actions keeps the state consistent |
| AuthSlice.SignInSettles | client/src/store/authSlice.js:73-124 | A sign-in request that settles either way ends with loading off |
| AuthSlice.LogoutDuringLoadKeepsLoading | client/src/store/authSlice.js:126-131 | Logging out while the user loads leaves loading on with no user |
| AuthSlice.ClearErrorIdempotent | client/src/store/authSlice.js:66-68 | Clearing the error twice is clearing it once |
| CartSlice.Reduce | client/src/store/cartSlice.js:70-127 | The drawer actions move only the drawer; a fetch settles loading and error; cart changes replace only the cart; no other action touches the drawer |
| CartSlice.DrawerAlgebra | client/src/store/cartSlice.js:79-87 | Toggling twice changes nothing; open and close are idempotent; toggle is close when open and open when closed |
| CartSlice.RequestsLeaveDrawer | client/src/store/cartSlice.js:89-125 | Without drawer actions the drawer stays as it was |
| CartSlice.FailedFetchKeepsCart | client/src/store/cartSlice.js:92-103 | A failed fetch keeps the cart and ends with loading off |
| CartSlice.MutationLeavesStatus | client/src/store/cartSlice.js:105-125 | A cart change that settles replaces the cart and leaves loading and error alone |
| ProductSlice.Overlay | client/src/store/productSlice.js:16-18 | Every key the patch names takes its value, every other key keeps its own |
| ProductSlice.Reduce | client/src/store/productSlice.js:16-30 | Filters are overlaid or reset to the defaults, or the search text replaced, each leaving the other part alone |
| ProductSlice.SetFiltersCompose | client/src/store/productSlice.js:16-18 | Two patches in a row are one patch in which the later keys win |
| ProductSlice.SetFiltersIdentity | client/src/store/productSlice.js:16-18 | An empty patch, or one repeating the current values, changes nothing |
| ProductSlice.ResetFiltersIdempotent | client/src/store/productSlice.js:19-27 | Resetting is idempotent, undoes any earlier patch and keeps the search text |
| ProductSlice.FiltersAndSearchCommute | client/src/store/productSlice.js:16-30 | A filter change and a search change commute |

## Left out

- Persistence, concurrency and atomicity: each handler is one pure step. Interleaved requests are not modelled. Neither are the multi-step writes of checkout, which run without a transaction.
- Authentication and authorisation middleware: the caller's id and role are parameters.
- Clocks, randomness and id generation (order numbers, SKUs, document ids, timestamps) are parameters. `generateSKU`, `generateOrderNumber` and `formatPrice` in the helper file are not modelled: they are clock, randomness and locale formatting.
- E-mail, toasts and HTTP response shapes: a reply is the shop plus a value or an error kind.
- Money and the rating average are reals: JavaScript floating-point rounding and Infinity are not modelled. A product-form number that fails to parse is `None` and the update is refused. A listing price bound that is not a number is `NotANumber` and answers 500.
- Reviews.ValidReview: ratings are integers. The schema's rating is any Number in 1..5 and the update runs no request validator, so a fractional rating such as 4.5, which the source stores and averages, is outside the model.
- Products.ValidProduct: the embedded copies' ratings are integers for the same reason, so fractional embedded ratings are outside the model.
- Stock is an integer: fractional stock values the schema would accept are not modelled.
- Regular-expression search: which products match the search pattern is the `nameHits` parameter, and whether the database accepts the pattern at all is the `patternValid` parameter.
- `GetProducts`: gives the matching set, its count, the order and the page window, not the sorted and sliced page itself. A negative skip, which the database rejects, is modelled as an internal error.
- `getProduct`, `createProduct`, `deleteProduct`, `getFeaturedProducts`, `getMyOrders`, `getProductReviews`, `getAdminReviews` and the user endpoints: reads or administration outside the modelled rules.
- Product update: the specifications field, `description`, `sku`, `createdAt`, `__v` and the JSON parsing of a string `images` field are not modelled. The submitted images arrive already parsed. Deleting the replaced image files is I/O and is left out.
- Product update: a field the form leaves undefined keeps its stored value.
- UpdatedPathsValid: checks only the paths the update writes, as the update's validators do.
- Helpers.BuildSortOptions: JavaScript objects list integer-like keys first. The model keeps plain insertion order.
- ProductController.GetProducts: page and limit are integers or absent. A query value that is not a whole number (`page=abc` gives a NaN skip, `page=1.5` a fractional one) is not modelled.
- ProductSlice.Overlay: a patch key present with the value `undefined` is modelled as absent.
- AdminController.UpdateOrderStatus: takes an already valid status. The handler updates without validators, so an unknown status string would be stored, and that path is not modelled.
- CartController.ApplyCoupon: the coupon set on the in-memory cart is not persisted, because the cart schema has no coupon path. The model therefore never stores or subtracts it.

## Findings

| source | as written | input that shows it | evidently intended | confidence | as-written member | corrected member |
|---|---|---|---|---|---|---|
| backend/controllers/admin.controller.js:174-182 | The admin status update sets any status with no transition check and no stock effect | A cancelled order set back to pending by an admin, then cancelled again by its owner: its items return to stock a second time | A cancelled order cannot be reopened, and an admin cancellation releases stock as the customer's does | not executed | AdminController.ReopenThenCancelReleasesTwice | AdminController.GuardedUpdateOrderStatus |
| backend/routes/review.routes.js:18 | The customer delete route names its parameter `reviewId`, while the handler reads `req.params.id` | The author's DELETE of their own existing review through the review routes: the lookup by an undefined id finds nothing and answers 404 | The handler reads the parameter the route defines and deletes the review | not executed | ReviewController.RoutedDeleteReview | ReviewController.DeleteReview |
| backend/controllers/review.controller.js:214-233 | The standalone review is saved before the embedded copy, and the copy takes the raw request values | An update by the author that sends only a new comment: the review is saved, the copy's rating becomes undefined, the product save fails, and the request errors with the two copies diverged | Both copies take the merged values, and nothing is written unless both saves can succeed | not executed | ReviewController.UpdateWithoutRatingWritesHalf | ReviewController.SyncedUpdateReview |

=== FILE: admin_controller.dfy ===
/**
 * The admin order-status update (no transition guard, no stock effect) and
 * the revenue figure of the dashboard.
 */
module AdminController {
  import opened Common
  import opened Products
  import opened Orders
  import opened Store
  import OrderController

  /** The order after the admin update: the status as requested, tracking only if given, delivery stamped on `delivered`. */
  function Restamp(o: Order, status: OrderStatus, tracking: Option<Tracking>, now: int): (r: Order)
    ensures r.status == status
    ensures r.deliveredAt == (if status == Delivered then Some(now) else o.deliveredAt)
    ensures r.tracking == (if tracking.Some? then tracking else o.tracking)
    ensures r.(status := o.status, deliveredAt := o.deliveredAt, tracking := o.tracking) == o
  {
    o.(status := status,
       tracking := if tracking.Some? then tracking else o.tracking,
       deliveredAt := if status == Delivered then Some(now) else o.deliveredAt)
  }

  /**
   * `updateOrderStatus`: any existing order takes whatever status is sent; the
   * catalog, carts and reviews are untouched. `now` is the clock reading.
   */
  function UpdateOrderStatus(s: Shop, orderId: OrderId, status: OrderStatus, tracking: Option<Tracking>, now: int): (r: Reply<Order>)
    ensures r.result.Ok? <==> OrderIdTaken(s.orders, orderId)
    ensures r.result.Err? ==> r == Fail(s, NotFound)
    ensures r.shop.catalog == s.catalog && r.shop.carts == s.carts && r.shop.reviews == s.reviews
    ensures r.result.Ok? ==>
      var i := FindOrder(s.orders, orderId).value;
      r.result.value == Restamp(s.orders[i], status, tracking, now) &&
      r.shop.orders == s.orders[i := r.result.value]
  {
    match FindOrder(s.orders, orderId)
    case None => Fail(s, NotFound)
    case Some(i) =>
      var o := Restamp(s.orders[i], status, tracking, now);
      Done(s.(orders := s.orders[i := o]), o)
  }

  /** The admin screen's forward-only table of next statuses. */
  function UiNextStatus(st: OrderStatus): (r: Option<OrderStatus>)
    ensures r.None? <==> st == Delivered || st == Cancelled
    ensures r != Some(Pending) && r != Some(Cancelled) && r != Some(st)
  {
    match st
    case Pending => Some(Confirmed)
    case Confirmed => Some(Processing)
    case Processing => Some(Shipped)
    case Shipped => Some(Delivered)
    case _ => None
  }

  /** The server enforces no transition table: even a terminal order can be moved to any status, stock unchanged. */
  lemma NoTransitionGuard(s: Shop, orderId: OrderId, target: OrderStatus, now: int)
    requires OrderIdTaken(s.orders, orderId)
    ensures var r := UpdateOrderStatus(s, orderId, target, None, now);
      r.result.Ok? && r.result.value.status == target && r.shop.catalog == s.catalog
  {
  }

  /** Delivered to pending is accepted although the screen's table never offers it. */
  lemma ServerAcceptsWhatTheScreenNeverOffers(s: Shop, orderId: OrderId, now: int)
    requires OrderIdTaken(s.orders, orderId)
    requires s.orders[FindOrder(s.orders, orderId).value].status == Delivered
    ensures UiNextStatus(Delivered) == None
    ensures UpdateOrderStatus(s, orderId, Pending, None, now).result.value.status == Pending
  {
  }

  /**
   * Reopening a cancelled order lets its owner cancel it again, and the second
   * cancellation releases the items a second time: stock ends above where it
   * started while no order holds the quantity.
   */
  lemma ReopenThenCancelReleasesTwice(s: Shop, orderId: OrderId, user: UserId, p: ProductId, now: int)
    requires OrderIdTaken(s.orders, orderId)
    requires var o := s.orders[FindOrder(s.orders, orderId).value];
      o.status == Cancelled && o.user == user && MovedQuantity(OrderController.ItemMoves(o.items), p) > 0
    requires p in s.catalog
    ensures var reopened := UpdateOrderStatus(s, orderId, Pending, None, now).shop;
      var again := OrderController.CancelOrder(reopened, orderId, user);
      again.result.Ok? && p in again.shop.catalog && again.shop.catalog[p].stock > s.catalog[p].stock
  {
    var i := FindOrder(s.orders, orderId).value;
    var o := s.orders[i];
    var reopened := UpdateOrderStatus(s, orderId, Pending, None, now).shop;
    FindAfterReplace(s.orders, i, reopened.orders[i], orderId);
    ShiftEffect(reopened.catalog, OrderController.ItemMoves(o.items), Release);
  }

  /** The admin update alone shifts committed quantity without touching stock, so the conservation sum moves. */
  lemma StatusUpdateBreaksConservation(s: Shop, orderId: OrderId, p: ProductId, now: int)
    requires OrderIdTaken(s.orders, orderId)
    requires var o := s.orders[FindOrder(s.orders, orderId).value];
      o.status == Cancelled && MovedQuantity(OrderController.ItemMoves(o.items), p) > 0
    ensures var after := UpdateOrderStatus(s, orderId, Pending, None, now).shop;
      OrderController.Committed(after.orders, p) > OrderController.Committed(s.orders, p) &&
      after.catalog == s.catalog
  {
    var i := FindOrder(s.orders, orderId).value;
    var after := UpdateOrderStatus(s, orderId, Pending, None, now);
    OrderController.CommittedReplace(s.orders, i, after.result.value, p);
  }

  /**
   * The status update with the guard the stock ledger needs: a cancelled order
   * stays cancelled, and cancelling through this route releases the items as
   * the customer's cancellation does.
   */
  function GuardedUpdateOrderStatus(s: Shop, orderId: OrderId, status: OrderStatus, tracking: Option<Tracking>, now: int): (r: Reply<Order>)
    ensures !OrderIdTaken(s.orders, orderId) ==> r == Fail(s, NotFound)
    ensures r.result.Err? ==> r.shop == s
    ensures r.shop.carts == s.carts && r.shop.reviews == s.reviews
    ensures OrderIdTaken(s.orders, orderId) ==>
      var i := FindOrder(s.orders, orderId).value;
      var o := s.orders[i];
      && (o.status == Cancelled && status != Cancelled <==> r.result == Err(Reopen))
      && (r.result.Ok? ==> r.result.value == Restamp(o, status, tracking, now) && r.shop.orders == s.orders[i := r.result.value])
      && (r.result.Ok? && status == Cancelled && o.status != Cancelled ==>
            r.shop.catalog == Shift(s.catalog, OrderController.ItemMoves(o.items), Release))
      && (r.result.Ok? && (status == Cancelled <==> o.status == Cancelled) ==> r.shop.catalog == s.catalog)
  {
    match FindOrder(s.orders, orderId)
    case None => Fail(s, NotFound)
    case Some(i) =>
      var o := s.orders[i];
      if o.status == Cancelled && status != Cancelled then Fail(s, Reopen)
      else
        var updated := Restamp(o, status, tracking, now);
        var catalog := if status == Cancelled && o.status != Cancelled
                       then Shift(s.catalog, OrderController.ItemMoves(o.items), Release)
                       else s.catalog;
        Done(s.(catalog := catalog, orders := s.orders[i := updated]), updated)
  }

  /** The guarded update keeps stock plus committed quantity constant for every product. */
  lemma GuardedUpdateConserves(s: Shop, orderId: OrderId, status: OrderStatus, tracking: Option<Tracking>, now: int, p: ProductId)
    requires p in s.catalog
    ensures var r := GuardedUpdateOrderStatus(s, orderId, status, tracking, now);
      p in r.shop.catalog &&
      r.shop.catalog[p].stock + OrderController.Committed(r.shop.orders, p) ==
      s.catalog[p].stock + OrderController.Committed(s.orders, p)
  {
    var r := GuardedUpdateOrderStatus(s, orderId, status, tracking, now);
    if r.result.Ok? {
      var i := FindOrder(s.orders, orderId).value;
      var o := s.orders[i];
      ShiftEffect(s.catalog, OrderController.ItemMoves(o.items), Release);
      OrderController.CommittedReplace(s.orders, i, r.result.value, p);
    }
  }

  /** Under the guard the reopen-and-cancel-again sequence is refused at its first step. */
  lemma GuardedRefusesReopen(s: Shop, orderId: OrderId, now: int)
    requires OrderIdTaken(s.orders, orderId)
    requires s.orders[FindOrder(s.orders, orderId).value].status == Cancelled
    ensures GuardedUpdateOrderStatus(s, orderId, Pending, None, now) == Fail(s, Reopen)
  {
  }

  // ---------------------------------------------------------------------
  // Dashboard revenue
  // ---------------------------------------------------------------------

  function Earned(o: Order): real {
    if o.status == Cancelled then 0.0 else o.total
  }

  /** The `$match`/`$sum` pipeline: the totals of the non-cancelled orders, 0 when there are none. */
  function Revenue(orders: seq<Order>): real
  {
    if |orders| == 0 then 0.0 else Revenue(orders[..|orders| - 1]) + Earned(orders[|orders| - 1])
  }

  /** Cancelled orders contribute nothing: a list of only cancelled orders earns 0. */
  lemma {:induction false} AllCancelledEarnNothing(orders: seq<Order>)
    requires forall i :: 0 <= i < |orders| ==> orders[i].status == Cancelled
    ensures Revenue(orders) == 0.0
    decreases |orders|
  {
    if |orders| > 0 {
      AllCancelledEarnNothing(orders[..|orders| - 1]);
    }
  }

  /** With non-negative order totals, revenue is non-negative. */
  lemma {:induction false} RevenueNonNegative(orders: seq<Order>)
    requires forall i :: 0 <= i < |orders| ==> orders[i].total >= 0.0
    ensures Revenue(orders) >= 0.0
    decreases |orders|
  {
    if |orders| > 0 {
      RevenueNonNegative(orders[..|orders| - 1]);
    }
  }

  lemma {:induction false} RevenueReplace(orders: seq<Order>, i: nat, o: Order)
    requires i < |orders|
    ensures Revenue(orders[i := o]) == Revenue(orders) - Earned(orders[i]) + Earned(o)
    decreases |orders|
  {
    var n := |orders| - 1;
    var updated := orders[i := o];
    if i < n {
      assert updated[..n] == orders[..n][i := o];
      RevenueReplace(orders[..n], i, o);
    } else {
      assert updated[..n] == orders[..n];
    }
  }

  /** A checkout adds its order's total to revenue. */
  lemma CheckoutAddsRevenue(s: Shop, user: UserId, address: Address, paymentMethod: string,
                            orderId: OrderId, orderNumber: string)
    ensures var r := OrderController.CreateOrder(s, user, address, paymentMethod, orderId, orderNumber);
      r.result.Ok? ==> Revenue(r.shop.orders) == Revenue(s.orders) + r.result.value.total
  {
    var r := OrderController.CreateOrder(s, user, address, paymentMethod, orderId, orderNumber);
    if r.result.Ok? {
      assert r.shop.orders[..|r.shop.orders| - 1] == s.orders;
    }
  }

  /** A cancellation removes exactly its order's total from revenue. */
  lemma CancelRemovesRevenue(s: Shop, orderId: OrderId, user: UserId)
    ensures var r := OrderController.CancelOrder(s, orderId, user);
      r.result.Ok? ==> Revenue(r.shop.orders) == Revenue(s.orders) - r.result.value.total
  {
    var r := OrderController.CancelOrder(s, orderId, user);
    if r.result.Ok? {
      var i := FindOrder(s.orders, orderId).value;
      RevenueReplace(s.orders, i, r.result.value);
    }
  }
}

=== FILE: auth_slice.dfy ===
/**
 * The client's authentication state and the reducer that moves it through
 * the lifecycle of the four authentication requests (load the current user,
 * log in, register, log out). The requests themselves and the toasts they
 * raise are outside the model; each request arrives as its pending,
 * fulfilled or rejected action.
 */
module AuthSlice {
  import opened Common

  datatype AuthState = AuthState(user: Option<UserId>, isAuthenticated: bool, loading: bool, error: Option<string>)

  datatype Request = LoadUser | Login | Register | Logout

  /**
   * The actions the slice handles. A fulfilled action carries the `user` of
   * its payload (None when the payload has none); a rejected one carries the
   * rejection value (None when there is none).
   */
  datatype AuthAction =
    | ClearError
    | Pending(request: Request)
    | Fulfilled(request: Request, user: Option<UserId>)
    | Rejected(request: Request, message: Option<string>)

  const Initial: AuthState := AuthState(None, false, false, None)

  /** A request that signs a user in when it succeeds. */
  predicate SignsIn(q: Request) {
    q == LoadUser || q == Login || q == Register
  }

  function Reduce(s: AuthState, a: AuthAction): (r: AuthState)
    ensures a == ClearError ==> r == s.(error := None)
    ensures a.Pending? && a.request != Logout ==> r.loading && r.user == s.user && r.isAuthenticated == s.isAuthenticated
    ensures a.Pending? && (a.request == Login || a.request == Register) ==> r.error == None
    ensures a.Pending? && a.request == LoadUser ==> r.error == s.error
    ensures a.Fulfilled? && SignsIn(a.request) ==> r == AuthState(a.user, true, false, None)
    ensures a.Rejected? && (a.request == Login || a.request == Register) ==> r == AuthState(None, false, false, a.message)
    ensures a.Rejected? && a.request == LoadUser ==> r == AuthState(None, false, false, s.error)
    ensures a.Fulfilled? && a.request == Logout ==> r == AuthState(None, false, s.loading, None)
    ensures (a.Pending? || a.Rejected?) && a.request == Logout ==> r == s
  {
    match a
    case ClearError => s.(error := None)
    case Pending(q) =>
      if q == Logout then s
      else if q == LoadUser then s.(loading := true)
      else s.(loading := true, error := None)
    case Fulfilled(q, u) =>
      if q == Logout then s.(user := None, isAuthenticated := false, error := None)
      else AuthState(u, true, false, None)
    case Rejected(q, m) =>
      if q == Logout then s
      else if q == LoadUser then s.(user := None, isAuthenticated := false, loading := false)
      else AuthState(None, false, false, m)
  }

  /** Signed in exactly when a user is held. */
  predicate Consistent(s: AuthState) {
    s.isAuthenticated <==> s.user.Some?
  }

  /** A payload carries a user whenever a sign-in request succeeds. */
  predicate WellFormed(a: AuthAction) {
    a.Fulfilled? && SignsIn(a.request) ==> a.user.Some?
  }

  /** Every well-formed action keeps the state consistent. */
  lemma ReduceKeepsConsistent(s: AuthState, a: AuthAction)
    requires Consistent(s) && WellFormed(a)
    ensures Consistent(Reduce(s, a))
  {
  }

  /** A successful sign-in whose payload lacks a user leaves the state signed in with no user. */
  lemma UserlessPayloadBreaksConsistency(s: AuthState, q: Request)
    requires SignsIn(q)
    ensures !Consistent(Reduce(s, Fulfilled(q, None)))
  {
  }

  /** Applying the actions in order, as the store does. */
  function ReduceAll(s: AuthState, actions: seq<AuthAction>): AuthState
    decreases |actions|
  {
    if |actions| == 0 then s else ReduceAll(Reduce(s, actions[0]), actions[1..])
  }

  /** Any run of well-formed actions from the initial state keeps the state consistent. */
  lemma {:induction false} RunKeepsConsistent(s: AuthState, actions: seq<AuthAction>)
    requires Consistent(s)
    requires forall k :: 0 <= k < |actions| ==> WellFormed(actions[k])
    ensures Consistent(ReduceAll(s, actions))
    decreases |actions|
  {
    if |actions| > 0 {
      ReduceKeepsConsistent(s, actions[0]);
      assert forall k :: 0 <= k < |actions| - 1 ==> actions[1..][k] == actions[k + 1];
      RunKeepsConsistent(Reduce(s, actions[0]), actions[1..]);
    }
  }

  /** A sign-in request that settles (either way) ends with loading off. */
  lemma SignInSettles(s: AuthState, q: Request, outcome: AuthAction)
    requires SignsIn(q)
    requires (outcome.Fulfilled? || outcome.Rejected?) && outcome.request == q
    ensures !ReduceAll(s, [Pending(q), outcome]).loading
  {
    assert [Pending(q), outcome][1..] == [outcome];
    assert [outcome][1..] == [];
    assert ReduceAll(Reduce(s, Pending(q)), [outcome]) == ReduceAll(Reduce(Reduce(s, Pending(q)), outcome), []);
    assert ReduceAll(s, [Pending(q), outcome]) == Reduce(Reduce(s, Pending(q)), outcome);
  }

  /** Logging out while the user is still loading leaves loading on: the logout does not touch it. */
  lemma LogoutDuringLoadKeepsLoading(s: AuthState)
    ensures var r := ReduceAll(s, [Pending(LoadUser), Fulfilled(Logout, None)]);
      r.loading && r.user == None && !r.isAuthenticated
  {
    assert [Pending(LoadUser), Fulfilled(Logout, None)][1..] == [Fulfilled(Logout, None)];
    assert [Fulfilled(Logout, None)][1..] == [];
    assert ReduceAll(Reduce(s, Pending(LoadUser)), [Fulfilled(Logout, None)]) == ReduceAll(Reduce(Reduce(s, Pending(LoadUser)), Fulfilled(Logout, None)), []);
    assert ReduceAll(s, [Pending(LoadUser), Fulfilled(Logout, None)]) == Reduce(Reduce(s, Pending(LoadUser)), Fulfilled(Logout, None));
  }

  /** Clearing the error twice is clearing it once. */
  lemma ClearErrorIdempotent(s: AuthState)
    ensures Reduce(Reduce(s, ClearError), ClearError) == Reduce(s, ClearError)
  {
  }
}

=== FILE: cart_controller.dfy ===
/**
 * The cart endpoints: read (creating lazily), add, change a line's quantity,
 * remove a line, clear, and apply a coupon. Stock is read, never written.
 */
module CartController {
  import opened Common
  import opened Products
  import opened Carts
  import opened Store

  /** The user's stored cart, or the empty cart `Cart.create` would store. */
  function UserCart(s: Shop, user: UserId): Cart {
    if user in s.carts then s.carts[user] else NewCart()
  }

  /** `getCart`: answers the user's cart, storing a new empty one on first access. */
  function GetCart(s: Shop, user: UserId): (r: Reply<Cart>)
    ensures r.result.Ok? && user in r.shop.carts && r.result.value == r.shop.carts[user]
    ensures user in s.carts ==> r.shop == s
    ensures user !in s.carts ==> r.shop == s.(carts := s.carts[user := NewCart()]) && r.result.value.items == []
  {
    if user in s.carts then Done(s, s.carts[user])
    else
      var c := NewCart();
      Done(s.(carts := s.carts[user := c]), c)
  }

  /** The destructuring default: a missing quantity means 1. */
  function Requested(quantity: Option<int>): int {
    if quantity.Some? then quantity.value else 1
  }

  /**
   * `addToCart`: the product must exist and be active; only the requested
   * increment is compared with stock; the product's line is bumped or a new
   * line appended; the cart save rejects a line whose quantity falls below 1,
   * by which time a lazily created cart has already been stored.
   */
  function AddToCart(s: Shop, user: UserId, productId: ProductId, quantity: Option<int>, newLineId: LineId): (r: Reply<Cart>)
    ensures productId !in s.catalog || !s.catalog[productId].isActive ==> r == Fail(s, NotFound)
    ensures productId in s.catalog && s.catalog[productId].isActive && s.catalog[productId].stock < Requested(quantity)
      ==> r == Fail(s, InsufficientStock)
    ensures r.shop.catalog == s.catalog && r.shop.orders == s.orders && r.shop.reviews == s.reviews
    ensures r.result.Err? ==> r.shop == s || (user !in s.carts && r.shop.carts == s.carts[user := NewCart()])
    ensures productId in s.catalog && s.catalog[productId].isActive && Requested(quantity) <= s.catalog[productId].stock ==>
      && (r.result.Ok? <==> QuantitiesValid(AddLine(UserCart(s, user).items, productId, Requested(quantity), s.catalog[productId].price, newLineId)))
      && (r.result.Err? ==> r.result.error == ValidationFailed && r.shop.carts == s.carts[user := UserCart(s, user)])
    ensures r.result.Ok? ==>
      && productId in s.catalog && s.catalog[productId].isActive && Requested(quantity) <= s.catalog[productId].stock
      && r.shop.carts == s.carts[user := r.result.value]
      && r.result.value.items == AddLine(UserCart(s, user).items, productId, Requested(quantity), s.catalog[productId].price, newLineId)
      && QuantitiesValid(r.result.value.items)
      && TotalsOf(r.result.value) == CalculateTotals(r.result.value.items)
  {
    var q := Requested(quantity);
    if productId !in s.catalog || !s.catalog[productId].isActive then Fail(s, NotFound)
    else if s.catalog[productId].stock < q then Fail(s, InsufficientStock)
    else
      var cart := UserCart(s, user);
      var items := AddLine(cart.items, productId, q, s.catalog[productId].price, newLineId);
      if !QuantitiesValid(items) then Fail(s.(carts := s.carts[user := cart]), ValidationFailed)
      else
        var c := Recalculate(cart.(items := items));
        Done(s.(carts := s.carts[user := c]), c)
  }

  /**
   * `updateCartItem`: the cart and the line (by line id) must exist; the new
   * quantity is compared with the product's live stock; the line's total is
   * the stored price times the new quantity; a quantity below 1 fails the save.
   */
  function UpdateCartItem(s: Shop, user: UserId, itemId: LineId, quantity: int): (r: Reply<Cart>)
    ensures user !in s.carts ==> r == Fail(s, NotFound)
    ensures user in s.carts && FindLineById(s.carts[user].items, itemId).None? ==> r == Fail(s, NotFound)
    ensures r.result.Err? ==> r.shop == s
    ensures user in s.carts && FindLineById(s.carts[user].items, itemId).Some? ==>
      var prior := s.carts[user].items;
      var i := FindLineById(prior, itemId).value;
      && (prior[i].product !in s.catalog ==> r == Fail(s, Internal))
      && (prior[i].product in s.catalog && s.catalog[prior[i].product].stock < quantity ==> r == Fail(s, InsufficientStock))
      && (prior[i].product in s.catalog && quantity <= s.catalog[prior[i].product].stock ==>
            && (r.result.Ok? <==> QuantitiesValid(prior[i := SetQuantity(prior[i], quantity)]))
            && (r.result.Err? ==> r.result.error == ValidationFailed))
    ensures r.result.Ok? ==>
      && user in s.carts
      && FindLineById(s.carts[user].items, itemId).Some?
      && (var prior := s.carts[user].items;
          var i := FindLineById(prior, itemId).value;
          && prior[i].product in s.catalog && quantity <= s.catalog[prior[i].product].stock
          && quantity >= 1
          && r.result.value.items == prior[i := SetQuantity(prior[i], quantity)]
          && r.result.value.items[i].totalPrice == prior[i].price * (quantity as real))
      && TotalsOf(r.result.value) == CalculateTotals(r.result.value.items)
      && r.shop == s.(carts := s.carts[user := r.result.value])
  {
    if user !in s.carts then Fail(s, NotFound)
    else
      var cart := s.carts[user];
      match FindLineById(cart.items, itemId)
      case None => Fail(s, NotFound)
      case Some(i) =>
        var line := cart.items[i];
        if line.product !in s.catalog then Fail(s, Internal)
        else if s.catalog[line.product].stock < quantity then Fail(s, InsufficientStock)
        else
          var items := cart.items[i := SetQuantity(line, quantity)];
          if !QuantitiesValid(items) then Fail(s, ValidationFailed)
          else
            var c := Recalculate(cart.(items := items));
            Done(s.(carts := s.carts[user := c]), c)
  }

  /** `removeFromCart`: drops the line with that id (if any) and recomputes the totals. */
  function RemoveFromCart(s: Shop, user: UserId, itemId: LineId): (r: Reply<Cart>)
    ensures user !in s.carts <==> r.result.Err?
    ensures r.result.Err? ==> r == Fail(s, NotFound)
    ensures r.result.Ok? ==>
      && r.result.value.items == RemoveLine(s.carts[user].items, itemId)
      && TotalsOf(r.result.value) == CalculateTotals(r.result.value.items)
      && r.shop == s.(carts := s.carts[user := r.result.value])
  {
    if user !in s.carts then Fail(s, NotFound)
    else
      var c := Recalculate(s.carts[user].(items := RemoveLine(s.carts[user].items, itemId)));
      Done(s.(carts := s.carts[user := c]), c)
  }

  /** `clearCart`: no lines left and, after the recompute, every total is zero. */
  function ClearCart(s: Shop, user: UserId): (r: Reply<Cart>)
    ensures user !in s.carts <==> r.result.Err?
    ensures r.result.Err? ==> r == Fail(s, NotFound)
    ensures r.result.Ok? ==>
      && r.result.value.items == []
      && TotalsOf(r.result.value) == Totals(0.0, 0.0, 0.0, 0.0)
      && r.shop == s.(carts := s.carts[user := r.result.value])
  {
    if user !in s.carts then Fail(s, NotFound)
    else
      var c := Recalculate(s.carts[user].(items := []));
      Done(s.(carts := s.carts[user := c]), c)
  }

  /**
   * `applyCoupon`: the code is checked against the table before the cart is
   * read; an inherited member name passes the check like a listed code. The coupon is set on the in-memory document only: the cart schema has
   * no coupon path, so the save keeps the lines and recomputes the totals
   * without any discount.
   */
  function ApplyCoupon(s: Shop, user: UserId, code: string): (r: Reply<Cart>)
    ensures LookupCoupon(code).None? ==> r == Fail(s, InvalidCoupon)
    ensures LookupCoupon(code).Some? && user !in s.carts ==> r == Fail(s, NotFound)
    ensures r.result.Err? ==> r.shop == s
    ensures r.result.Ok? ==>
      && (code == "SAVE10" || code == "SAVE20" || code in ObjectPrototypeKeys)
      && user in s.carts
      && r.result.value.items == s.carts[user].items
      && TotalsOf(r.result.value) == CalculateTotals(s.carts[user].items)
      && r.shop == s.(carts := s.carts[user := r.result.value])
  {
    match LookupCoupon(code)
    case None => Fail(s, InvalidCoupon)
    case Some(_) =>
      if user !in s.carts then Fail(s, NotFound)
      else
        var c := Recalculate(s.carts[user]);
        Done(s.(carts := s.carts[user := c]), c)
  }

  // ---------------------------------------------------------------------
  // Properties across calls
  // ---------------------------------------------------------------------

  /** Applying a coupon never changes what the customer pays: the totals are those of the lines alone. */
  lemma CouponIgnored(s: Shop, user: UserId)
    requires user in s.carts && ValidCart(s.carts[user])
    ensures ApplyCoupon(s, user, "SAVE10") == Done(s, s.carts[user])
    ensures ApplyCoupon(s, user, "SAVE20") == Done(s, s.carts[user])
  {
    var c := s.carts[user];
    assert Recalculate(c) == c;
    assert s.carts[user := c] == s.carts;
  }

  /**
   * A code such as "toString" is not in the table yet is accepted: with a
   * stored cart it answers that cart as a listed code does, and without one it
   * answers 404 instead of the invalid-coupon error.
   */
  lemma InheritedCodeAccepted(s: Shop, user: UserId, code: string)
    requires code in ObjectPrototypeKeys
    ensures code != "SAVE10" && code != "SAVE20"
    ensures user !in s.carts ==> ApplyCoupon(s, user, code) == Fail(s, NotFound)
    ensures user in s.carts && ValidCart(s.carts[user]) ==> ApplyCoupon(s, user, code) == Done(s, s.carts[user])
  {
    if user in s.carts && ValidCart(s.carts[user]) {
      var c := s.carts[user];
      assert Recalculate(c) == c;
      assert s.carts[user := c] == s.carts;
    }
  }

  /**
   * Only the increment is compared with stock: a product whose line already
   * holds `held` units can be added again as long as the increment alone fits,
   * leaving the line above the live stock.
   */
  lemma AddChecksOnlyIncrement(s: Shop, user: UserId, productId: ProductId, q: int, newLineId: LineId, i: nat)
    requires user in s.carts && ValidCart(s.carts[user])
    requires productId in s.catalog && s.catalog[productId].isActive
    requires i < |s.carts[user].items| && s.carts[user].items[i].product == productId
    requires 1 <= q <= s.catalog[productId].stock < s.carts[user].items[i].quantity + q
    ensures var r := AddToCart(s, user, productId, Some(q), newLineId);
      r.result.Ok? && r.result.value.items[i].quantity > s.catalog[productId].stock
  {
    var items := s.carts[user].items;
    AddLineExisting(items, productId, q, s.catalog[productId].price, newLineId, i);
    var added := AddLine(items, productId, q, s.catalog[productId].price, newLineId);
    assert QuantitiesValid(added) by {
      forall j | 0 <= j < |added| ensures added[j].quantity >= 1 {
        if j != i {
          assert added[j] == items[j];
        }
      }
    }
  }

  /**
   * On a valid stored cart (or none yet), adding at least one unit of an active
   * product that has that many in stock succeeds.
   */
  lemma AddToCartSucceeds(s: Shop, user: UserId, productId: ProductId, quantity: Option<int>, newLineId: LineId)
    requires user in s.carts ==> ValidCart(s.carts[user])
    requires productId in s.catalog && s.catalog[productId].isActive
    requires 1 <= Requested(quantity) <= s.catalog[productId].stock
    ensures AddToCart(s, user, productId, quantity, newLineId).result.Ok?
  {
    AddLineKeepsQuantities(UserCart(s, user).items, productId, Requested(quantity), s.catalog[productId].price, newLineId);
  }

  /**
   * On a valid stored cart, setting an existing line to a quantity between 1
   * and the product's stock succeeds.
   */
  lemma UpdateCartItemSucceeds(s: Shop, user: UserId, itemId: LineId, quantity: int)
    requires user in s.carts && ValidCart(s.carts[user])
    requires FindLineById(s.carts[user].items, itemId).Some?
    requires var l := s.carts[user].items[FindLineById(s.carts[user].items, itemId).value];
      l.product in s.catalog && 1 <= quantity <= s.catalog[l.product].stock
    ensures UpdateCartItem(s, user, itemId, quantity).result.Ok?
  {
    var prior := s.carts[user].items;
    var i := FindLineById(prior, itemId).value;
    var updated := prior[i := SetQuantity(prior[i], quantity)];
    assert QuantitiesValid(updated) by {
      forall j | 0 <= j < |updated| ensures updated[j].quantity >= 1 {
        if j != i {
          assert updated[j] == prior[j];
        }
      }
    }
  }

  /** Every cart endpoint keeps every stored cart valid (given a fresh id for a new line). */
  lemma AddToCartKeepsCartsValid(s: Shop, user: UserId, productId: ProductId, quantity: Option<int>, newLineId: LineId)
    requires ValidCarts(s.carts)
    requires LineIdFresh(UserCart(s, user).items, newLineId)
    ensures ValidCarts(AddToCart(s, user, productId, quantity, newLineId).shop.carts)
  {
    var cart := UserCart(s, user);
    assert ValidCart(cart);
    var q := Requested(quantity);
    if productId in s.catalog && s.catalog[productId].isActive && q <= s.catalog[productId].stock {
      var price := s.catalog[productId].price;
      var items := AddLine(cart.items, productId, q, price, newLineId);
      if QuantitiesValid(items) {
        AddLineKeepsCartValid(cart, productId, q, price, newLineId);
        var c := Recalculate(cart.(items := items));
        assert AddToCart(s, user, productId, quantity, newLineId).shop.carts == s.carts[user := c];
      } else {
        assert AddToCart(s, user, productId, quantity, newLineId).shop.carts == s.carts[user := cart];
      }
    }
  }

  lemma UpdateCartItemKeepsCartsValid(s: Shop, user: UserId, itemId: LineId, quantity: int)
    requires ValidCarts(s.carts)
    ensures ValidCarts(UpdateCartItem(s, user, itemId, quantity).shop.carts)
  {
    var r := UpdateCartItem(s, user, itemId, quantity);
    if r.result.Ok? {
      var items := s.carts[user].items;
      var i := FindLineById(items, itemId).value;
      var updated := r.result.value.items;
      assert forall j :: 0 <= j < |items| && j != i ==> updated[j] == items[j];
    }
  }

  lemma RemoveFromCartKeepsCartsValid(s: Shop, user: UserId, itemId: LineId)
    requires ValidCarts(s.carts)
    ensures ValidCarts(RemoveFromCart(s, user, itemId).shop.carts)
  {
    if user in s.carts {
      RemoveLineKeepsLines(s.carts[user].items, itemId);
    }
  }

  /** With distinct line ids, removal drops exactly the addressed line and keeps the rest in order. */
  lemma RemoveDropsExactlyThatLine(s: Shop, user: UserId, k: nat)
    requires user in s.carts && ValidCart(s.carts[user]) && k < |s.carts[user].items|
    ensures var items := s.carts[user].items;
      RemoveFromCart(s, user, items[k].id).result.value.items == items[..k] + items[k + 1..]
  {
    RemoveLineExactly(s.carts[user].items, k);
  }
}

=== FILE: cart_slice.dfy ===
/**
 * The client's cart state: the last cart the server answered, the request
 * status of loading it, and whether the cart drawer is open.
 */
module CartSlice {
  import opened Common
  import opened Carts

  datatype CartState = CartState(cart: Option<Cart>, loading: bool, error: Option<string>, isOpen: bool)

  /** The four cart-changing requests, whose results all carry the new cart. */
  datatype Mutation = AddItem | UpdateItem | RemoveItem | ClearItems

  datatype CartAction =
    | ToggleCart
    | OpenCart
    | CloseCart
    | FetchPending
    | FetchFulfilled(cart: Option<Cart>)
    | FetchRejected(message: Option<string>)
    | MutationPending(mutation: Mutation)
    | MutationFulfilled(mutation: Mutation, cart: Option<Cart>)
    | MutationRejected(mutation: Mutation, message: Option<string>)

  const Initial: CartState := CartState(None, false, None, false)

  /** The drawer actions. */
  predicate Drawer(a: CartAction) {
    a.ToggleCart? || a.OpenCart? || a.CloseCart?
  }

  function Reduce(s: CartState, a: CartAction): (r: CartState)
    ensures a == ToggleCart ==> r == s.(isOpen := !s.isOpen)
    ensures a == OpenCart ==> r == s.(isOpen := true)
    ensures a == CloseCart ==> r == s.(isOpen := false)
    ensures a == FetchPending ==> r == s.(loading := true)
    ensures a.FetchFulfilled? ==> r == s.(loading := false, cart := a.cart, error := None)
    ensures a.FetchRejected? ==> r == s.(loading := false, error := a.message)
    ensures a.MutationFulfilled? ==> r == s.(cart := a.cart)
    ensures a.MutationPending? || a.MutationRejected? ==> r == s
    ensures !Drawer(a) ==> r.isOpen == s.isOpen
    ensures Drawer(a) ==> r.cart == s.cart && r.loading == s.loading && r.error == s.error
  {
    match a
    case ToggleCart => s.(isOpen := !s.isOpen)
    case OpenCart => s.(isOpen := true)
    case CloseCart => s.(isOpen := false)
    case FetchPending => s.(loading := true)
    case FetchFulfilled(c) => s.(loading := false, cart := c, error := None)
    case FetchRejected(m) => s.(loading := false, error := m)
    case MutationPending(_) => s
    case MutationFulfilled(_, c) => s.(cart := c)
    case MutationRejected(_, _) => s
  }

  /** Toggling twice changes nothing; opening or closing twice is doing it once. */
  lemma DrawerAlgebra(s: CartState)
    ensures Reduce(Reduce(s, ToggleCart), ToggleCart) == s
    ensures Reduce(Reduce(s, OpenCart), OpenCart) == Reduce(s, OpenCart)
    ensures Reduce(Reduce(s, CloseCart), CloseCart) == Reduce(s, CloseCart)
    ensures Reduce(s, ToggleCart) == (if s.isOpen then Reduce(s, CloseCart) else Reduce(s, OpenCart))
  {
  }

  function ReduceAll(s: CartState, actions: seq<CartAction>): CartState
    decreases |actions|
  {
    if |actions| == 0 then s else ReduceAll(Reduce(s, actions[0]), actions[1..])
  }

  /** Without drawer actions the drawer stays as it was, whatever the requests do. */
  lemma {:induction false} RequestsLeaveDrawer(s: CartState, actions: seq<CartAction>)
    requires forall k :: 0 <= k < |actions| ==> !Drawer(actions[k])
    ensures ReduceAll(s, actions).isOpen == s.isOpen
    decreases |actions|
  {
    if |actions| > 0 {
      assert forall k :: 0 <= k < |actions| - 1 ==> actions[1..][k] == actions[k + 1];
      RequestsLeaveDrawer(Reduce(s, actions[0]), actions[1..]);
    }
  }

  /** A failed fetch keeps the cart the client already had. */
  lemma FailedFetchKeepsCart(s: CartState, m: Option<string>)
    ensures ReduceAll(s, [FetchPending, FetchRejected(m)]).cart == s.cart
    ensures !ReduceAll(s, [FetchPending, FetchRejected(m)]).loading
  {
    assert [FetchPending, FetchRejected(m)][1..] == [FetchRejected(m)];
    assert [FetchRejected(m)][1..] == [];
    assert ReduceAll(Reduce(s, FetchPending), [FetchRejected(m)]) == ReduceAll(Reduce(Reduce(s, FetchPending), FetchRejected(m)), []);
    assert ReduceAll(s, [FetchPending, FetchRejected(m)]) == Reduce(Reduce(s, FetchPending), FetchRejected(m));
  }

  /** A cart change that settles leaves the loading flag and the error as they were. */
  lemma MutationLeavesStatus(s: CartState, m: Mutation, c: Option<Cart>)
    ensures var r := ReduceAll(s, [MutationPending(m), MutationFulfilled(m, c)]);
      r.loading == s.loading && r.error == s.error && r.cart == c
  {
    assert [MutationPending(m), MutationFulfilled(m, c)][1..] == [MutationFulfilled(m, c)];
    assert [MutationFulfilled(m, c)][1..] == [];
    assert ReduceAll(Reduce(s, MutationPending(m)), [MutationFulfilled(m, c)]) == ReduceAll(Reduce(Reduce(s, MutationPending(m)), MutationFulfilled(m, c)), []);
    assert ReduceAll(s, [MutationPending(m), MutationFulfilled(m, c)]) == Reduce(Reduce(s, MutationPending(m)), MutationFulfilled(m, c));
  }
}

=== FILE: carts.dfy ===
/**
 * The cart document: its lines, the totals `calculateTotals` derives from
 * them, the coupon table, and the line-level edits the cart controller makes.
 * The cart schema has no coupon field, so a cart never carries one.
 */
module Carts {
  import opened Common

  /** A cart line: the price is captured when the product is first added. */
  datatype Line = Line(id: LineId, product: ProductId, quantity: int, price: real, totalPrice: real)

  datatype Cart = Cart(items: seq<Line>, subtotal: real, tax: real, shipping: real, total: real)

  datatype Totals = Totals(subtotal: real, tax: real, shipping: real, total: real)

  const TaxRate: real := 0.1
  const FreeShippingOver: real := 50.0
  const ShippingFee: real := 10.0

  /** The fresh cart `Cart.create` stores: no lines, every total at its default 0. */
  function NewCart(): (c: Cart)
    ensures c.items == [] && c.total == 0.0
  {
    Cart([], 0.0, 0.0, 0.0, 0.0)
  }

  function TotalsOf(c: Cart): Totals {
    Totals(c.subtotal, c.tax, c.shipping, c.total)
  }

  /** The sum of the line totals, folded left to right as `reduce` does. */
  function LineSum(items: seq<Line>): real
  {
    if |items| == 0 then 0.0 else LineSum(items[..|items| - 1]) + items[|items| - 1].totalPrice
  }

  /**
   * `calculateTotals`: an empty cart is all zeros; otherwise 10% tax, a flat
   * 10 shipping unless the subtotal exceeds 50, and the total adds the three.
   */
  function CalculateTotals(items: seq<Line>): (t: Totals)
    ensures |items| == 0 ==> t == Totals(0.0, 0.0, 0.0, 0.0)
    ensures |items| > 0 ==> t.subtotal == LineSum(items)
    ensures t.tax == t.subtotal * TaxRate
    ensures |items| > 0 ==> (t.shipping == 0.0 <==> t.subtotal > FreeShippingOver)
    ensures t.shipping == 0.0 || t.shipping == ShippingFee
    ensures t.total == t.subtotal + t.tax + t.shipping
  {
    if |items| == 0 then Totals(0.0, 0.0, 0.0, 0.0)
    else
      var subtotal := LineSum(items);
      var tax := subtotal * TaxRate;
      var shipping := if subtotal > FreeShippingOver then 0.0 else ShippingFee;
      Totals(subtotal, tax, shipping, subtotal + tax + shipping)
  }

  /**
   * The same totals computed the way the source does it: one pass over the
   * lines accumulating the subtotal, then tax, shipping and total.
   */
  method ComputeTotals(items: seq<Line>) returns (t: Totals)
    ensures t == CalculateTotals(items)
  {
    if |items| == 0 {
      return Totals(0.0, 0.0, 0.0, 0.0);
    }
    var sum := 0.0;
    var i := 0;
    while i < |items|
      invariant 0 <= i <= |items|
      invariant sum == LineSum(items[..i])
    {
      assert items[..i + 1][..i] == items[..i];
      sum := sum + items[i].totalPrice;
      i := i + 1;
    }
    assert items[..i] == items;
    var tax := sum * TaxRate;
    var shipping := if sum > FreeShippingOver then 0.0 else ShippingFee;
    t := Totals(sum, tax, shipping, sum + tax + shipping);
  }

  /** The cart with its totals recomputed from its lines. */
  function Recalculate(c: Cart): (r: Cart)
    ensures r.items == c.items
    ensures TotalsOf(r) == CalculateTotals(c.items)
  {
    var t := CalculateTotals(c.items);
    c.(subtotal := t.subtotal, tax := t.tax, shipping := t.shipping, total := t.total)
  }

  /** Totals depend only on the lines, so recomputing twice is recomputing once. */
  lemma RecalculateIdempotent(c: Cart)
    ensures Recalculate(Recalculate(c)) == Recalculate(c)
  {
  }

  predicate LineTotalsNonNegative(items: seq<Line>) {
    forall i :: 0 <= i < |items| ==> items[i].totalPrice >= 0.0
  }

  lemma {:induction false} LineSumNonNegative(items: seq<Line>)
    requires LineTotalsNonNegative(items)
    ensures LineSum(items) >= 0.0
  {
    if |items| > 0 {
      var front := items[..|items| - 1];
      assert LineTotalsNonNegative(front) by {
        forall i | 0 <= i < |front| ensures front[i].totalPrice >= 0.0 {
          assert front[i] == items[i];
        }
      }
      LineSumNonNegative(front);
    }
  }

  /** With non-negative line totals, 0 <= subtotal <= total <= 1.1 * subtotal + 10. */
  lemma TotalsBounds(items: seq<Line>)
    requires LineTotalsNonNegative(items)
    ensures var t := CalculateTotals(items);
      0.0 <= t.subtotal <= t.total <= t.subtotal * (1.0 + TaxRate) + ShippingFee
  {
    if |items| > 0 {
      LineSumNonNegative(items);
    }
  }

  /** The threshold is strict: a non-empty subtotal of exactly 50 still pays the fee. */
  lemma ShippingAtThreshold(items: seq<Line>)
    requires |items| > 0 && LineSum(items) == FreeShippingOver
    ensures CalculateTotals(items) == Totals(50.0, 5.0, 10.0, 65.0)
  {
  }

  /** Three units at 20 give subtotal 60, tax 6, free shipping, total 66. */
  lemma ThreeAtTwentyExample(id: LineId, p: ProductId)
    ensures CalculateTotals([Line(id, p, 3, 20.0, 60.0)]) == Totals(60.0, 6.0, 0.0, 66.0)
  {
    var items := [Line(id, p, 3, 20.0, 60.0)];
    assert items[..0] == [];
    assert LineSum(items) == 60.0;
  }

  // ---------------------------------------------------------------------
  // Line invariants
  // ---------------------------------------------------------------------

  predicate LinePriced(l: Line) {
    l.totalPrice == l.price * (l.quantity as real)
  }

  /** The `min: 1` validator on every line's quantity, checked when the cart is saved. */
  predicate QuantitiesValid(items: seq<Line>) {
    forall i :: 0 <= i < |items| ==> items[i].quantity >= 1
  }

  predicate DistinctLineIds(items: seq<Line>) {
    forall i, j :: 0 <= i < j < |items| ==> items[i].id != items[j].id
  }

  predicate DistinctProducts(items: seq<Line>) {
    forall i, j :: 0 <= i < j < |items| ==> items[i].product != items[j].product
  }

  predicate LineIdFresh(items: seq<Line>, id: LineId) {
    forall i :: 0 <= i < |items| ==> items[i].id != id
  }

  /**
   * What every cart mutation keeps: quantities of at least 1, line totals equal
   * to price times quantity, one line per id and per product, and totals
   * derived from the lines.
   */
  predicate ValidCart(c: Cart) {
    && QuantitiesValid(c.items)
    && (forall i :: 0 <= i < |c.items| ==> LinePriced(c.items[i]))
    && DistinctLineIds(c.items)
    && DistinctProducts(c.items)
    && TotalsOf(c) == CalculateTotals(c.items)
  }

  /** `items.find(item => item.product == productId)`: the first line for the product. */
  function FindLineByProduct(items: seq<Line>, p: ProductId): (r: Option<nat>)
    ensures r.Some? ==> r.value < |items| && items[r.value].product == p
    ensures r.Some? ==> forall j :: 0 <= j < r.value ==> items[j].product != p
    ensures r.None? ==> forall j :: 0 <= j < |items| ==> items[j].product != p
    decreases |items|
  {
    if |items| == 0 then None
    else if items[0].product == p then Some(0)
    else match FindLineByProduct(items[1..], p)
      case None => None
      case Some(k) => Some(k + 1)
  }

  /** `items.id(itemId)`: the first line with that id. */
  function FindLineById(items: seq<Line>, id: LineId): (r: Option<nat>)
    ensures r.Some? ==> r.value < |items| && items[r.value].id == id
    ensures r.Some? ==> forall j :: 0 <= j < r.value ==> items[j].id != id
    ensures r.None? ==> forall j :: 0 <= j < |items| ==> items[j].id != id
    decreases |items|
  {
    if |items| == 0 then None
    else if items[0].id == id then Some(0)
    else match FindLineById(items[1..], id)
      case None => None
      case Some(k) => Some(k + 1)
  }

  /** The line with a new quantity, its total recomputed from the price stored on the line. */
  function SetQuantity(l: Line, q: int): (r: Line)
    ensures r.id == l.id && r.product == l.product && r.price == l.price
    ensures r.quantity == q && LinePriced(r)
  {
    l.(quantity := q, totalPrice := l.price * (q as real))
  }

  /**
   * The merge `addToCart` performs: a product already in the cart has its line's
   * quantity raised (at the line's stored price); otherwise one new line is
   * appended at the given current price.
   */
  function AddLine(items: seq<Line>, p: ProductId, q: int, price: real, newId: LineId): (r: seq<Line>)
    ensures |r| == (if FindLineByProduct(items, p).Some? then |items| else |items| + 1)
    ensures forall k :: 0 <= k < |items| && items[k].product != p ==> r[k] == items[k]
    ensures exists k :: 0 <= k < |r| && r[k].product == p
  {
    match FindLineByProduct(items, p)
    case Some(i) =>
      var r := items[i := SetQuantity(items[i], items[i].quantity + q)];
      assert r[i].product == p;
      r
    case None =>
      var r := items + [Line(newId, p, q, price, price * (q as real))];
      assert r[|items|].product == p;
      r
  }

  /** Re-adding a product bumps only its existing line, priced at the stored price, never the current one. */
  lemma AddLineExisting(items: seq<Line>, p: ProductId, q: int, price: real, newId: LineId, i: nat)
    requires DistinctProducts(items)
    requires i < |items| && items[i].product == p
    ensures var r := AddLine(items, p, q, price, newId);
      && |r| == |items|
      && r[i].quantity == items[i].quantity + q
      && r[i].price == items[i].price
      && r[i].totalPrice == (r[i].quantity as real) * items[i].price
      && r[i].id == items[i].id && r[i].product == p
      && (forall j :: 0 <= j < |items| && j != i ==> r[j] == items[j])
  {
    var k := FindLineByProduct(items, p);
    assert k == Some(i);
  }

  /** A product not yet in the cart gets exactly one new line at the current price, appended last. */
  lemma AddLineNew(items: seq<Line>, p: ProductId, q: int, price: real, newId: LineId)
    requires forall j :: 0 <= j < |items| ==> items[j].product != p
    ensures AddLine(items, p, q, price, newId) == items + [Line(newId, p, q, price, price * (q as real))]
  {
  }

  /** Adding keeps one line per product, and one per id when the new id is fresh. */
  lemma AddLineKeepsDistinct(items: seq<Line>, p: ProductId, q: int, price: real, newId: LineId)
    requires DistinctProducts(items) && DistinctLineIds(items) && LineIdFresh(items, newId)
    ensures DistinctProducts(AddLine(items, p, q, price, newId))
    ensures DistinctLineIds(AddLine(items, p, q, price, newId))
  {
  }

  /** Adding a positive quantity to lines that all hold at least one unit keeps them so. */
  lemma AddLineKeepsQuantities(items: seq<Line>, p: ProductId, q: int, price: real, newId: LineId)
    requires QuantitiesValid(items) && q >= 1
    ensures QuantitiesValid(AddLine(items, p, q, price, newId))
  {
    var r := AddLine(items, p, q, price, newId);
    match FindLineByProduct(items, p)
    case Some(i) =>
      assert r == items[i := SetQuantity(items[i], items[i].quantity + q)];
    case None =>
      assert r == items + [Line(newId, p, q, price, price * (q as real))];
  }

  /** A valid cart stays valid when a line is added with a fresh id and the quantities stay positive. */
  lemma AddLineKeepsCartValid(c: Cart, p: ProductId, q: int, price: real, newId: LineId)
    requires ValidCart(c) && LineIdFresh(c.items, newId)
    requires QuantitiesValid(AddLine(c.items, p, q, price, newId))
    ensures ValidCart(Recalculate(c.(items := AddLine(c.items, p, q, price, newId))))
  {
    AddLineKeepsDistinct(c.items, p, q, price, newId);
    AddLinePriced(c.items, p, q, price, newId);
  }

  /** Adding keeps every line total equal to price times quantity. */
  lemma AddLinePriced(items: seq<Line>, p: ProductId, q: int, price: real, newId: LineId)
    requires forall j :: 0 <= j < |items| ==> LinePriced(items[j])
    ensures var r := AddLine(items, p, q, price, newId);
      forall j :: 0 <= j < |r| ==> LinePriced(r[j])
  {
    var r := AddLine(items, p, q, price, newId);
    forall j | 0 <= j < |r| ensures LinePriced(r[j]) {
      match FindLineByProduct(items, p)
      case Some(k) =>
        if j != k {
          assert r[j] == items[j];
        }
      case None =>
        if j < |items| {
          assert r[j] == items[j];
        }
    }
  }

  /** `items.filter(item => item._id != itemId)`. */
  function RemoveLine(items: seq<Line>, id: LineId): (r: seq<Line>)
    ensures |r| <= |items|
    ensures forall j :: 0 <= j < |r| ==> r[j].id != id
    decreases |items|
  {
    if |items| == 0 then []
    else if items[0].id == id then RemoveLine(items[1..], id)
    else [items[0]] + RemoveLine(items[1..], id)
  }

  /** A list without the id passes the filter untouched. */
  lemma {:induction false} RemoveAbsentLine(items: seq<Line>, id: LineId)
    requires LineIdFresh(items, id)
    ensures RemoveLine(items, id) == items
    decreases |items|
  {
    if |items| > 0 {
      RemoveAbsentLine(items[1..], id);
      assert [items[0]] + items[1..] == items;
    }
  }

  /** With distinct ids, removing the line at index k leaves the others in their order and with their values. */
  lemma {:induction false} RemoveLineExactly(items: seq<Line>, k: nat)
    requires DistinctLineIds(items) && k < |items|
    ensures RemoveLine(items, items[k].id) == items[..k] + items[k + 1..]
    decreases |items|
  {
    var id := items[k].id;
    if k == 0 {
      assert LineIdFresh(items[1..], id) by {
        forall j | 0 <= j < |items[1..]| ensures items[1..][j].id != id {
          assert items[1..][j] == items[j + 1];
        }
      }
      RemoveAbsentLine(items[1..], id);
    } else {
      var tail := items[1..];
      assert DistinctLineIds(tail) by {
        forall i, j | 0 <= i < j < |tail| ensures tail[i].id != tail[j].id {
          assert tail[i] == items[i + 1] && tail[j] == items[j + 1];
        }
      }
      assert tail[k - 1] == items[k];
      RemoveLineExactly(tail, k - 1);
      assert items[0].id != id;
      assert [items[0]] + (tail[..k - 1] + tail[k..]) == items[..k] + items[k + 1..];
    }
  }

  /** Filtering preserves the per-line invariants and the distinctness of ids and products. */
  lemma RemoveLineKeepsLines(items: seq<Line>, id: LineId)
    requires QuantitiesValid(items) && DistinctLineIds(items) && DistinctProducts(items)
    requires forall i :: 0 <= i < |items| ==> LinePriced(items[i])
    ensures var r := RemoveLine(items, id);
      QuantitiesValid(r) && DistinctLineIds(r) && DistinctProducts(r) &&
      (forall i :: 0 <= i < |r| ==> LinePriced(r[i]))
  {
    match FindLineById(items, id)
    case None =>
      RemoveAbsentLine(items, id);
    case Some(k) =>
      RemoveLineExactly(items, k);
      var r := items[..k] + items[k + 1..];
      forall j | 0 <= j < |r| ensures r[j] == items[if j < k then j else j + 1] {
      }
      assert DistinctLineIds(r) by {
        forall i, j | 0 <= i < j < |r| ensures r[i].id != r[j].id {
          assert r[i] == items[if i < k then i else i + 1];
          assert r[j] == items[if j < k then j else j + 1];
        }
      }
      assert DistinctProducts(r) by {
        forall i, j | 0 <= i < j < |r| ensures r[i].product != r[j].product {
          assert r[i] == items[if i < k then i else i + 1];
          assert r[j] == items[if j < k then j else j + 1];
        }
      }
  }

  // ---------------------------------------------------------------------
  // Coupons
  // ---------------------------------------------------------------------

  datatype DiscountType = Percentage | Fixed

  /**
   * A coupon found in the table. A code naming a member every JavaScript
   * object inherits (`toString`, `constructor`, ...) also reads a truthy value
   * from the table; it carries no discount fields.
   */
  datatype Coupon = Coupon(code: string, discount: real, discountType: DiscountType) | Inherited(code: string)

  /** The names `Object.prototype` provides to every object literal. */
  const ObjectPrototypeKeys: set<string> := {
    "constructor", "hasOwnProperty", "isPrototypeOf", "propertyIsEnumerable",
    "toLocaleString", "toString", "valueOf", "__proto__",
    "__defineGetter__", "__defineSetter__", "__lookupGetter__", "__lookupSetter__"}

  /**
   * The hard-coded coupon table, read by property access: SAVE10 is 10
   * percent, SAVE20 is 20 off, an inherited member name is found with no
   * fields, and anything else is unknown.
   */
  function LookupCoupon(code: string): (r: Option<Coupon>)
    ensures r.Some? <==> code == "SAVE10" || code == "SAVE20" || code in ObjectPrototypeKeys
    ensures code == "SAVE10" ==> r == Some(Coupon("SAVE10", 10.0, Percentage))
    ensures code == "SAVE20" ==> r == Some(Coupon("SAVE20", 20.0, Fixed))
    ensures code in ObjectPrototypeKeys ==> r == Some(Inherited(code))
  {
    if code == "SAVE10" then Some(Coupon(code, 10.0, Percentage))
    else if code == "SAVE20" then Some(Coupon(code, 20.0, Fixed))
    else if code in ObjectPrototypeKeys then Some(Inherited(code))
    else None
  }
}

=== FILE: common.dfy ===
/**
 * Identifiers, roles and the error vocabulary shared by every part of the shop.
 * Document ids (Mongo ObjectIds) are modelled as natural numbers.
 */
module Common {

  type ProductId = nat
  type UserId = nat
  type LineId = nat
  type OrderId = nat
  type ReviewId = nat

  /** The role carried by the authenticated user of a request. */
  datatype Role = Customer | Admin

  datatype Option<T> = None | Some(value: T)

  /** A request string that JavaScript treats as true: present and not empty. */
  predicate Supplied(x: Option<string>) {
    x.Some? && x.value != ""
  }

  /**
   * What a controller answers instead of its payload. The comment gives the
   * HTTP status the source responds with.
   */
  datatype Error =
    | NotFound                          // 404
    | InsufficientStock                 // 400 'Insufficient stock' (cart)
    | OutOfStock(productName: string)   // 400 '<name> is out of stock' (checkout)
    | EmptyCart                         // 400 'Cart is empty'
    | Forbidden                         // 403
    | CannotCancel                      // 400 'Order cannot be cancelled'
    | InvalidCoupon                     // 400 'Invalid coupon code'
    | DuplicateReview                   // 400 'You have already reviewed this product'
    | ValidationFailed                  // a schema validator or cast rejects a save (500)
    | DuplicateKey                      // a unique index rejects an insert (500)
    | Internal                          // a property read on a missing document throws (500)
    | Reopen                            // the guarded status update: a cancelled order stays cancelled

  datatype Result<T> = Ok(value: T) | Err(error: Error)
}

=== FILE: helpers.dfy ===
/**
 * The backend's small helpers: the discount percentage shown for a compare
 * price, the page window of a paginated query, and the sort specification
 * parsed from a "field:order,field:order" string.
 */
module Helpers {
  import opened Common
  import opened Text

  // ---------------------------------------------------------------------
  // calculateDiscount
  // ---------------------------------------------------------------------

  /** `Math.round`: the nearest integer, halves rounded up. */
  function Round(x: real): (n: int)
    ensures n as real - 0.5 <= x < n as real + 0.5
  {
    (x + 0.5).Floor
  }

  /** The exact percentage saved against the compare price. */
  function SavedPercent(price: real, comparePrice: real): real
    requires comparePrice != 0.0
  {
    (comparePrice - price) / comparePrice * 100.0
  }

  /**
   * The discount: 0 when the compare price is absent or 0 (JavaScript treats
   * both as false) or not above the price; otherwise the saved percentage,
   * rounded.
   */
  function CalculateDiscount(price: real, comparePrice: Option<real>): (d: int)
    ensures comparePrice.None? || comparePrice.value == 0.0 || comparePrice.value <= price ==> d == 0
    ensures comparePrice.Some? && comparePrice.value != 0.0 && comparePrice.value > price ==>
      d as real - 0.5 <= SavedPercent(price, comparePrice.value) < d as real + 0.5
  {
    if comparePrice.None? || comparePrice.value == 0.0 || comparePrice.value <= price then 0
    else Round(SavedPercent(price, comparePrice.value))
  }

  /** For a non-negative price the discount is a percentage: between 0 and 100. */
  lemma DiscountInRange(price: real, comparePrice: Option<real>)
    requires price >= 0.0
    ensures 0 <= CalculateDiscount(price, comparePrice) <= 100
  {
    if comparePrice.Some? && comparePrice.value != 0.0 && comparePrice.value > price {
      var c := comparePrice.value;
      var x := SavedPercent(price, c);
      assert (c - price) / c <= 1.0 by {
        assert (c - price) <= c;
        DivAtMostOne(c - price, c);
      }
      assert 0.0 < (c - price) / c;
      assert 0.0 < x <= 100.0;
    }
  }

  lemma DivAtMostOne(a: real, c: real)
    requires 0.0 < c && a <= c
    ensures a / c <= 1.0
  {
  }

  /** A negative price can push the discount above 100. */
  lemma NegativePriceExceedsHundred()
    ensures CalculateDiscount(-10.0, Some(10.0)) == 200
  {
    assert SavedPercent(-10.0, 10.0) == 200.0;
  }

  /** Half off shows as 50, and a free item against any positive compare price as 100. */
  lemma DiscountExamples(c: real)
    requires c > 0.0
    ensures CalculateDiscount(50.0, Some(100.0)) == 50
    ensures CalculateDiscount(0.0, Some(c)) == 100
  {
    assert SavedPercent(50.0, 100.0) == 50.0;
    assert SavedPercent(0.0, c) == 100.0;
  }

  // ---------------------------------------------------------------------
  // paginate
  // ---------------------------------------------------------------------

  const DefaultPage: int := 1
  const DefaultLimit: int := 10

  datatype PageSpec = PageSpec(skip: int, limit: int, page: int)

  /**
   * `paginate`: each of page and limit is the parsed integer (None when
   * absent or not a number) and falls back to its default when that is
   * missing or 0; skip is (page − 1) × limit.
   */
  function Paginate(page: Option<int>, limit: Option<int>): (r: PageSpec)
    ensures r.page == (if page.None? || page.value == 0 then DefaultPage else page.value)
    ensures r.limit == (if limit.None? || limit.value == 0 then DefaultLimit else limit.value)
    ensures r.page != 0 && r.limit != 0
    ensures r.skip == (r.page - 1) * r.limit
  {
    var pg := if page.None? || page.value == 0 then DefaultPage else page.value;
    var lim := if limit.None? || limit.value == 0 then DefaultLimit else limit.value;
    PageSpec((pg - 1) * lim, lim, pg)
  }

  /** Consecutive pages are adjacent: the next page starts where this one ends, and page 1 starts at 0. */
  lemma PagesTile(page: int, limit: Option<int>)
    requires page >= 1
    ensures Paginate(Some(1), limit).skip == 0
    ensures Paginate(Some(page + 1), limit).skip == Paginate(Some(page), limit).skip + Paginate(Some(page), limit).limit
  {
    var l := Paginate(Some(page), limit).limit;
    assert page * l == (page - 1) * l + l;
  }

  /** A request with no usable parameters reads the first ten items. */
  lemma PaginateDefaults(page: Option<int>, limit: Option<int>)
    requires page.None? || page == Some(0)
    requires limit.None? || limit == Some(0)
    ensures Paginate(page, limit) == PageSpec(0, 10, 1)
  {
  }

  // ---------------------------------------------------------------------
  // buildSortOptions
  // ---------------------------------------------------------------------

  /** A sort specification: field names with 1 (ascending) or −1 (descending), in key order. */
  type SortSpec = seq<(string, int)>

  /** Reading an own key of the object. */
  function Lookup(m: SortSpec, field: string): Option<int>
  {
    if |m| == 0 then None
    else if m[|m| - 1].0 == field then Some(m[|m| - 1].1)
    else Lookup(m[..|m| - 1], field)
  }

  lemma {:induction false} LookupNone(m: SortSpec, field: string)
    ensures Lookup(m, field).None? <==> forall k :: 0 <= k < |m| ==> m[k].0 != field
    decreases |m|
  {
    if |m| > 0 {
      var n := |m| - 1;
      LookupNone(m[..n], field);
      assert forall k :: 0 <= k < n ==> m[..n][k] == m[k];
    }
  }

  predicate AllDirections(m: SortSpec) {
    forall k :: 0 <= k < |m| ==> m[k].1 == -1 || m[k].1 == 1
  }

  predicate DistinctKeys(m: SortSpec) {
    forall i, j :: 0 <= i < j < |m| ==> m[i].0 != m[j].0
  }

  /**
   * The one key an object literal inherits an accessor for: assigning to it
   * calls the `Object.prototype.__proto__` setter, which ignores a number.
   */
  const ProtoKey: string := "__proto__"

  predicate NoProtoKey(m: SortSpec) {
    forall k :: 0 <= k < |m| ==> m[k].0 != ProtoKey
  }

  /**
   * Assigning an object key: an existing key keeps its position and takes the
   * new value, a new key goes last, and a number assigned to `__proto__`
   * stores nothing.
   */
  function Put(m: SortSpec, field: string, v: int): (r: SortSpec)
    ensures field == ProtoKey ==> r == m
    ensures field != ProtoKey ==> (|r| == |m| || |r| == |m| + 1) && |r| > 0
    decreases |m|
  {
    if field == ProtoKey then m
    else if |m| == 0 then [(field, v)]
    else if m[|m| - 1].0 == field then m[..|m| - 1] + [(field, v)]
    else Put(m[..|m| - 1], field, v) + [m[|m| - 1]]
  }

  /**
   * After the assignment the key reads the new value, unless it is
   * `__proto__`, and every other key reads as before.
   */
  lemma {:induction false} PutLookup(m: SortSpec, field: string, v: int, f: string)
    ensures Lookup(Put(m, field, v), f) == if f == field && field != ProtoKey then Some(v) else Lookup(m, f)
    decreases |m|
  {
    var r := Put(m, field, v);
    if field != ProtoKey && |m| > 0 {
      var n := |m| - 1;
      if m[n].0 == field {
        assert r[..n] == m[..n];
      } else {
        assert r[..|r| - 1] == Put(m[..n], field, v);
        PutLookup(m[..n], field, v, f);
      }
    }
  }

  /** Assigning never stores `__proto__`. */
  lemma {:induction false} PutKeepsProtoOut(m: SortSpec, field: string, v: int)
    requires NoProtoKey(m)
    ensures NoProtoKey(Put(m, field, v))
    decreases |m|
  {
    if field != ProtoKey && |m| > 0 {
      var n := |m| - 1;
      assert forall k :: 0 <= k < n ==> m[..n][k] == m[k];
      if m[n].0 != field {
        PutKeepsProtoOut(m[..n], field, v);
      }
    }
  }

  /** Assigning keeps the keys distinct and the values directions. */
  lemma {:induction false} PutKeeps(m: SortSpec, field: string, v: int)
    ensures DistinctKeys(m) ==> DistinctKeys(Put(m, field, v))
    ensures AllDirections(m) && (v == -1 || v == 1) ==> AllDirections(Put(m, field, v))
    decreases |m|
  {
    var r := Put(m, field, v);
    if field != ProtoKey && |m| > 0 {
      var n := |m| - 1;
      if m[n].0 == field {
        assert forall k :: 0 <= k < n ==> r[k] == m[k];
      } else {
        var p := Put(m[..n], field, v);
        assert r == p + [m[n]];
        PutKeeps(m[..n], field, v);
        assert forall k :: 0 <= k < n ==> m[..n][k] == m[k];
        if DistinctKeys(m) {
          LookupNone(m[..n], m[n].0);
          PutLookup(m[..n], field, v, m[n].0);
          LookupNone(p, m[n].0);
        }
      }
    }
  }

  /** The field of a "field:order" part: what precedes the first colon. */
  function FieldOf(part: string): string {
    Split(part, ':')[0]
  }

  /** −1 exactly when the order piece is "desc"; a missing or other order is ascending. */
  function DirectionOf(part: string): (d: int)
    ensures d == -1 || d == 1
  {
    var pieces := Split(part, ':');
    if |pieces| >= 2 && pieces[1] == "desc" then -1 else 1
  }

  /** Each part read as its field and direction. */
  function ParseParts(parts: seq<string>): (r: SortSpec)
    ensures |r| == |parts|
    ensures forall i :: 0 <= i < |r| ==> r[i] == (FieldOf(parts[i]), DirectionOf(parts[i]))
  {
    if |parts| == 0 then [] else [(FieldOf(parts[0]), DirectionOf(parts[0]))] + ParseParts(parts[1..])
  }

  /** The `forEach` over the parsed parts, left to right, assigning each into the object. */
  function Assign(entries: SortSpec): SortSpec
    decreases |entries|
  {
    if |entries| == 0 then []
    else Put(Assign(entries[..|entries| - 1]), entries[|entries| - 1].0, entries[|entries| - 1].1)
  }

  lemma {:induction false} AssignKeeps(entries: SortSpec)
    ensures DistinctKeys(Assign(entries)) && NoProtoKey(Assign(entries))
    ensures AllDirections(entries) ==> AllDirections(Assign(entries))
    decreases |entries|
  {
    if |entries| > 0 {
      var n := |entries| - 1;
      AssignKeeps(entries[..n]);
      assert AllDirections(entries) ==> AllDirections(entries[..n]) by {
        assert forall k :: 0 <= k < n ==> entries[..n][k] == entries[k];
      }
      PutKeeps(Assign(entries[..n]), entries[n].0, entries[n].1);
      PutKeepsProtoOut(Assign(entries[..n]), entries[n].0, entries[n].1);
    }
  }

  /**
   * `buildSortOptions`: nothing for an absent or empty string, else one key per
   * distinct field other than `__proto__`, each a direction.
   */
  function BuildSortOptions(sortString: Option<string>): (r: SortSpec)
    ensures !Supplied(sortString) ==> r == []
    ensures DistinctKeys(r) && AllDirections(r) && NoProtoKey(r)
  {
    if !Supplied(sortString) then []
    else
      var entries := ParseParts(Split(sortString.value, ','));
      AssignKeeps(entries);
      Assign(entries)
  }

  /** The entry that decides a field: the last one naming it. */
  predicate DecidedBy(entries: SortSpec, field: string, i: int) {
    0 <= i < |entries| && entries[i].0 == field &&
    forall j :: i < j < |entries| ==> entries[j].0 != field
  }

  /** A field is in the specification exactly when some entry names it and it is not `__proto__`. */
  lemma {:induction false} AssignNamed(entries: SortSpec, field: string)
    ensures Lookup(Assign(entries), field).None? <==>
      field == ProtoKey || forall i :: 0 <= i < |entries| ==> entries[i].0 != field
    decreases |entries|
  {
    if |entries| > 0 {
      var n := |entries| - 1;
      var prefix := entries[..n];
      AssignNamed(prefix, field);
      PutLookup(Assign(prefix), entries[n].0, entries[n].1, field);
      assert forall i :: 0 <= i < n ==> prefix[i] == entries[i];
    }
  }

  /** A field other than `__proto__` takes the direction of the last entry that names it. */
  lemma {:induction false} AssignLastWins(entries: SortSpec, field: string, i: int)
    requires DecidedBy(entries, field, i)
    ensures Lookup(Assign(entries), field) == if field == ProtoKey then None else Some(entries[i].1)
    decreases |entries|
  {
    var n := |entries| - 1;
    var prefix := entries[..n];
    PutLookup(Assign(prefix), entries[n].0, entries[n].1, field);
    if field == ProtoKey {
      AssignNamed(prefix, field);
    } else if i < n {
      assert forall j :: i < j < n ==> prefix[j] == entries[j];
      assert DecidedBy(prefix, field, i);
      AssignLastWins(prefix, field, i);
    }
  }

  /**
   * The sort string decides each field by its last mention, descending exactly
   * for "desc"; a `__proto__` field is never stored.
   */
  lemma SortOptionsLastWins(sortString: string, field: string, i: int)
    requires sortString != ""
    requires var parts := Split(sortString, ',');
      0 <= i < |parts| && FieldOf(parts[i]) == field &&
      forall j :: i < j < |parts| ==> FieldOf(parts[j]) != field
    ensures Lookup(BuildSortOptions(Some(sortString)), field) ==
      if field == ProtoKey then None else Some(DirectionOf(Split(sortString, ',')[i]))
  {
    var entries := ParseParts(Split(sortString, ','));
    assert DecidedBy(entries, field, i);
    AssignLastWins(entries, field, i);
  }

  /** A field appears in the sort specification exactly when some part names it and it is not `__proto__`. */
  lemma SortOptionsOnlyNamed(sortString: string, field: string)
    requires sortString != ""
    ensures Lookup(BuildSortOptions(Some(sortString)), field).None? <==>
      field == ProtoKey || forall i :: 0 <= i < |Split(sortString, ',')| ==> FieldOf(Split(sortString, ',')[i]) != field
  {
    var entries := ParseParts(Split(sortString, ','));
    AssignNamed(entries, field);
  }

  /**
   * A sort string naming only `__proto__`, such as "__proto__:desc", builds the
   * empty specification: the assignment goes to the inherited setter.
   */
  lemma ProtoFieldDropped(order: string)
    requires ':' !in order && ',' !in order
    ensures BuildSortOptions(Some(ProtoKey + ":" + order)) == []
  {
    var sortString := ProtoKey + ":" + order;
    var pieces := [ProtoKey, order];
    assert ':' !in ProtoKey && ',' !in ProtoKey;
    assert Join(pieces, ':') == sortString by {
      assert pieces[1..] == [order];
    }
    SplitJoin(pieces, ':');
    assert FieldOf(sortString) == ProtoKey;
    assert ',' !in sortString;
    SplitPlain(sortString, ',');
    assert ParseParts([sortString]) == [(ProtoKey, DirectionOf(sortString))];
    assert Assign([(ProtoKey, DirectionOf(sortString))]) == Put([], ProtoKey, DirectionOf(sortString));
  }

  /** The sort string "__proto__:desc" builds no key at all. */
  lemma ProtoDescDropped()
    ensures BuildSortOptions(Some("__proto__:desc")) == []
  {
    assert ProtoKey + ":" + "desc" == "__proto__:desc";
    ProtoFieldDropped("desc");
  }
}

=== FILE: order_controller.dfy ===
/**
 * Checkout and cancellation over the stock ledger, and the owner-or-admin
 * rule for reading an order.
 */
module OrderController {
  import opened Common
  import opened Products
  import opened Carts
  import opened Orders
  import opened Store

  /** The stock moves of checkout, one per cart line. */
  function LineMoves(items: seq<Line>): (m: seq<StockMove>)
    ensures |m| == |items|
    ensures forall i :: 0 <= i < |items| ==> m[i] == StockMove(items[i].product, items[i].quantity)
  {
    seq(|items|, i requires 0 <= i < |items| => StockMove(items[i].product, items[i].quantity))
  }

  /** The stock moves of cancellation, one per order item: an order keeps snapshots, not the cart's lines. */
  function ItemMoves(items: seq<OrderItem>): (m: seq<StockMove>)
    ensures |m| == |items|
    ensures forall i :: 0 <= i < |items| ==> m[i] == StockMove(items[i].product, items[i].quantity)
  {
    seq(|items|, i requires 0 <= i < |items| => StockMove(items[i].product, items[i].quantity))
  }

  predicate InStock(items: seq<Line>, cat: Catalog) {
    forall i :: 0 <= i < |items| ==> items[i].product in cat && items[i].quantity <= cat[items[i].product].stock
  }

  /**
   * The stock loop of `createOrder`, line by line: a line whose product no
   * longer exists throws, a line asking for more than the live stock stops
   * with that product's name.
   */
  function CheckStock(items: seq<Line>, cat: Catalog): (r: Option<Error>)
    ensures r.None? <==> InStock(items, cat)
    ensures r.Some? ==> r.value == Internal || r.value.OutOfStock?
    decreases |items|
  {
    if |items| == 0 then None
    else
      var l := items[0];
      if l.product !in cat then Some(Internal)
      else if cat[l.product].stock < l.quantity then Some(OutOfStock(cat[l.product].name))
      else
        var r := CheckStock(items[1..], cat);
        assert r.None? ==> forall i :: 1 <= i < |items| ==> items[i] == items[1..][i - 1];
        r
  }

  function FirstImage(p: Product): Option<string> {
    if |p.images| > 0 then Some(p.images[0].url) else None
  }

  /** The order items: product name and first image as they are now, price, quantity and total as on the line. */
  function Snapshot(items: seq<Line>, cat: Catalog): (r: seq<OrderItem>)
    requires forall i :: 0 <= i < |items| ==> items[i].product in cat
    ensures |r| == |items|
    ensures forall i :: 0 <= i < |items| ==>
      r[i] == OrderItem(items[i].product, cat[items[i].product].name, FirstImage(cat[items[i].product]),
                        items[i].price, items[i].quantity, items[i].totalPrice)
  {
    seq(|items|, i requires 0 <= i < |items| =>
      OrderItem(items[i].product, cat[items[i].product].name, FirstImage(cat[items[i].product]),
                items[i].price, items[i].quantity, items[i].totalPrice))
  }

  /** The snapshot moves exactly the stock the cart lines name. */
  lemma SnapshotMoves(items: seq<Line>, cat: Catalog)
    requires forall i :: 0 <= i < |items| ==> items[i].product in cat
    ensures ItemMoves(Snapshot(items, cat)) == LineMoves(items)
  {
  }

  /**
   * `createOrder`: an absent or empty cart is refused; every line is checked
   * against live stock before anything is written; the order snapshots the
   * lines and copies the cart's stored totals; then each line's quantity is
   * taken from stock and the cart is emptied. A payment method outside the enum,
   * an incomplete address, or a number or id already in use fails the insert.
   */
  function CreateOrder(s: Shop, user: UserId, address: Address, paymentMethod: string,
                       orderId: OrderId, orderNumber: string): (r: Reply<Order>)
    ensures user !in s.carts || |s.carts[user].items| == 0 ==> r == Fail(s, EmptyCart)
    ensures user in s.carts && |s.carts[user].items| > 0 && !InStock(s.carts[user].items, s.catalog) ==>
      r.result.Err? && (r.result.error == Internal || r.result.error.OutOfStock?)
    ensures user in s.carts && |s.carts[user].items| > 0 && InStock(s.carts[user].items, s.catalog) ==>
      var formValid := ParseMethod(paymentMethod).Some? && AddressComplete(address);
      var keysTaken := OrderNumberTaken(s.orders, orderNumber) || OrderIdTaken(s.orders, orderId);
      && (!formValid ==> r == Fail(s, ValidationFailed))
      && (formValid && keysTaken ==> r == Fail(s, DuplicateKey))
      && (formValid && !keysTaken ==> r.result.Ok?)
    ensures r.result.Err? ==> r.shop == s
    ensures r.result.Ok? ==>
      && user in s.carts
      && var cart := s.carts[user];
         && |cart.items| > 0 && InStock(cart.items, s.catalog)
         && ParseMethod(paymentMethod).Some? && AddressComplete(address)
         && !OrderNumberTaken(s.orders, orderNumber) && !OrderIdTaken(s.orders, orderId)
         && r.result.value == NewOrder(orderId, orderNumber, user, Snapshot(cart.items, s.catalog), address,
                                      ParseMethod(paymentMethod).value, cart.subtotal, cart.tax, cart.shipping, cart.total)
         && r.shop == Shop(Shift(s.catalog, LineMoves(cart.items), Reserve),
                           s.carts[user := Recalculate(cart.(items := []))],
                           s.orders + [r.result.value],
                           s.reviews)
  {
    if user !in s.carts || |s.carts[user].items| == 0 then Fail(s, EmptyCart)
    else
      var cart := s.carts[user];
      match CheckStock(cart.items, s.catalog)
      case Some(e) => Fail(s, e)
      case None =>
        match ParseMethod(paymentMethod)
        case None => Fail(s, ValidationFailed)
        case Some(means) =>
          if !AddressComplete(address) then Fail(s, ValidationFailed)
          else if OrderNumberTaken(s.orders, orderNumber) || OrderIdTaken(s.orders, orderId) then Fail(s, DuplicateKey)
          else
            var order := NewOrder(orderId, orderNumber, user, Snapshot(cart.items, s.catalog), address, means,
                                  cart.subtotal, cart.tax, cart.shipping, cart.total);
            Done(Shop(Shift(s.catalog, LineMoves(cart.items), Reserve),
                      s.carts[user := Recalculate(cart.(items := []))],
                      s.orders + [order],
                      s.reviews), order)
  }

  /**
   * `cancelOrder`: the order must exist, belong to the caller and be neither
   * delivered nor cancelled; then every item's quantity goes back to stock and
   * the status becomes cancelled.
   */
  function CancelOrder(s: Shop, orderId: OrderId, user: UserId): (r: Reply<Order>)
    ensures !OrderIdTaken(s.orders, orderId) ==> r == Fail(s, NotFound)
    ensures r.result.Err? ==> r.shop == s
    ensures r.result.Err? ==> r.result.error in {NotFound, Forbidden, CannotCancel}
    ensures r.result.Ok? ==>
      && FindOrder(s.orders, orderId).Some?
      && var i := FindOrder(s.orders, orderId).value;
         var o := s.orders[i];
         && o.user == user
         && o.status != Delivered && o.status != Cancelled
         && r.result.value == o.(status := Cancelled)
         && r.shop == s.(catalog := Shift(s.catalog, ItemMoves(o.items), Release), orders := s.orders[i := r.result.value])
  {
    match FindOrder(s.orders, orderId)
    case None => Fail(s, NotFound)
    case Some(i) =>
      var o := s.orders[i];
      if o.user != user then Fail(s, Forbidden)
      else if o.status == Delivered || o.status == Cancelled then Fail(s, CannotCancel)
      else
        var cancelled := o.(status := Cancelled);
        Done(s.(catalog := Shift(s.catalog, ItemMoves(o.items), Release), orders := s.orders[i := cancelled]), cancelled)
  }

  /** `getOrder`: readable by its owner or by an admin, and reading changes nothing. */
  function GetOrder(s: Shop, orderId: OrderId, user: UserId, role: Role): (r: Reply<Order>)
    ensures r.shop == s
    ensures !OrderIdTaken(s.orders, orderId) ==> r.result == Err(NotFound)
    ensures OrderIdTaken(s.orders, orderId) ==>
      var o := s.orders[FindOrder(s.orders, orderId).value];
      (r.result.Ok? <==> o.user == user || role == Admin) &&
      (r.result.Ok? ==> r.result.value == o) &&
      (r.result.Err? ==> r.result.error == Forbidden)
  {
    match FindOrder(s.orders, orderId)
    case None => Fail(s, NotFound)
    case Some(i) =>
      if s.orders[i].user != user && role != Admin then Fail(s, Forbidden) else Done(s, s.orders[i])
  }

  // ---------------------------------------------------------------------
  // Stock properties of checkout and cancellation
  // ---------------------------------------------------------------------

  /** A line whose quantity exceeds the live stock makes checkout fail with nothing written. */
  lemma ShortLineAbortsCheckout(s: Shop, user: UserId, address: Address, paymentMethod: string,
                                orderId: OrderId, orderNumber: string, k: nat)
    requires user in s.carts && k < |s.carts[user].items|
    requires var l := s.carts[user].items[k]; l.product in s.catalog && l.quantity > s.catalog[l.product].stock
    ensures var r := CreateOrder(s, user, address, paymentMethod, orderId, orderNumber);
      r.result.Err? && r.shop == s
  {
  }

  /** In a cart with one line per product, a line's product loses exactly that line's quantity. */
  lemma {:induction false} LineQuantityMoved(items: seq<Line>, k: nat)
    requires DistinctProducts(items) && k < |items|
    ensures MovedQuantity(LineMoves(items), items[k].product) == items[k].quantity
    decreases |items|
  {
    var m := LineMoves(items);
    var p := items[k].product;
    assert m[1..] == LineMoves(items[1..]);
    var tail := items[1..];
    assert DistinctProducts(tail) by {
      forall i, j | 0 <= i < j < |tail| ensures tail[i].product != tail[j].product {
        assert tail[i] == items[i + 1] && tail[j] == items[j + 1];
      }
    }
    if k == 0 {
      assert forall j :: 0 <= j < |tail| ==> tail[j].product != p by {
        forall j | 0 <= j < |tail| ensures tail[j].product != p {
          assert tail[j] == items[j + 1];
        }
      }
      AbsentNotMoved(tail, p);
    } else {
      assert tail[k - 1] == items[k];
      LineQuantityMoved(tail, k - 1);
    }
  }

  lemma {:induction false} AbsentNotMoved(items: seq<Line>, p: ProductId)
    requires forall j :: 0 <= j < |items| ==> items[j].product != p
    ensures MovedQuantity(LineMoves(items), p) == 0
    decreases |items|
  {
    if |items| > 0 {
      assert LineMoves(items)[1..] == LineMoves(items[1..]);
      AbsentNotMoved(items[1..], p);
    }
  }

  predicate CheckoutSucceeds(s: Shop, user: UserId, address: Address, paymentMethod: string,
                             orderId: OrderId, orderNumber: string) {
    CreateOrder(s, user, address, paymentMethod, orderId, orderNumber).result.Ok?
  }

  /** A successful checkout lowers each ordered product's stock by exactly its line quantity. */
  lemma CheckoutLowersOrderedStock(s: Shop, user: UserId, address: Address, paymentMethod: string,
                                   orderId: OrderId, orderNumber: string, k: nat)
    requires ValidCarts(s.carts)
    requires CheckoutSucceeds(s, user, address, paymentMethod, orderId, orderNumber)
    requires k < |s.carts[user].items|
    ensures var after := CreateOrder(s, user, address, paymentMethod, orderId, orderNumber).shop.catalog;
      var l := s.carts[user].items[k];
      l.product in after && after[l.product] == s.catalog[l.product].(stock := s.catalog[l.product].stock - l.quantity)
  {
    var items := s.carts[user].items;
    ShiftEffect(s.catalog, LineMoves(items), Reserve);
    LineQuantityMoved(items, k);
  }

  /** A successful checkout leaves every product not in the cart untouched. */
  lemma CheckoutKeepsOtherStock(s: Shop, user: UserId, address: Address, paymentMethod: string,
                                orderId: OrderId, orderNumber: string, p: ProductId)
    requires CheckoutSucceeds(s, user, address, paymentMethod, orderId, orderNumber)
    requires p in s.catalog
    requires forall k :: 0 <= k < |s.carts[user].items| ==> s.carts[user].items[k].product != p
    ensures var after := CreateOrder(s, user, address, paymentMethod, orderId, orderNumber).shop.catalog;
      p in after && after[p] == s.catalog[p]
  {
    var items := s.carts[user].items;
    ShiftEffect(s.catalog, LineMoves(items), Reserve);
    AbsentNotMoved(items, p);
  }

  /** After a successful checkout every stock is still non-negative and every product still passes its validators. */
  lemma CheckoutKeepsCatalogValid(s: Shop, user: UserId, address: Address, paymentMethod: string,
                                  orderId: OrderId, orderNumber: string)
    requires ValidCarts(s.carts) && ValidCatalog(s.catalog)
    requires CheckoutSucceeds(s, user, address, paymentMethod, orderId, orderNumber)
    ensures ValidCatalog(CreateOrder(s, user, address, paymentMethod, orderId, orderNumber).shop.catalog)
  {
    var items := s.carts[user].items;
    var after := CreateOrder(s, user, address, paymentMethod, orderId, orderNumber).shop.catalog;
    ShiftEffect(s.catalog, LineMoves(items), Reserve);
    forall p | p in after ensures ValidProduct(after[p]) {
      match FindLineByProduct(items, p)
      case None =>
        AbsentNotMoved(items, p);
      case Some(k) =>
        LineQuantityMoved(items, k);
    }
  }

  /** After a successful checkout the cart has no lines and all four totals are zero. */
  lemma CheckoutEmptiesCart(s: Shop, user: UserId, address: Address, paymentMethod: string,
                            orderId: OrderId, orderNumber: string)
    requires CheckoutSucceeds(s, user, address, paymentMethod, orderId, orderNumber)
    ensures var after := CreateOrder(s, user, address, paymentMethod, orderId, orderNumber).shop;
      user in after.carts && after.carts[user].items == [] && TotalsOf(after.carts[user]) == Totals(0.0, 0.0, 0.0, 0.0)
  {
  }

  /** Cancelling the order a checkout just created puts the catalog back exactly as it was. */
  lemma CancelAfterCheckoutRestoresStock(s: Shop, user: UserId, address: Address, paymentMethod: string,
                                         orderId: OrderId, orderNumber: string)
    ensures var created := CreateOrder(s, user, address, paymentMethod, orderId, orderNumber);
      created.result.Ok? ==>
        var cancelled := CancelOrder(created.shop, orderId, user);
        cancelled.result.Ok? && cancelled.shop.catalog == s.catalog &&
        cancelled.result.value.status == Cancelled
  {
    var created := CreateOrder(s, user, address, paymentMethod, orderId, orderNumber);
    if created.result.Ok? {
      var items := s.carts[user].items;
      var o := created.result.value;
      var orders := created.shop.orders;
      assert orders[|orders| - 1] == o;
      assert FindOrder(orders, orderId) == Some(|orders| - 1);
      SnapshotMoves(items, s.catalog);
      ReleaseUndoesReserve(s.catalog, LineMoves(items));
    }
  }

  // ---------------------------------------------------------------------
  // Conservation: stock plus quantity held by live orders is invariant
  // ---------------------------------------------------------------------

  /** The quantity of a product held by one order: nothing once it is cancelled. */
  function Held(o: Order, p: ProductId): int {
    if o.status == Cancelled then 0 else MovedQuantity(ItemMoves(o.items), p)
  }

  /** The quantity of a product held by all non-cancelled orders. */
  function Committed(orders: seq<Order>, p: ProductId): int
  {
    if |orders| == 0 then 0 else Committed(orders[..|orders| - 1], p) + Held(orders[|orders| - 1], p)
  }

  lemma {:induction false} CommittedReplace(orders: seq<Order>, i: nat, o: Order, p: ProductId)
    requires i < |orders|
    ensures Committed(orders[i := o], p) == Committed(orders, p) - Held(orders[i], p) + Held(o, p)
    decreases |orders|
  {
    var n := |orders| - 1;
    var updated := orders[i := o];
    if i < n {
      assert updated[..n] == orders[..n][i := o];
      CommittedReplace(orders[..n], i, o, p);
    } else {
      assert updated[..n] == orders[..n];
    }
  }

  /** Checkout moves a product's quantity from stock into the new order, so stock plus committed is unchanged. */
  lemma CheckoutConserves(s: Shop, user: UserId, address: Address, paymentMethod: string,
                          orderId: OrderId, orderNumber: string, p: ProductId)
    requires p in s.catalog
    ensures var r := CreateOrder(s, user, address, paymentMethod, orderId, orderNumber);
      r.result.Ok? ==>
        p in r.shop.catalog &&
        r.shop.catalog[p].stock + Committed(r.shop.orders, p) == s.catalog[p].stock + Committed(s.orders, p)
  {
    var r := CreateOrder(s, user, address, paymentMethod, orderId, orderNumber);
    if r.result.Ok? {
      var items := s.carts[user].items;
      ShiftEffect(s.catalog, LineMoves(items), Reserve);
      SnapshotMoves(items, s.catalog);
      var orders := r.shop.orders;
      assert orders[..|orders| - 1] == s.orders;
    }
  }

  /** Cancellation moves an order's quantity back from the order to stock, so stock plus committed is unchanged. */
  lemma CancelConserves(s: Shop, orderId: OrderId, user: UserId, p: ProductId)
    requires p in s.catalog
    ensures var r := CancelOrder(s, orderId, user);
      r.result.Ok? ==>
        p in r.shop.catalog &&
        r.shop.catalog[p].stock + Committed(r.shop.orders, p) == s.catalog[p].stock + Committed(s.orders, p)
  {
    var r := CancelOrder(s, orderId, user);
    if r.result.Ok? {
      var i := FindOrder(s.orders, orderId).value;
      var o := s.orders[i];
      ShiftEffect(s.catalog, ItemMoves(o.items), Release);
      CommittedReplace(s.orders, i, r.result.value, p);
    }
  }

  /** A second cancel of the same order is refused and releases nothing. */
  lemma CancelTwiceRefused(s: Shop, orderId: OrderId, user: UserId)
    requires UniqueOrders(s.orders)
    ensures var once := CancelOrder(s, orderId, user);
      once.result.Ok? ==> CancelOrder(once.shop, orderId, user) == Fail(once.shop, CannotCancel)
  {
    var once := CancelOrder(s, orderId, user);
    if once.result.Ok? {
      var i := FindOrder(s.orders, orderId).value;
      var orders := once.shop.orders;
      assert orders[i].id == orderId;
      ReplaceKeepsUnique(s.orders, i, once.result.value);
    }
  }
}

=== FILE: orders.dfy ===
/**
 * The order document: the status and payment enums with their defaults, the
 * item snapshot, the required shipping address, and uniqueness of order
 * numbers and ids across the collection.
 */
module Orders {
  import opened Common

  datatype OrderStatus = Pending | Confirmed | Processing | Shipped | Delivered | Cancelled

  datatype PaymentMethod = Card | Paypal | Stripe | Cod

  datatype PaymentStatus = PaymentPending | PaymentCompleted | PaymentFailed

  function StatusName(s: OrderStatus): string {
    match s
    case Pending => "pending"
    case Confirmed => "confirmed"
    case Processing => "processing"
    case Shipped => "shipped"
    case Delivered => "delivered"
    case Cancelled => "cancelled"
  }

  /** The `orderStatus` enum: exactly the six names are accepted. */
  function ParseStatus(s: string): (r: Option<OrderStatus>)
    ensures r.Some? ==> StatusName(r.value) == s
    ensures r.None? ==> forall st: OrderStatus :: StatusName(st) != s
  {
    if s == "pending" then Some(Pending)
    else if s == "confirmed" then Some(Confirmed)
    else if s == "processing" then Some(Processing)
    else if s == "shipped" then Some(Shipped)
    else if s == "delivered" then Some(Delivered)
    else if s == "cancelled" then Some(Cancelled)
    else None
  }

  lemma StatusRoundTrip(st: OrderStatus)
    ensures ParseStatus(StatusName(st)) == Some(st)
  {
  }

  function MethodName(m: PaymentMethod): string {
    match m
    case Card => "card"
    case Paypal => "paypal"
    case Stripe => "stripe"
    case Cod => "cod"
  }

  /** The `paymentInfo.method` enum: card, paypal, stripe or cod. */
  function ParseMethod(s: string): (r: Option<PaymentMethod>)
    ensures r.Some? ==> MethodName(r.value) == s
    ensures r.None? ==> forall m: PaymentMethod :: MethodName(m) != s
  {
    if s == "card" then Some(Card)
    else if s == "paypal" then Some(Paypal)
    else if s == "stripe" then Some(Stripe)
    else if s == "cod" then Some(Cod)
    else None
  }

  lemma MethodRoundTrip(m: PaymentMethod)
    ensures ParseMethod(MethodName(m)) == Some(m)
  {
  }

  datatype Address = Address(
    fullName: string,
    phoneNumber: string,
    addressLine1: string,
    addressLine2: Option<string>,
    city: string,
    state: string,
    country: string,
    postalCode: string)

  /** The `required` validators: every address field but the second line is non-empty. */
  predicate AddressComplete(a: Address) {
    a.fullName != "" && a.phoneNumber != "" && a.addressLine1 != "" &&
    a.city != "" && a.state != "" && a.country != "" && a.postalCode != ""
  }

  datatype Tracking = Tracking(carrier: Option<string>, trackingNumber: Option<string>, trackingUrl: Option<string>)

  datatype PaymentInfo = PaymentInfo(means: PaymentMethod, status: PaymentStatus)

  /** An order item: exactly product, name, image, price, quantity and line total. */
  datatype OrderItem = OrderItem(product: ProductId, name: string, image: Option<string>, price: real, quantity: int, totalPrice: real)

  datatype Order = Order(
    id: OrderId,
    orderNumber: string,
    user: UserId,
    items: seq<OrderItem>,
    shippingAddress: Address,
    payment: PaymentInfo,
    status: OrderStatus,
    subtotal: real,
    tax: real,
    shipping: real,
    total: real,
    tracking: Option<Tracking>,
    deliveredAt: Option<int>)

  /** A freshly created order: status and payment status at their `pending` defaults, no tracking, not delivered. */
  function NewOrder(id: OrderId, orderNumber: string, user: UserId, items: seq<OrderItem>, address: Address,
                    means: PaymentMethod, subtotal: real, tax: real, shipping: real, total: real): (o: Order)
    ensures o.status == Pending && o.payment == PaymentInfo(means, PaymentPending)
    ensures o.tracking.None? && o.deliveredAt.None?
    ensures o.id == id && o.orderNumber == orderNumber && o.user == user && o.items == items
    ensures o.shippingAddress == address
    ensures o.subtotal == subtotal && o.tax == tax && o.shipping == shipping && o.total == total
  {
    Order(id, orderNumber, user, items, address, PaymentInfo(means, PaymentPending), Pending,
          subtotal, tax, shipping, total, None, None)
  }

  predicate OrderNumberTaken(orders: seq<Order>, n: string) {
    exists i :: 0 <= i < |orders| && orders[i].orderNumber == n
  }

  predicate OrderIdTaken(orders: seq<Order>, id: OrderId) {
    exists i :: 0 <= i < |orders| && orders[i].id == id
  }

  /** The unique index on `orderNumber`, and unique document ids. */
  predicate UniqueOrders(orders: seq<Order>) {
    forall i, j :: 0 <= i < j < |orders| ==>
      orders[i].orderNumber != orders[j].orderNumber && orders[i].id != orders[j].id
  }

  /** `Order.findById`: the position of the order with that id. */
  function FindOrder(orders: seq<Order>, id: OrderId): (r: Option<nat>)
    ensures r.Some? ==> r.value < |orders| && orders[r.value].id == id
    ensures r.None? <==> !OrderIdTaken(orders, id)
    decreases |orders|
  {
    if |orders| == 0 then None
    else if orders[|orders| - 1].id == id then Some(|orders| - 1)
    else
      var r := FindOrder(orders[..|orders| - 1], id);
      assert r.None? ==> forall i :: 0 <= i < |orders| - 1 ==> orders[..|orders| - 1][i] == orders[i];
      r
  }

  /** Appending an order whose number and id are both unused keeps the collection unique. */
  lemma AppendKeepsUnique(orders: seq<Order>, o: Order)
    requires UniqueOrders(orders)
    requires !OrderNumberTaken(orders, o.orderNumber) && !OrderIdTaken(orders, o.id)
    ensures UniqueOrders(orders + [o])
  {
  }

  /** Replacing an order by one with the same number and id keeps the collection unique. */
  lemma ReplaceKeepsUnique(orders: seq<Order>, i: nat, o: Order)
    requires UniqueOrders(orders) && i < |orders|
    requires o.orderNumber == orders[i].orderNumber && o.id == orders[i].id
    ensures UniqueOrders(orders[i := o])
  {
  }

  /** Replacing an order by one with the same id does not change where any id is found. */
  lemma {:induction false} FindAfterReplace(orders: seq<Order>, i: nat, o: Order, id: OrderId)
    requires i < |orders| && o.id == orders[i].id
    ensures FindOrder(orders[i := o], id) == FindOrder(orders, id)
    decreases |orders|
  {
    var n := |orders| - 1;
    var updated := orders[i := o];
    if i < n {
      assert updated[..n] == orders[..n][i := o];
      FindAfterReplace(orders[..n], i, o, id);
    } else {
      assert updated[..n] == orders[..n];
    }
  }
}

=== FILE: product_controller.dfy ===
/**
 * The catalog endpoints: how the product listing turns its query string into
 * a filter, a sort order and a page window, how an admin update normalises
 * the submitted form into the stored product, and the legacy review route.
 */
module ProductController {
  import opened Common
  import opened Text
  import opened Products
  import opened Store

  // ---------------------------------------------------------------------
  // getProducts
  // ---------------------------------------------------------------------

  /**
   * A price bound of the query string: absent or empty (falsy, so no clause),
   * text denoting a number, or text `Number` turns into NaN.
   */
  datatype PriceParam = NoPrice | Price(value: real) | NotANumber

  /** The listing's query string. Strings are as received (None when absent); page and limit are None when absent. */
  datatype ListRequest = ListRequest(
    search: Option<string>,
    category: Option<string>,
    minPrice: PriceParam,
    maxPrice: PriceParam,
    brand: Option<string>,
    sort: Option<string>,
    page: Option<int>,
    limit: Option<int>,
    featured: Option<string>)

  /** The database filter the listing builds; every None clause is absent from it. */
  datatype ListQuery = ListQuery(
    activeOnly: bool,
    namePattern: Option<string>,
    category: Option<string>,
    minPrice: Option<real>,
    maxPrice: Option<real>,
    brand: Option<string>,
    featuredOnly: bool)

  /** The filter: active products only off the admin route, and one clause per supplied parameter. */
  function BuildQuery(req: ListRequest, adminRoute: bool): (q: ListQuery)
    ensures q.activeOnly != adminRoute
    ensures q.namePattern.Some? <==> Supplied(req.search)
    ensures q.category.Some? <==> Supplied(req.category)
    ensures q.brand.Some? <==> Supplied(req.brand)
    ensures q.minPrice.Some? <==> req.minPrice.Price?
    ensures q.maxPrice.Some? <==> req.maxPrice.Price?
    ensures req.minPrice.Price? ==> q.minPrice.value == req.minPrice.value
    ensures req.maxPrice.Price? ==> q.maxPrice.value == req.maxPrice.value
  {
    ListQuery(
      !adminRoute,
      if Supplied(req.search) then req.search else None,
      if Supplied(req.category) then req.category else None,
      if req.minPrice.Price? then Some(req.minPrice.value) else None,
      if req.maxPrice.Price? then Some(req.maxPrice.value) else None,
      if Supplied(req.brand) then req.brand else None,
      req.featured == Some("true"))
  }

  /**
   * Whether a product satisfies the filter. The name clause is a
   * case-insensitive regular expression; its outcome for this product's name
   * is the parameter `nameHit`.
   */
  predicate Matches(q: ListQuery, p: Product, nameHit: bool) {
    && (q.activeOnly ==> p.isActive)
    && (q.namePattern.Some? ==> nameHit)
    && (q.category.Some? ==> p.category == q.category.value)
    && (q.minPrice.Some? ==> p.price >= q.minPrice.value)
    && (q.maxPrice.Some? ==> p.price <= q.maxPrice.value)
    && (q.brand.Some? ==> p.brand == q.brand)
    && (q.featuredOnly ==> p.isFeatured)
  }

  /** Whether the listing requested by `req` includes `p`, in the request's own terms. */
  lemma ListingFilter(req: ListRequest, adminRoute: bool, p: Product, nameHit: bool)
    ensures Matches(BuildQuery(req, adminRoute), p, nameHit) <==>
      && (adminRoute || p.isActive)
      && (Supplied(req.search) ==> nameHit)
      && (Supplied(req.category) ==> p.category == req.category.value)
      && (req.minPrice.Price? ==> p.price >= req.minPrice.value)
      && (req.maxPrice.Price? ==> p.price <= req.maxPrice.value)
      && (Supplied(req.brand) ==> p.brand == req.brand)
      && (req.featured == Some("true") ==> p.isFeatured)
  {
  }

  /** Off the admin route an inactive product never matches; on it, activity does not matter. */
  lemma ActiveOnlyOffAdminRoute(req: ListRequest, adminRoute: bool, p: Product, nameHit: bool)
    ensures !adminRoute && !p.isActive ==> !Matches(BuildQuery(req, adminRoute), p, nameHit)
    ensures adminRoute ==>
      (Matches(BuildQuery(req, adminRoute), p, nameHit) <==> Matches(BuildQuery(req, adminRoute), p.(isActive := !p.isActive), nameHit))
  {
  }

  /** Without price bounds the price of a product does not affect whether it is listed. */
  lemma PriceFreeWithoutBounds(req: ListRequest, adminRoute: bool, p: Product, price: real, nameHit: bool)
    requires !req.minPrice.Price? && !req.maxPrice.Price?
    ensures Matches(BuildQuery(req, adminRoute), p, nameHit) <==> Matches(BuildQuery(req, adminRoute), p.(price := price), nameHit)
  {
  }

  datatype SortKey = ByPrice | ByRatingAverage | ByCreatedAt
  datatype SortOrder = SortOrder(key: SortKey, descending: bool)

  /** The listing's sort parameter: three named orders, newest first for anything else. */
  function ListingSort(sort: Option<string>): (o: SortOrder)
    ensures o.key == ByPrice <==> sort == Some("price-asc") || sort == Some("price-desc")
    ensures o.key == ByRatingAverage <==> sort == Some("rating")
    ensures o.descending <==> sort != Some("price-asc")
  {
    match sort
    case Some("price-asc") => SortOrder(ByPrice, false)
    case Some("price-desc") => SortOrder(ByPrice, true)
    case Some("rating") => SortOrder(ByRatingAverage, true)
    case _ => SortOrder(ByCreatedAt, true)
  }

  /** Every unrecognised sort value, and none, falls back to the order of "newest". */
  lemma UnknownSortIsNewest(sort: Option<string>)
    requires sort != Some("price-asc") && sort != Some("price-desc") && sort != Some("rating")
    ensures ListingSort(sort) == ListingSort(Some("newest")) == SortOrder(ByCreatedAt, true)
  {
  }

  /** `Math.ceil` on reals. */
  function Ceil(x: real): (c: int)
    ensures (c - 1) as real < x <= c as real
  {
    -((-x).Floor)
  }

  const DefaultPage: int := 1
  const DefaultLimit: int := 12

  /** The page the listing answers: skip and limit of the database query, the page count and the echoed page number. */
  datatype PageWindow = PageWindow(skip: int, limit: int, totalPages: Option<int>, currentPage: int)

  /**
   * Page 1 and limit 12 unless given; skip is (page − 1) × limit and the page
   * count is the ceiling of total / limit, which JavaScript cannot represent
   * as a number when the limit is 0 (None).
   */
  function ListingWindow(page: Option<int>, limit: Option<int>, total: nat): (w: PageWindow)
    ensures w.currentPage == (if page.Some? then page.value else DefaultPage)
    ensures w.limit == (if limit.Some? then limit.value else DefaultLimit)
    ensures w.skip == (w.currentPage - 1) * w.limit
    ensures w.totalPages.None? <==> w.limit == 0
  {
    var pg := if page.Some? then page.value else DefaultPage;
    var lim := if limit.Some? then limit.value else DefaultLimit;
    PageWindow((pg - 1) * lim, lim, if lim == 0 then None else Some(Ceil(total as real / lim as real)), pg)
  }

  lemma MulLess(a: real, b: real, c: real)
    requires a < b && c > 0.0
    ensures a * c < b * c
  {
  }

  lemma MulAtMost(a: real, b: real, c: real)
    requires a <= b && c > 0.0
    ensures a * c <= b * c
  {
  }

  /** With a positive limit the page count is the least number of full-size pages that holds every product. */
  lemma PageCountCovers(page: Option<int>, limit: Option<int>, total: nat)
    requires ListingWindow(page, limit, total).limit > 0
    ensures var w := ListingWindow(page, limit, total);
      var n := w.totalPages.value;
      n >= 0 && (n - 1) * w.limit < total <= n * w.limit
  {
    var w := ListingWindow(page, limit, total);
    CeilCovers(total, w.limit);
  }

  /** The ceiling of total / l, for a positive l, is the least page count that covers total items. */
  lemma CeilCovers(total: nat, l: int)
    requires l > 0
    ensures var n := Ceil(total as real / l as real);
      n >= 0 && (n - 1) * l < total <= n * l
  {
    var n := Ceil(total as real / l as real);
    var x := total as real / l as real;
    assert x * l as real == total as real;
    MulLess((n - 1) as real, x, l as real);
    MulAtMost(x, n as real, l as real);
    IntProduct(n - 1, l);
    IntProduct(n, l);
    if n < 0 {
      MulAtMost(0.0, x, l as real);
    }
  }

  lemma IntProduct(a: int, b: int)
    ensures (a * b) as real == a as real * b as real
  {
  }

  /** Pages 1..totalPages start inside the result; every later page starts past its end. */
  lemma PagesWithinCount(page: int, limit: Option<int>, total: nat)
    requires ListingWindow(Some(page), limit, total).limit > 0
    ensures var w := ListingWindow(Some(page), limit, total);
      (1 <= page <= w.totalPages.value ==> 0 <= w.skip < total) &&
      (page > w.totalPages.value ==> w.skip >= total)
  {
    var w := ListingWindow(Some(page), limit, total);
    var n := w.totalPages.value;
    var l := w.limit;
    PageCountCovers(Some(page), limit, total);
    assert w.skip == (page - 1) * l;
    assert (n - 1) * l < total <= n * l;
    PageBounds(page, n, l, total);
  }

  lemma PageBounds(page: int, n: int, l: int, total: int)
    requires l > 0 && n >= 0 && (n - 1) * l < total <= n * l
    ensures 1 <= page <= n ==> 0 <= (page - 1) * l < total
    ensures page > n ==> (page - 1) * l >= total
  {
    if 1 <= page <= n {
      MulAtMostInt(page - 1, n - 1, l);
      MulAtMostInt(0, page - 1, l);
    }
    if page > n {
      MulAtMostInt(n, page - 1, l);
    }
  }

  lemma MulAtMostInt(a: int, b: int, c: int)
    requires a <= b && c > 0
    ensures a * c <= b * c
  {
  }

  /** What the listing answers: the ids of every matching product, their number, the order and the page. */
  datatype Listing = Listing(matching: set<ProductId>, totalProducts: nat, order: SortOrder, window: PageWindow)

  /**
   * `getProducts`. `nameHits` is the set of products whose name the search
   * expression matches, and `patternValid` says whether the database accepts
   * the search text as a regular expression at all. A supplied search that is
   * not a valid pattern fails the query, a price bound that is NaN fails the
   * cast of the count query, and a negative skip is refused by the database:
   * each answers 500.
   */
  function GetProducts(cat: Catalog, req: ListRequest, adminRoute: bool, nameHits: set<ProductId>,
                       patternValid: bool): (r: Result<Listing>)
    ensures r.Ok? ==> forall id :: id in r.value.matching <==>
      id in cat && Matches(BuildQuery(req, adminRoute), cat[id], id in nameHits)
    ensures r.Ok? ==> r.value.totalProducts == |r.value.matching|
    ensures r.Ok? ==> r.value.order == ListingSort(req.sort)
    ensures r.Ok? ==> r.value.window == ListingWindow(req.page, req.limit, r.value.totalProducts)
    ensures r.Ok? <==>
      && (Supplied(req.search) ==> patternValid)
      && !req.minPrice.NotANumber? && !req.maxPrice.NotANumber? && ListingWindow(req.page, req.limit, 0).skip >= 0
    ensures r.Err? ==> r.error == Internal
  {
    var q := BuildQuery(req, adminRoute);
    var matching := set id | id in cat && Matches(q, cat[id], id in nameHits);
    var w := ListingWindow(req.page, req.limit, |matching|);
    if Supplied(req.search) && !patternValid then Err(Internal)
    else if req.minPrice.NotANumber? || req.maxPrice.NotANumber? || w.skip < 0 then Err(Internal)
    else Ok(Listing(matching, |matching|, ListingSort(req.sort), w))
  }

  /** Off the admin route the listing holds active products only. */
  lemma ListingOnlyActive(cat: Catalog, req: ListRequest, nameHits: set<ProductId>, patternValid: bool)
    ensures var r := GetProducts(cat, req, false, nameHits, patternValid);
      r.Ok? ==> forall id :: id in r.value.matching ==> cat[id].isActive
  {
  }

  // ---------------------------------------------------------------------
  // updateProduct
  // ---------------------------------------------------------------------

  /** An uploaded image file. */
  datatype Upload = Upload(fileName: string)

  /** The submitted tags: absent, one text field, or a list. */
  datatype TagsField = TagsAbsent | TagsText(text: string) | TagsList(items: seq<string>)

  /** A submitted flag: absent, a form string, or a JSON boolean. */
  datatype FlagField = FlagAbsent | FlagText(text: string) | FlagBool(value: bool)

  /**
   * The admin's product form. Numbers are None when the submitted value is
   * absent or not a number; images are None when absent and otherwise the
   * parsed list (an unparseable list arrives as the empty one).
   */
  datatype ProductForm = ProductForm(
    name: Option<string>,
    category: Option<string>,
    brand: Option<string>,
    price: Option<real>,
    comparePrice: Option<real>,
    stock: Option<int>,
    images: Option<seq<Image>>,
    replaceImages: Option<string>,
    tags: TagsField,
    isFeatured: FlagField,
    isActive: FlagField)

  /** Trim every piece. */
  function TrimAll(parts: seq<string>): (r: seq<string>)
    ensures |r| == |parts|
    ensures forall k :: 0 <= k < |r| ==> r[k] == Trim(parts[k])
  {
    seq(|parts|, k requires 0 <= k < |parts| => Trim(parts[k]))
  }

  /**
   * A non-blank tags text is split on commas with every piece trimmed; a
   * blank text is stored as the one-element list the schema casts it to; a
   * list is stored as given; absent tags keep the stored ones.
   */
  function NormalizeTags(t: TagsField, stored: seq<string>): (r: seq<string>)
    ensures t.TagsText? && Trim(t.text) != "" ==>
      && |r| == |Split(t.text, ',')|
      && (forall k :: 0 <= k < |r| ==> r[k] == Trim(Split(t.text, ',')[k]))
      && |r| >= 1 && forall k :: 0 <= k < |r| ==> Trim(r[k]) == r[k] && ',' !in r[k]
    ensures t.TagsText? && Trim(t.text) == "" ==> r == [t.text]
    ensures t.TagsList? ==> r == t.items
    ensures t.TagsAbsent? ==> r == stored
  {
    match t
    case TagsAbsent => stored
    case TagsList(items) => items
    case TagsText(text) =>
      if Trim(text) != "" then
        var parts := Split(text, ',');
        TrimmedPiecesClean(parts);
        TrimAll(parts)
      else [text]
  }

  /** Trimming pieces that hold no comma gives trimmed pieces that hold no comma. */
  lemma TrimmedPiecesClean(parts: seq<string>)
    requires forall k :: 0 <= k < |parts| ==> ',' !in parts[k]
    ensures forall k :: 0 <= k < |parts| ==> Trim(TrimAll(parts)[k]) == TrimAll(parts)[k] && ',' !in TrimAll(parts)[k]
  {
    forall k | 0 <= k < |parts|
      ensures Trim(TrimAll(parts)[k]) == TrimAll(parts)[k] && ',' !in TrimAll(parts)[k]
    {
      TrimIdempotent(parts[k]);
      TrimAddsNothing(parts[k], ',');
    }
  }

  /** Tags written without spaces around the commas come back joined exactly as typed. */
  lemma TagsRoundTrip(text: string)
    requires Trim(text) != ""
    requires PiecesTrimmed(Split(text, ','))
    ensures Join(NormalizeTags(TagsText(text), []), ',') == text
  {
    var parts := Split(text, ',');
    TrimAllOfTrimmed(parts);
    assert NormalizeTags(TagsText(text), []) == TrimAll(parts);
  }

  predicate PiecesTrimmed(parts: seq<string>) {
    forall k :: 0 <= k < |parts| ==> Trim(parts[k]) == parts[k]
  }

  lemma TrimAllOfTrimmed(parts: seq<string>)
    requires PiecesTrimmed(parts)
    ensures TrimAll(parts) == parts
  {
  }

  /** A flag is on exactly when the form says "true" or true; an absent flag turns it off. */
  predicate FlagOn(f: FlagField) {
    f == FlagText("true") || f == FlagBool(true)
  }

  function UploadedImage(baseUrl: string, u: Upload, alt: string): Image {
    Image(baseUrl + "/uploads/" + u.fileName, u.fileName, alt)
  }

  function UploadedImages(baseUrl: string, uploads: seq<Upload>, alt: string): (r: seq<Image>)
    ensures |r| == |uploads|
    ensures forall k :: 0 <= k < |r| ==> r[k] == UploadedImage(baseUrl, uploads[k], alt)
  {
    if |uploads| == 0 then [] else [UploadedImage(baseUrl, uploads[0], alt)] + UploadedImages(baseUrl, uploads[1..], alt)
  }

  /**
   * The images the update stores (None: the field is left out of the update).
   * With uploads, the new images follow the stored ones, or replace them when
   * replaceImages is "true". Without uploads, replaceImages "false" keeps the
   * stored images and otherwise the submitted list is taken.
   */
  function ResolveImages(stored: seq<Image>, submitted: Option<seq<Image>>, replace: Option<string>, added: seq<Image>): (r: Option<seq<Image>>)
    ensures |added| > 0 ==> r == Some((if replace == Some("true") then [] else stored) + added)
    ensures |added| == 0 && replace == Some("false") && |stored| > 0 ==> r == Some(stored)
    ensures |added| == 0 && !(replace == Some("false") && |stored| > 0) ==> r == submitted
  {
    if |added| > 0 then
      Some((if replace == Some("true") then [] else stored) + added)
    else if replace == Some("false") && |stored| > 0 then Some(stored)
    else submitted
  }

  /** The validators the update runs: on every path it writes, and on name and category only when they are submitted. */
  predicate UpdatedPathsValid(p: Product, form: ProductForm) {
    && (form.name.Some? ==> NameValid(p.name))
    && (form.category.Some? ==> p.category in Categories)
    && p.price >= 0.0
    && (p.comparePrice.Some? ==> p.comparePrice.value >= 0.0)
    && p.stock >= 0
    && 0.0 <= p.ratings.average <= 5.0
  }

  /** The stored product after the form is applied, or None when a number does not parse. */
  function Applied(p: Product, form: ProductForm, uploads: seq<Upload>, baseUrl: string): (r: Option<Product>)
    ensures r.None? <==> form.price.None? || form.comparePrice.None? || form.stock.None?
    ensures r.Some? ==>
      && r.value.ratings == p.ratings && r.value.reviews == p.reviews
      && r.value.price == form.price.value && r.value.comparePrice == form.comparePrice
      && r.value.stock == form.stock.value
      && (r.value.isFeatured <==> FlagOn(form.isFeatured))
      && (r.value.isActive <==> FlagOn(form.isActive))
      && r.value.tags == NormalizeTags(form.tags, p.tags)
      && r.value.name == (if form.name.Some? then Trim(form.name.value) else p.name)
  {
    if form.price.None? || form.comparePrice.None? || form.stock.None? then None
    else
      var alt := if Supplied(form.name) then form.name.value else p.name;
      var images := ResolveImages(p.images, form.images, form.replaceImages, UploadedImages(baseUrl, uploads, alt));
      Some(Product(
        if form.name.Some? then Trim(form.name.value) else p.name,
        form.price.value,
        form.comparePrice,
        if images.Some? then images.value else p.images,
        if form.category.Some? then form.category.value else p.category,
        if form.brand.Some? then form.brand else p.brand,
        form.stock.value,
        NormalizeTags(form.tags, p.tags),
        p.ratings,
        p.reviews,
        FlagOn(form.isFeatured),
        FlagOn(form.isActive)))
  }

  /** `updateProduct`: find, normalise the form, validate the written paths, store. */
  function UpdateProduct(s: Shop, id: ProductId, form: ProductForm, uploads: seq<Upload>, baseUrl: string): (r: Reply<Product>)
    ensures id !in s.catalog ==> r == Fail(s, NotFound)
    ensures r.result.Err? ==> r.shop == s
    ensures r.result.Ok? <==>
      id in s.catalog && Applied(s.catalog[id], form, uploads, baseUrl).Some? &&
      UpdatedPathsValid(Applied(s.catalog[id], form, uploads, baseUrl).value, form)
    ensures r.result.Ok? ==> r.result.value == Applied(s.catalog[id], form, uploads, baseUrl).value
    ensures r.result.Ok? ==> r.shop == s.(catalog := s.catalog[id := r.result.value])
  {
    if id !in s.catalog then Fail(s, NotFound)
    else
      match Applied(s.catalog[id], form, uploads, baseUrl)
      case None => Fail(s, ValidationFailed)
      case Some(p2) =>
        if !UpdatedPathsValid(p2, form) then Fail(s, ValidationFailed)
        else Done(s.(catalog := s.catalog[id := p2]), p2)
  }

  /** An accepted update of a valid product leaves it valid, with its rating and reviews untouched. */
  lemma UpdateKeepsProductValid(s: Shop, id: ProductId, form: ProductForm, uploads: seq<Upload>, baseUrl: string)
    requires id in s.catalog && ValidProduct(s.catalog[id])
    ensures var r := UpdateProduct(s, id, form, uploads, baseUrl);
      r.result.Ok? ==>
        ValidProduct(r.result.value) &&
        r.result.value.ratings == s.catalog[id].ratings &&
        r.result.value.reviews == s.catalog[id].reviews
  {
  }

  /** Uploads with replaceImages "true" leave exactly the new images; otherwise the stored ones come first. */
  lemma UploadImages(s: Shop, id: ProductId, form: ProductForm, uploads: seq<Upload>, baseUrl: string)
    requires |uploads| > 0
    requires UpdateProduct(s, id, form, uploads, baseUrl).result.Ok?
    ensures var p := UpdateProduct(s, id, form, uploads, baseUrl).result.value;
      var stored := s.catalog[id].images;
      |p.images| == (if form.replaceImages == Some("true") then 0 else |stored|) + |uploads| &&
      (form.replaceImages != Some("true") ==> p.images[..|stored|] == stored) &&
      forall k :: 0 <= k < |uploads| ==>
        p.images[|p.images| - |uploads| + k].fileName == uploads[k].fileName
  {
    var q := s.catalog[id];
    var p := UpdateProduct(s, id, form, uploads, baseUrl).result.value;
    assert p == Applied(q, form, uploads, baseUrl).value;
    var alt := if Supplied(form.name) then form.name.value else q.name;
    var kept := if form.replaceImages == Some("true") then [] else q.images;
    AppliedUploads(q, form, uploads, baseUrl);
    UploadsLast(kept, UploadedImages(baseUrl, uploads, alt), baseUrl, uploads, alt);
  }

  /** With uploads, the applied form's images are the kept ones followed by the uploaded ones. */
  lemma AppliedUploads(q: Product, form: ProductForm, uploads: seq<Upload>, baseUrl: string)
    requires |uploads| > 0 && Applied(q, form, uploads, baseUrl).Some?
    ensures var alt := if Supplied(form.name) then form.name.value else q.name;
      Applied(q, form, uploads, baseUrl).value.images ==
        (if form.replaceImages == Some("true") then [] else q.images) + UploadedImages(baseUrl, uploads, alt)
  {
  }

  lemma UploadsLast(kept: seq<Image>, added: seq<Image>, baseUrl: string, uploads: seq<Upload>, alt: string)
    requires added == UploadedImages(baseUrl, uploads, alt)
    ensures var all := kept + added;
      |all| == |kept| + |uploads| && all[..|kept|] == kept &&
      forall k :: 0 <= k < |uploads| ==> all[|all| - |uploads| + k].fileName == uploads[k].fileName
  {
    var all := kept + added;
    assert all[..|kept|] == kept;
    forall k | 0 <= k < |uploads| ensures all[|all| - |uploads| + k].fileName == uploads[k].fileName {
      assert all[|all| - |uploads| + k] == added[k];
    }
  }

  /** A form that leaves the flags out deactivates and unfeatures the product. */
  lemma AbsentFlagsSwitchOff(s: Shop, id: ProductId, form: ProductForm, uploads: seq<Upload>, baseUrl: string)
    requires form.isActive == FlagAbsent && form.isFeatured == FlagAbsent
    requires UpdateProduct(s, id, form, uploads, baseUrl).result.Ok?
    ensures !UpdateProduct(s, id, form, uploads, baseUrl).result.value.isActive
    ensures !UpdateProduct(s, id, form, uploads, baseUrl).result.value.isFeatured
  {
  }

  // ---------------------------------------------------------------------
  // The legacy review route
  // ---------------------------------------------------------------------

  /**
   * The product controller's own `addReview`: 404 for a missing product, 400
   * when the user already has an embedded review, and otherwise a failure
   * before anything is written, because the module it calls into is never
   * imported.
   */
  function LegacyAddReview(s: Shop, productId: ProductId, user: UserId): (r: Reply<()>)
    ensures r.shop == s && r.result.Err?
    ensures r.result.error == NotFound <==> productId !in s.catalog
    ensures r.result.error == DuplicateReview <==>
      productId in s.catalog && exists k :: 0 <= k < |s.catalog[productId].reviews| && s.catalog[productId].reviews[k].user == user
  {
    if productId !in s.catalog then Fail(s, NotFound)
    else if exists k :: 0 <= k < |s.catalog[productId].reviews| && s.catalog[productId].reviews[k].user == user then
      Fail(s, DuplicateReview)
    else Fail(s, Internal)
  }
}

=== FILE: product_slice.dfy ===
/** The client's catalog filter state: the listing filters and the search text. */
module ProductSlice {
  import opened Common

  datatype Filters = Filters(category: string, minPrice: string, maxPrice: string, brand: string, sort: string)

  datatype ProductState = ProductState(filters: Filters, searchQuery: string)

  /** A `setFilters` payload: the keys it mentions, with their values. */
  datatype FilterPatch = FilterPatch(
    category: Option<string>,
    minPrice: Option<string>,
    maxPrice: Option<string>,
    brand: Option<string>,
    sort: Option<string>)

  const DefaultFilters: Filters := Filters("", "", "", "", "newest")

  const Initial: ProductState := ProductState(DefaultFilters, "")

  function Pick(v: Option<string>, current: string): string {
    if v.Some? then v.value else current
  }

  /** `{ ...filters, ...patch }`: every mentioned key takes the patch's value, the others keep theirs. */
  function Overlay(f: Filters, p: FilterPatch): (r: Filters)
    ensures p.category.Some? ==> r.category == p.category.value
    ensures p.category.None? ==> r.category == f.category
    ensures p.minPrice.Some? ==> r.minPrice == p.minPrice.value
    ensures p.minPrice.None? ==> r.minPrice == f.minPrice
    ensures p.maxPrice.Some? ==> r.maxPrice == p.maxPrice.value
    ensures p.maxPrice.None? ==> r.maxPrice == f.maxPrice
    ensures p.brand.Some? ==> r.brand == p.brand.value
    ensures p.brand.None? ==> r.brand == f.brand
    ensures p.sort.Some? ==> r.sort == p.sort.value
    ensures p.sort.None? ==> r.sort == f.sort
  {
    Filters(Pick(p.category, f.category), Pick(p.minPrice, f.minPrice), Pick(p.maxPrice, f.maxPrice),
            Pick(p.brand, f.brand), Pick(p.sort, f.sort))
  }

  datatype ProductAction = SetFilters(patch: FilterPatch) | ResetFilters | SetSearchQuery(query: string)

  function Reduce(s: ProductState, a: ProductAction): (r: ProductState)
    ensures a.SetFilters? ==> r == ProductState(Overlay(s.filters, a.patch), s.searchQuery)
    ensures a.ResetFilters? ==> r == ProductState(DefaultFilters, s.searchQuery)
    ensures a.SetSearchQuery? ==> r == s.(searchQuery := a.query)
  {
    match a
    case SetFilters(p) => s.(filters := Overlay(s.filters, p))
    case ResetFilters => s.(filters := DefaultFilters)
    case SetSearchQuery(q) => s.(searchQuery := q)
  }

  /** Two patches in a row are the one patch in which the later keys win. */
  function Combine(p: FilterPatch, q: FilterPatch): FilterPatch {
    FilterPatch(
      if q.category.Some? then q.category else p.category,
      if q.minPrice.Some? then q.minPrice else p.minPrice,
      if q.maxPrice.Some? then q.maxPrice else p.maxPrice,
      if q.brand.Some? then q.brand else p.brand,
      if q.sort.Some? then q.sort else p.sort)
  }

  lemma SetFiltersCompose(s: ProductState, p: FilterPatch, q: FilterPatch)
    ensures Reduce(Reduce(s, SetFilters(p)), SetFilters(q)) == Reduce(s, SetFilters(Combine(p, q)))
  {
  }

  /** An empty patch changes nothing, and a patch that repeats the current values changes nothing. */
  lemma SetFiltersIdentity(s: ProductState)
    ensures Reduce(s, SetFilters(FilterPatch(None, None, None, None, None))) == s
    ensures var f := s.filters;
      Reduce(s, SetFilters(FilterPatch(Some(f.category), Some(f.minPrice), Some(f.maxPrice), Some(f.brand), Some(f.sort)))) == s
  {
  }

  /** Resetting is idempotent and undoes every earlier filter change, leaving the search text alone. */
  lemma ResetFiltersIdempotent(s: ProductState, p: FilterPatch)
    ensures Reduce(Reduce(s, ResetFilters), ResetFilters) == Reduce(s, ResetFilters)
    ensures Reduce(Reduce(s, SetFilters(p)), ResetFilters) == Reduce(s, ResetFilters)
    ensures Reduce(s, ResetFilters).searchQuery == s.searchQuery
  {
  }

  /** Filters and search text are independent: the order of a filter change and a search change does not matter. */
  lemma FiltersAndSearchCommute(s: ProductState, a: ProductAction, q: string)
    requires !a.SetSearchQuery?
    ensures Reduce(Reduce(s, a), SetSearchQuery(q)) == Reduce(Reduce(s, SetSearchQuery(q)), a)
  {
  }
}

=== FILE: products.dfy ===
/**
 * The product document: the fields the shop's logic reads or writes, the
 * schema validators a save runs, the rating aggregate recomputed from the
 * embedded review copies, and the stock ledger that checkout and
 * cancellation move.
 */
module Products {
  import opened Common
  import opened Text

  datatype Image = Image(url: string, fileName: string, alt: string)

  /**
   * The review copy embedded in a product. The embedded schema has no
   * verified-purchase flag, and title and comment may be unset.
   */
  datatype EmbeddedReview = EmbeddedReview(user: UserId, rating: int, title: Option<string>, comment: Option<string>)

  datatype Ratings = Ratings(average: real, count: nat)

  datatype Product = Product(
    name: string,
    price: real,
    comparePrice: Option<real>,
    images: seq<Image>,
    category: string,
    brand: Option<string>,
    stock: int,
    tags: seq<string>,
    ratings: Ratings,
    reviews: seq<EmbeddedReview>,
    isFeatured: bool,
    isActive: bool)

  type Catalog = map<ProductId, Product>

  const MinRating: int := 1
  const MaxRating: int := 5

  predicate RatingInRange(k: int) {
    MinRating <= k <= MaxRating
  }

  predicate EmbeddedRatingsInRange(rs: seq<EmbeddedReview>) {
    forall i :: 0 <= i < |rs| ==> RatingInRange(rs[i].rating)
  }

  const NameMaxLength: int := 100

  /** The category enumeration of the schema. */
  const Categories: set<string> := {"electronics", "clothing", "home", "beauty", "sports", "books", "toys", "other"}

  /** A required name of at most 100 UTF-16 code units (the schema trims it before checking). */
  predicate NameValid(name: string) {
    name != "" && Utf16Length(name) <= NameMaxLength
  }

  /** The validators a product save runs: a valid name and category, prices and stock non-negative, average in 0..5, embedded ratings in 1..5. */
  predicate ValidProduct(p: Product) {
    && NameValid(p.name)
    && p.category in Categories
    && p.price >= 0.0
    && (p.comparePrice.Some? ==> p.comparePrice.value >= 0.0)
    && p.stock >= 0
    && 0.0 <= p.ratings.average <= 5.0
    && EmbeddedRatingsInRange(p.reviews)
  }

  predicate ValidCatalog(cat: Catalog) {
    forall id :: id in cat ==> ValidProduct(cat[id])
  }

  /** The sum of the embedded ratings, folded left to right. */
  function RatingSum(rs: seq<EmbeddedReview>): int
  {
    if |rs| == 0 then 0 else RatingSum(rs[..|rs| - 1]) + rs[|rs| - 1].rating
  }

  /** `calculateAverageRating`: the mean of the embedded ratings, with no reviews giving average 0 and count 0. */
  function CalculateAverageRating(rs: seq<EmbeddedReview>): (r: Ratings)
    ensures r.count == |rs|
    ensures |rs| == 0 ==> r.average == 0.0
    ensures |rs| > 0 ==> r.average * (|rs| as real) == RatingSum(rs) as real
  {
    if |rs| == 0 then Ratings(0.0, 0)
    else Ratings(RatingSum(rs) as real / |rs| as real, |rs|)
  }

  /** The product with its rating aggregate recomputed from its embedded reviews. */
  function WithRatings(p: Product): (r: Product)
    ensures r.reviews == p.reviews && r.stock == p.stock
  {
    p.(ratings := CalculateAverageRating(p.reviews))
  }

  predicate RatingsConsistent(p: Product) {
    p.ratings == CalculateAverageRating(p.reviews)
  }

  lemma {:induction false} RatingSumBounds(rs: seq<EmbeddedReview>)
    requires EmbeddedRatingsInRange(rs)
    ensures MinRating * |rs| <= RatingSum(rs) <= MaxRating * |rs|
  {
    if |rs| > 0 {
      var front := rs[..|rs| - 1];
      assert EmbeddedRatingsInRange(front) by {
        forall i | 0 <= i < |front| ensures RatingInRange(front[i].rating) {
          assert front[i] == rs[i];
        }
      }
      RatingSumBounds(front);
      assert RatingInRange(rs[|rs| - 1].rating);
    }
  }

  /** With every embedded rating in 1..5, a non-empty average lies in [1, 5] (and so passes the 0..5 validator). */
  lemma AverageInRange(rs: seq<EmbeddedReview>)
    requires EmbeddedRatingsInRange(rs)
    ensures |rs| > 0 ==> 1.0 <= CalculateAverageRating(rs).average <= 5.0
    ensures 0.0 <= CalculateAverageRating(rs).average <= 5.0
  {
    if |rs| > 0 {
      RatingSumBounds(rs);
      MeanBounds(RatingSum(rs), |rs|, MinRating, MaxRating);
    }
  }

  /** A sum between lo and hi times a positive count has its mean between lo and hi. */
  lemma MeanBounds(sum: int, count: int, lo: int, hi: int)
    requires count > 0 && lo * count <= sum <= hi * count
    ensures lo as real <= sum as real / count as real <= hi as real
  {
    var n := count as real;
    var q := sum as real / n;
    assert q * n == sum as real;
    assert (lo * count) as real == lo as real * n;
    assert (hi * count) as real == hi as real * n;
    assert (q - lo as real) * n == q * n - lo as real * n;
    assert (hi as real - q) * n == hi as real * n - q * n;
  }

  /** Recomputing the rating of a recomputed product changes nothing. */
  lemma RecalculateIdempotent(p: Product)
    ensures RatingsConsistent(WithRatings(p))
    ensures WithRatings(WithRatings(p)) == WithRatings(p)
  {
  }

  /** Appending one review moves the aggregate to the incremental mean. */
  lemma AppendReviewAverage(rs: seq<EmbeddedReview>, e: EmbeddedReview)
    ensures var before := CalculateAverageRating(rs);
      var after := CalculateAverageRating(rs + [e]);
      after.count == before.count + 1 &&
      after.average * (after.count as real) == before.average * (before.count as real) + e.rating as real
  {
    assert (rs + [e])[..|rs|] == rs;
  }

  /** Ratings 5 and 3 average 4; a single 3 averages 3. */
  lemma TwoReviewsExample(u: UserId, v: UserId)
    ensures CalculateAverageRating([EmbeddedReview(u, 5, None, None), EmbeddedReview(v, 3, None, None)]) == Ratings(4.0, 2)
    ensures CalculateAverageRating([EmbeddedReview(v, 3, None, None)]) == Ratings(3.0, 1)
  {
    var a := [EmbeddedReview(u, 5, None, None)];
    var b := [EmbeddedReview(v, 3, None, None)];
    assert a[..0] == [] && b[..0] == [];
    assert RatingSum(a) == 5 && RatingSum(b) == 3;
    assert (a + b)[..1] == a;
    assert RatingSum(a + b) == 8;
    assert a + b == [EmbeddedReview(u, 5, None, None), EmbeddedReview(v, 3, None, None)];
  }

  // ---------------------------------------------------------------------
  // Stock ledger: `$inc` on a product's stock, by id, in sequence.
  // ---------------------------------------------------------------------

  /** One stock movement: a product and a quantity. */
  datatype StockMove = StockMove(product: ProductId, quantity: int)

  /** Reserve subtracts (checkout), Release adds back (cancellation). */
  datatype Direction = Reserve | Release

  function Signed(d: Direction, q: int): int {
    if d == Reserve then -q else q
  }

  /** `findByIdAndUpdate(id, {$inc: {stock: delta}})`: a missing id is a silent no-op. */
  function Adjust(cat: Catalog, id: ProductId, delta: int): (r: Catalog)
    ensures r.Keys == cat.Keys
    ensures forall p :: p in r ==> r[p].(stock := cat[p].stock) == cat[p]
  {
    if id in cat then cat[id := cat[id].(stock := cat[id].stock + delta)] else cat
  }

  /** The moves applied one after another: the same products, with nothing but their stock changed. */
  function Shift(cat: Catalog, moves: seq<StockMove>, d: Direction): (r: Catalog)
    ensures r.Keys == cat.Keys
    ensures forall p :: p in r ==> r[p].(stock := cat[p].stock) == cat[p]
    decreases |moves|
  {
    if |moves| == 0 then cat
    else Shift(Adjust(cat, moves[0].product, Signed(d, moves[0].quantity)), moves[1..], d)
  }

  /** Total quantity the moves carry for one product. */
  function MovedQuantity(moves: seq<StockMove>, p: ProductId): int
    decreases |moves|
  {
    if |moves| == 0 then 0
    else (if moves[0].product == p then moves[0].quantity else 0) + MovedQuantity(moves[1..], p)
  }

  /** Applying the moves shifts each product's stock by exactly its moved quantity and changes nothing else. */
  lemma {:induction false} ShiftEffect(cat: Catalog, moves: seq<StockMove>, d: Direction)
    ensures Shift(cat, moves, d).Keys == cat.Keys
    ensures forall p :: p in cat ==>
      Shift(cat, moves, d)[p] == cat[p].(stock := cat[p].stock + Signed(d, MovedQuantity(moves, p)))
    decreases |moves|
  {
    if |moves| > 0 {
      var m := moves[0];
      var next := Adjust(cat, m.product, Signed(d, m.quantity));
      ShiftEffect(next, moves[1..], d);
      forall p | p in cat
        ensures Shift(cat, moves, d)[p] == cat[p].(stock := cat[p].stock + Signed(d, MovedQuantity(moves, p)))
      {
        assert MovedQuantity(moves, p) == (if m.product == p then m.quantity else 0) + MovedQuantity(moves[1..], p);
      }
    }
  }

  /** Releasing what was reserved restores the catalog exactly. */
  lemma ReleaseUndoesReserve(cat: Catalog, moves: seq<StockMove>)
    ensures Shift(Shift(cat, moves, Reserve), moves, Release) == cat
  {
    var mid := Shift(cat, moves, Reserve);
    ShiftEffect(cat, moves, Reserve);
    ShiftEffect(mid, moves, Release);
    var back := Shift(mid, moves, Release);
    assert back.Keys == cat.Keys;
    forall p | p in cat ensures back[p] == cat[p] {
    }
  }
}

=== FILE: review_controller.dfy ===
/**
 * The review endpoints. Every review is written twice: as a standalone
 * review document and as a copy embedded in its product, whose rating
 * aggregate is recomputed from the embedded copies.
 */
module ReviewController {
  import opened Common
  import opened Text
  import opened Products
  import opened Orders
  import opened Reviews
  import opened Store

  /** An order that proves the purchase: the user's, delivered, and listing the product. */
  predicate Purchased(o: Order, user: UserId, product: ProductId) {
    o.user == user && o.status == Delivered &&
    exists j :: 0 <= j < |o.items| && o.items[j].product == product
  }

  /** The number of orders `Order.find({user, 'items.product', orderStatus: 'delivered'})` returns. */
  function DeliveredPurchases(orders: seq<Order>, user: UserId, product: ProductId): (n: nat)
    ensures n > 0 <==> exists i :: 0 <= i < |orders| && Purchased(orders[i], user, product)
    ensures n <= |orders|
    decreases |orders|
  {
    if |orders| == 0 then 0
    else
      var rest := DeliveredPurchases(orders[..|orders| - 1], user, product);
      assert forall i :: 0 <= i < |orders| - 1 ==> orders[..|orders| - 1][i] == orders[i];
      rest + (if Purchased(orders[|orders| - 1], user, product) then 1 else 0)
  }

  /** The request-validation middleware of the add route: rating 1..5, a title, a comment of at least 10 characters. */
  predicate AddRequestValid(rating: int, title: string, comment: string) {
    RatingInRange(rating) && title != "" && |comment| >= 10
  }

  /**
   * `addReview`: the product must exist and the user must not have reviewed it
   * yet; the verified flag comes from the user's delivered orders; the review is
   * created, then its copy is pushed into the product and the rating recomputed.
   */
  function AddReview(s: Shop, productId: ProductId, user: UserId, rating: int, title: string, comment: string,
                     reviewId: ReviewId): (r: Reply<Review>)
    requires AddRequestValid(rating, title, comment)
    ensures productId !in s.catalog ==> r == Fail(s, NotFound)
    ensures productId in s.catalog && HasReviewBy(s.reviews, productId, user) ==> r == Fail(s, DuplicateReview)
    ensures r.shop.carts == s.carts && r.shop.orders == s.orders
    ensures var review := NewReview(reviewId, productId, user, rating, title, comment,
                                    Some(DeliveredPurchases(s.orders, user, productId) > 0));
      && (r.result.Err? ==> r.shop.catalog == s.catalog && (r.shop.reviews == s.reviews || r.shop.reviews == s.reviews + [review]))
      && (productId in s.catalog && !HasReviewBy(s.reviews, productId, user) ==>
            && (!ValidReview(review) ==> r == Fail(s, ValidationFailed))
            && (ValidReview(review) && ReviewIdTaken(s.reviews, reviewId) ==> r == Fail(s, DuplicateKey))
            && (ValidReview(review) && !ReviewIdTaken(s.reviews, reviewId) ==>
                  && r.shop.reviews == s.reviews + [review]
                  && var p := s.catalog[productId];
                     (r.result.Ok? <==> ValidProduct(WithRatings(p.(reviews := p.reviews + [EmbeddedReview(user, rating, Some(title), Some(comment))]))))))
    ensures r.result.Ok? ==>
      && productId in s.catalog && !HasReviewBy(s.reviews, productId, user)
      && r.result.value == NewReview(reviewId, productId, user, rating, title, comment,
                                     Some(DeliveredPurchases(s.orders, user, productId) > 0))
      && r.shop.reviews == s.reviews + [r.result.value]
      && var p := s.catalog[productId];
         r.shop.catalog == s.catalog[productId := WithRatings(p.(reviews := p.reviews + [EmbeddedReview(user, rating, Some(title), Some(comment))]))]
  {
    if productId !in s.catalog then Fail(s, NotFound)
    else if HasReviewBy(s.reviews, productId, user) then Fail(s, DuplicateReview)
    else
      var verified := DeliveredPurchases(s.orders, user, productId) > 0;
      var review := NewReview(reviewId, productId, user, rating, title, comment, Some(verified));
      if !ValidReview(review) then Fail(s, ValidationFailed)
      else if ReviewIdTaken(s.reviews, reviewId) then Fail(s, DuplicateKey)
      else
        var saved := s.(reviews := s.reviews + [review]);
        var p := s.catalog[productId];
        var p2 := WithRatings(p.(reviews := p.reviews + [EmbeddedReview(user, rating, Some(title), Some(comment))]));
        if !ValidProduct(p2) then Reply(saved, Err(ValidationFailed))
        else Done(saved.(catalog := s.catalog[productId := p2]), review)
  }

  /** A falsy number (absent or 0) leaves the stored value. */
  predicate NumberGiven(x: Option<int>) {
    x.Some? && x.value != 0
  }

  /** `field = value || field` on the standalone review: only truthy values replace; the title is stored trimmed. */
  function Merged(prior: Review, rating: Option<int>, title: Option<string>, comment: Option<string>): (r: Review)
    ensures r.id == prior.id && r.product == prior.product && r.user == prior.user
    ensures r.helpful == prior.helpful && r.isVerifiedPurchase == prior.isVerifiedPurchase
    ensures r.rating == (if NumberGiven(rating) then rating.value else prior.rating)
    ensures r.title == (if Supplied(title) then Trim(title.value) else prior.title)
    ensures r.comment == (if Supplied(comment) then comment.value else prior.comment)
  {
    prior.(rating := if NumberGiven(rating) then rating.value else prior.rating,
         title := if Supplied(title) then Trim(title.value) else prior.title,
         comment := if Supplied(comment) then comment.value else prior.comment)
  }

  /** The author's embedded copy rewritten with the raw request values, and the rating recomputed. */
  function RewriteCopy(p: Product, j: nat, rating: int, title: Option<string>, comment: Option<string>): (r: Product)
    requires j < |p.reviews|
    ensures |r.reviews| == |p.reviews| && RatingsConsistent(r)
    ensures r.reviews[j] == EmbeddedReview(p.reviews[j].user, rating, title, comment)
    ensures forall k :: 0 <= k < |p.reviews| && k != j ==> r.reviews[k] == p.reviews[k]
  {
    WithRatings(p.(reviews := p.reviews[j := p.reviews[j].(rating := rating, title := title, comment := comment)]))
  }

  /**
   * When the update goes through: the review exists, the caller wrote it, the
   * merged review passes the review validators, its product exists, and the
   * author has no embedded copy or the copy rewritten with the raw values
   * (which needs a rating) passes the product validators.
   */
  predicate UpdateAccepted(s: Shop, reviewId: ReviewId, user: UserId,
                           rating: Option<int>, title: Option<string>, comment: Option<string>) {
    && ReviewIdTaken(s.reviews, reviewId)
    && var prior := s.reviews[FindReview(s.reviews, reviewId).value];
       var updated := Merged(prior, rating, title, comment);
       && prior.user == user
       && ValidReview(updated)
       && updated.product in s.catalog
       && var p := s.catalog[updated.product];
          match FindEmbeddedBy(p.reviews, user)
          case None => true
          case Some(j) => rating.Some? && ValidProduct(RewriteCopy(p, j, rating.value, title, comment))
  }

  /**
   * `updateReview`: author only. The standalone review is saved first with the
   * falsy-keeps-old rule; then the author's embedded copy, if any, receives the
   * raw request values (absent ones become unset) and the product is saved. A
   * missing product or a rejected product save fails the request after the
   * standalone review was already written.
   */
  function UpdateReview(s: Shop, reviewId: ReviewId, user: UserId,
                        rating: Option<int>, title: Option<string>, comment: Option<string>): (r: Reply<Review>)
    ensures !ReviewIdTaken(s.reviews, reviewId) ==> r == Fail(s, NotFound)
    ensures r.shop.carts == s.carts && r.shop.orders == s.orders
    ensures ReviewIdTaken(s.reviews, reviewId) ==>
      var i := FindReview(s.reviews, reviewId).value;
      var updated := Merged(s.reviews[i], rating, title, comment);
      && (s.reviews[i].user != user ==> r == Fail(s, Forbidden))
      && (s.reviews[i].user == user && !ValidReview(updated) ==> r == Fail(s, ValidationFailed))
      && (s.reviews[i].user == user && ValidReview(updated) ==>
            r.shop.reviews == s.reviews[i := updated] &&
            (r.result.Ok? ==> r.result.value == updated))
    ensures r.result.Ok? ==>
      var rv := r.result.value;
      && rv.product in s.catalog
      && var found := FindEmbeddedBy(s.catalog[rv.product].reviews, user);
         && (found.None? ==> r.shop.catalog == s.catalog)
         && (found.Some? ==>
               rating.Some? && r.shop.catalog == s.catalog[rv.product := RewriteCopy(s.catalog[rv.product], found.value, rating.value, title, comment)])
    ensures r.result.Err? ==> r.shop.catalog == s.catalog
    ensures r.result.Ok? <==> UpdateAccepted(s, reviewId, user, rating, title, comment)
  {
    match FindReview(s.reviews, reviewId)
    case None => Fail(s, NotFound)
    case Some(i) =>
      var prior := s.reviews[i];
      if prior.user != user then Fail(s, Forbidden)
      else
        var updated := Merged(prior, rating, title, comment);
        if !ValidReview(updated) then Fail(s, ValidationFailed)
        else
          var saved := s.(reviews := s.reviews[i := updated]);
          if updated.product !in s.catalog then Reply(saved, Err(Internal))
          else
            var p := s.catalog[updated.product];
            match FindEmbeddedBy(p.reviews, user)
            case None => Done(saved, updated)
            case Some(j) =>
              if rating.None? then Reply(saved, Err(ValidationFailed))
              else
                var p2 := RewriteCopy(p, j, rating.value, title, comment);
                if !ValidProduct(p2) then Reply(saved, Err(ValidationFailed))
                else Done(saved.(catalog := s.catalog[updated.product := p2]), updated)
  }

  /**
   * The update with both copies kept in step: the embedded copy takes the
   * merged values the standalone review stores, and every check runs before
   * anything is written, so a failed request leaves the shop as it was.
   */
  function SyncedUpdateReview(s: Shop, reviewId: ReviewId, user: UserId,
                              rating: Option<int>, title: Option<string>, comment: Option<string>): (r: Reply<Review>)
    ensures !ReviewIdTaken(s.reviews, reviewId) ==> r == Fail(s, NotFound)
    ensures r.result.Err? ==> r.shop == s
    ensures r.shop.carts == s.carts && r.shop.orders == s.orders
    ensures r.result.Ok? ==>
      var i := FindReview(s.reviews, reviewId).value;
      var rv := r.result.value;
      && s.reviews[i].user == user
      && rv == Merged(s.reviews[i], rating, title, comment)
      && r.shop.reviews == s.reviews[i := rv]
      && rv.product in s.catalog
      && var found := FindEmbeddedBy(s.catalog[rv.product].reviews, user);
         && (found.None? ==> r.shop.catalog == s.catalog)
         && (found.Some? ==>
               && rv.product in r.shop.catalog
               && found.value < |r.shop.catalog[rv.product].reviews|
               && Agree(rv, r.shop.catalog[rv.product].reviews[found.value]))
  {
    match FindReview(s.reviews, reviewId)
    case None => Fail(s, NotFound)
    case Some(i) =>
      var prior := s.reviews[i];
      if prior.user != user then Fail(s, Forbidden)
      else
        var updated := Merged(prior, rating, title, comment);
        if !ValidReview(updated) then Fail(s, ValidationFailed)
        else if updated.product !in s.catalog then Fail(s, Internal)
        else
          var saved := s.(reviews := s.reviews[i := updated]);
          var p := s.catalog[updated.product];
          match FindEmbeddedBy(p.reviews, user)
          case None => Done(saved, updated)
          case Some(j) =>
            var p2 := RewriteCopy(p, j, updated.rating, Some(updated.title), Some(updated.comment));
            if !ValidProduct(p2) then Fail(s, ValidationFailed)
            else Done(saved.(catalog := s.catalog[updated.product := p2]), updated)
  }

  /**
   * `deleteReview`: the author or an admin may delete. Every embedded copy by
   * the review's author is filtered out of the product, the rating is
   * recomputed and saved, and then the standalone review is deleted.
   */
  function DeleteReview(s: Shop, reviewId: ReviewId, user: UserId, role: Role): (r: Reply<()>)
    ensures !ReviewIdTaken(s.reviews, reviewId) ==> r == Fail(s, NotFound)
    ensures r.result.Err? ==> r.shop == s
    ensures r.result.Ok? ==>
      && ReviewIdTaken(s.reviews, reviewId)
      && var i := FindReview(s.reviews, reviewId).value;
         var rv := s.reviews[i];
         && (rv.user == user || role == Admin)
         && rv.product in s.catalog
         && var p := s.catalog[rv.product];
            && r.shop == s.(catalog := s.catalog[rv.product := WithRatings(p.(reviews := WithoutEmbeddedBy(p.reviews, rv.user)))],
                            reviews := s.reviews[..i] + s.reviews[i + 1..])
  {
    match FindReview(s.reviews, reviewId)
    case None => Fail(s, NotFound)
    case Some(i) =>
      var rv := s.reviews[i];
      if rv.user != user && role != Admin then Fail(s, Forbidden)
      else if rv.product !in s.catalog then Fail(s, Internal)
      else
        var p := s.catalog[rv.product];
        var p2 := WithRatings(p.(reviews := WithoutEmbeddedBy(p.reviews, rv.user)));
        if !ValidProduct(p2) then Fail(s, ValidationFailed)
        else Done(s.(catalog := s.catalog[rv.product := p2], reviews := s.reviews[..i] + s.reviews[i + 1..]), ())
  }

  /** The route parameters Express passes to a handler, by name. */
  type RouteParams = map<string, ReviewId>

  /** The customer route `/:reviewId` names its parameter `reviewId`. */
  function CustomerRouteParams(reviewId: ReviewId): RouteParams {
    map["reviewId" := reviewId]
  }

  /** The admin route `/reviews/:id` names its parameter `id`. */
  function AdminRouteParams(reviewId: ReviewId): RouteParams {
    map["id" := reviewId]
  }

  /**
   * `deleteReview` as a route reaches it: the handler reads the parameter
   * `id`; when the route names it otherwise the lookup is by an undefined id,
   * finds nothing, and the request is answered 404.
   */
  function RoutedDeleteReview(s: Shop, params: RouteParams, user: UserId, role: Role): (r: Reply<()>)
    ensures "id" !in params ==> r == Fail(s, NotFound)
    ensures "id" in params ==> r == DeleteReview(s, params["id"], user, role)
  {
    if "id" in params then DeleteReview(s, params["id"], user, role) else Fail(s, NotFound)
  }

  /** The admin route reaches the handler with the id it was given. */
  lemma AdminRouteDeletes(s: Shop, reviewId: ReviewId, user: UserId, role: Role)
    ensures RoutedDeleteReview(s, AdminRouteParams(reviewId), user, role) == DeleteReview(s, reviewId, user, role)
  {
  }

  /** The author's request through the customer route deletes nothing, although the handler given the id would. */
  lemma RoutedDeleteNeverDeletes(s: Shop, reviewId: ReviewId, user: UserId)
    requires ReviewIdTaken(s.reviews, reviewId)
    requires var rv := s.reviews[FindReview(s.reviews, reviewId).value];
      rv.user == user && rv.product in s.catalog && ValidProduct(s.catalog[rv.product])
    ensures DeleteReview(s, reviewId, user, Customer).result.Ok?
    ensures RoutedDeleteReview(s, CustomerRouteParams(reviewId), user, Customer) == Fail(s, NotFound)
  {
    DeleteReviewKeepsRatings(s, reviewId, user, Customer);
  }

  /** `markReviewHelpful`: toggles the caller's vote and answers the new record and whether the caller is now marked. */
  function MarkReviewHelpful(s: Shop, reviewId: ReviewId, user: UserId): (r: Reply<(Helpful, bool)>)
    ensures !ReviewIdTaken(s.reviews, reviewId) <==> r.result.Err?
    ensures r.result.Err? ==> r == Fail(s, NotFound)
    ensures r.shop.catalog == s.catalog && r.shop.carts == s.carts && r.shop.orders == s.orders
    ensures r.result.Ok? ==>
      var i := FindReview(s.reviews, reviewId).value;
      r.result.value == ToggleHelpful(s.reviews[i].helpful, user) &&
      r.shop.reviews == s.reviews[i := s.reviews[i].(helpful := r.result.value.0)]
  {
    match FindReview(s.reviews, reviewId)
    case None => Fail(s, NotFound)
    case Some(i) =>
      var t := ToggleHelpful(s.reviews[i].helpful, user);
      Done(s.(reviews := s.reviews[i := s.reviews[i].(helpful := t.0)]), t)
  }

  // ---------------------------------------------------------------------
  // Properties across calls
  // ---------------------------------------------------------------------

  /** The two copies say the same thing. */
  predicate Agree(rv: Review, e: EmbeddedReview) {
    e.user == rv.user && e.rating == rv.rating && e.title == Some(rv.title) && e.comment == Some(rv.comment)
  }

  /** Pushing an in-range copy into a valid product and recomputing its rating keeps it valid. */
  lemma AppendedCopyKeepsProductValid(p: Product, e: EmbeddedReview)
    requires ValidProduct(p) && RatingInRange(e.rating)
    ensures var p2 := WithRatings(p.(reviews := p.reviews + [e]));
      ValidProduct(p2) && RatingsConsistent(p2) && p2.ratings.count == |p.reviews| + 1 && 1.0 <= p2.ratings.average
  {
    var rs := p.reviews + [e];
    assert EmbeddedRatingsInRange(rs) by {
      forall i | 0 <= i < |rs| ensures RatingInRange(rs[i].rating) {
        if i < |p.reviews| {
          assert rs[i] == p.reviews[i];
        }
      }
    }
    AverageInRange(rs);
  }

  /** A successful add keeps the product valid, its rating consistent and in 1..5, and counts one more review. */
  lemma AddReviewKeepsRatings(s: Shop, productId: ProductId, user: UserId, rating: int, title: string, comment: string,
                              reviewId: ReviewId)
    requires AddRequestValid(rating, title, comment)
    requires productId in s.catalog && ValidProduct(s.catalog[productId]) && RatingsConsistent(s.catalog[productId])
    ensures var r := AddReview(s, productId, user, rating, title, comment, reviewId);
      r.result.Ok? ==>
        var p := r.shop.catalog[productId];
        ValidProduct(p) && RatingsConsistent(p) &&
        p.ratings.count == s.catalog[productId].ratings.count + 1 &&
        1.0 <= p.ratings.average <= 5.0
  {
    AppendedCopyKeepsProductValid(s.catalog[productId], EmbeddedReview(user, rating, Some(title), Some(comment)));
  }

  /** On a valid product the add can only fail for an overlong title or a reused id: the product save never rejects it. */
  lemma AddReviewOnValidProduct(s: Shop, productId: ProductId, user: UserId, rating: int, title: string, comment: string,
                                reviewId: ReviewId)
    requires AddRequestValid(rating, title, comment)
    requires productId in s.catalog && ValidProduct(s.catalog[productId])
    requires !HasReviewBy(s.reviews, productId, user) && !ReviewIdTaken(s.reviews, reviewId)
    requires Utf16Length(Trim(title)) <= TitleMaxLength
    ensures AddReview(s, productId, user, rating, title, comment, reviewId).result.Ok?
  {
    AppendedCopyKeepsProductValid(s.catalog[productId], EmbeddedReview(user, rating, Some(title), Some(comment)));
  }

  /** After a successful add, a second add by the same user for the same product is refused and changes nothing. */
  lemma SecondReviewRefused(s: Shop, productId: ProductId, user: UserId, rating: int, title: string, comment: string,
                            reviewId: ReviewId, rating2: int, title2: string, comment2: string, reviewId2: ReviewId)
    requires AddRequestValid(rating, title, comment) && AddRequestValid(rating2, title2, comment2)
    ensures var first := AddReview(s, productId, user, rating, title, comment, reviewId);
      first.result.Ok? ==>
        AddReview(first.shop, productId, user, rating2, title2, comment2, reviewId2) == Fail(first.shop, DuplicateReview)
  {
    var first := AddReview(s, productId, user, rating, title, comment, reviewId);
    if first.result.Ok? {
      var rs := first.shop.reviews;
      assert rs[|rs| - 1].product == productId && rs[|rs| - 1].user == user;
    }
  }

  /** Adding keeps at most one review per (product, user) and unique ids. */
  lemma AddReviewKeepsUnique(s: Shop, productId: ProductId, user: UserId, rating: int, title: string, comment: string,
                             reviewId: ReviewId)
    requires AddRequestValid(rating, title, comment)
    requires UniqueReviews(s.reviews)
    ensures UniqueReviews(AddReview(s, productId, user, rating, title, comment, reviewId).shop.reviews)
  {
    var r := AddReview(s, productId, user, rating, title, comment, reviewId);
    if r.shop.reviews != s.reviews {
      var rv := NewReview(reviewId, productId, user, rating, title, comment,
                          Some(DeliveredPurchases(s.orders, user, productId) > 0));
      Reviews.AppendKeepsUnique(s.reviews, rv);
    }
  }

  /** The embedded copy keeps the raw title while the standalone review stores it trimmed: they agree iff the title was already trimmed. */
  lemma AddReviewCopiesAgreeIffTrimmed(s: Shop, productId: ProductId, user: UserId, rating: int, title: string, comment: string,
                                       reviewId: ReviewId)
    requires AddRequestValid(rating, title, comment)
    requires AddReview(s, productId, user, rating, title, comment, reviewId).result.Ok?
    ensures var r := AddReview(s, productId, user, rating, title, comment, reviewId);
      var rs := r.shop.catalog[productId].reviews;
      |rs| > 0 && (Agree(r.result.value, rs[|rs| - 1]) <==> Trim(title) == title)
  {
  }

  /** After a successful update, the author's embedded copy, if any, holds exactly the values as sent. */
  lemma UpdatedCopy(s: Shop, reviewId: ReviewId, user: UserId, rating: Option<int>, title: Option<string>, comment: Option<string>)
    requires UpdateReview(s, reviewId, user, rating, title, comment).result.Ok?
    ensures var r := UpdateReview(s, reviewId, user, rating, title, comment);
      var rv := r.result.value;
      var found := FindEmbeddedBy(s.catalog[rv.product].reviews, user);
      found.Some? ==>
        && rating.Some?
        && rv.product in r.shop.catalog
        && found.value < |r.shop.catalog[rv.product].reviews|
        && r.shop.catalog[rv.product].reviews[found.value] == EmbeddedReview(user, rating.value, title, comment)
  {
    var r := UpdateReview(s, reviewId, user, rating, title, comment);
    var rv := r.result.value;
    var p := s.catalog[rv.product];
    var found := FindEmbeddedBy(p.reviews, user);
    if found.Some? {
      assert r.shop.catalog[rv.product] == RewriteCopy(p, found.value, rating.value, title, comment);
    }
  }

  /** A successful update answers the author's review with the truthy values merged in. */
  lemma UpdatedReview(s: Shop, reviewId: ReviewId, user: UserId, rating: Option<int>, title: Option<string>, comment: Option<string>)
    requires UpdateReview(s, reviewId, user, rating, title, comment).result.Ok?
    ensures ReviewIdTaken(s.reviews, reviewId)
    ensures var i := FindReview(s.reviews, reviewId).value;
      s.reviews[i].user == user &&
      UpdateReview(s, reviewId, user, rating, title, comment).result.value == Merged(s.reviews[i], rating, title, comment)
  {
  }

  /** When rating, title and comment are all supplied (truthy, title already trimmed), the two copies agree after an update. */
  lemma UpdateAgreesWhenAllSupplied(s: Shop, reviewId: ReviewId, user: UserId, rating: int, title: string, comment: string)
    requires rating != 0 && title != "" && comment != "" && Trim(title) == title
    requires UpdateReview(s, reviewId, user, Some(rating), Some(title), Some(comment)).result.Ok?
    ensures var r := UpdateReview(s, reviewId, user, Some(rating), Some(title), Some(comment));
      var rv := r.result.value;
      var found := FindEmbeddedBy(s.catalog[rv.product].reviews, user);
      found.Some? ==> Agree(rv, r.shop.catalog[rv.product].reviews[found.value])
  {
    UpdatedReview(s, reviewId, user, Some(rating), Some(title), Some(comment));
    UpdatedCopy(s, reviewId, user, Some(rating), Some(title), Some(comment));
    MergedAgrees(s.reviews[FindReview(s.reviews, reviewId).value], user, rating, title, comment);
  }

  /** Merging truthy values, the title already trimmed, agrees with a copy holding the same values. */
  lemma MergedAgrees(prior: Review, user: UserId, rating: int, title: string, comment: string)
    requires prior.user == user && rating != 0 && title != "" && comment != "" && Trim(title) == title
    ensures Agree(Merged(prior, Some(rating), Some(title), Some(comment)), EmbeddedReview(user, rating, Some(title), Some(comment)))
  {
  }

  /** An update that omits the title leaves the embedded copy without one, so the copies disagree. */
  lemma UpdateWithoutTitleDiverges(s: Shop, reviewId: ReviewId, user: UserId, rating: Option<int>, comment: Option<string>)
    requires UpdateReview(s, reviewId, user, rating, None, comment).result.Ok?
    ensures var r := UpdateReview(s, reviewId, user, rating, None, comment);
      var rv := r.result.value;
      var found := FindEmbeddedBy(s.catalog[rv.product].reviews, user);
      found.Some? ==>
        r.shop.catalog[rv.product].reviews[found.value].title == None &&
        !Agree(rv, r.shop.catalog[rv.product].reviews[found.value])
  {
  }

  /**
   * An update without a rating on a review that has an embedded copy fails the
   * product save, yet the standalone review has already taken the new title
   * and comment: the request errors with the two copies diverged.
   */
  lemma UpdateWithoutRatingWritesHalf(s: Shop, reviewId: ReviewId, user: UserId, title: Option<string>, comment: Option<string>)
    requires ReviewIdTaken(s.reviews, reviewId)
    requires var rv := s.reviews[FindReview(s.reviews, reviewId).value];
      rv.user == user && ValidReview(Merged(rv, None, title, comment)) &&
      rv.product in s.catalog && FindEmbeddedBy(s.catalog[rv.product].reviews, user).Some?
    ensures var r := UpdateReview(s, reviewId, user, None, title, comment);
      var i := FindReview(s.reviews, reviewId).value;
      r.result == Err(ValidationFailed) &&
      r.shop.reviews[i] == Merged(s.reviews[i], None, title, comment) &&
      r.shop.catalog == s.catalog
  {
  }

  /** Rewriting one embedded copy with an in-range rating keeps a valid product valid. */
  lemma RewrittenCopyKeepsProductValid(p: Product, j: nat, rating: int, title: Option<string>, comment: Option<string>)
    requires ValidProduct(p) && j < |p.reviews| && RatingInRange(rating)
    ensures ValidProduct(RewriteCopy(p, j, rating, title, comment))
  {
    var p2 := RewriteCopy(p, j, rating, title, comment);
    assert EmbeddedRatingsInRange(p2.reviews) by {
      forall k | 0 <= k < |p2.reviews| ensures RatingInRange(p2.reviews[k].rating) {
        if k != j {
          assert p2.reviews[k] == p.reviews[k];
        }
      }
    }
    AverageInRange(p2.reviews);
  }

  /**
   * Where the as-written update errors after a half write (no rating sent, an
   * embedded copy present), the synced update succeeds with the copies in agreement.
   */
  lemma SyncedUpdateWithoutRatingSucceeds(s: Shop, reviewId: ReviewId, user: UserId, title: Option<string>, comment: Option<string>)
    requires ReviewIdTaken(s.reviews, reviewId)
    requires var rv := s.reviews[FindReview(s.reviews, reviewId).value];
      rv.user == user && ValidReview(Merged(rv, None, title, comment)) &&
      rv.product in s.catalog && ValidProduct(s.catalog[rv.product]) &&
      FindEmbeddedBy(s.catalog[rv.product].reviews, user).Some?
    ensures var r := SyncedUpdateReview(s, reviewId, user, None, title, comment);
      r.result.Ok? &&
      var rv := r.result.value;
      Agree(rv, r.shop.catalog[rv.product].reviews[FindEmbeddedBy(s.catalog[rv.product].reviews, user).value])
  {
    var i := FindReview(s.reviews, reviewId).value;
    var updated := Merged(s.reviews[i], None, title, comment);
    var p := s.catalog[updated.product];
    var j := FindEmbeddedBy(p.reviews, user).value;
    RewrittenCopyKeepsProductValid(p, j, updated.rating, Some(updated.title), Some(updated.comment));
  }

  /** Deleting keeps the product valid and its rating consistent, now counting only the other users' copies. */
  lemma DeleteReviewKeepsRatings(s: Shop, reviewId: ReviewId, user: UserId, role: Role)
    requires ReviewIdTaken(s.reviews, reviewId)
    requires var rv := s.reviews[FindReview(s.reviews, reviewId).value];
      rv.product in s.catalog && ValidProduct(s.catalog[rv.product])
    ensures var r := DeleteReview(s, reviewId, user, role);
      var rv := s.reviews[FindReview(s.reviews, reviewId).value];
      (rv.user == user || role == Admin ==> r.result.Ok?) &&
      (r.result.Ok? ==>
        var p := r.shop.catalog[rv.product];
        ValidProduct(p) && RatingsConsistent(p) &&
        (forall k :: 0 <= k < |p.reviews| ==> p.reviews[k].user != rv.user))
  {
    var rv := s.reviews[FindReview(s.reviews, reviewId).value];
    var p := s.catalog[rv.product];
    WithoutEmbeddedKeepsRange(p.reviews, rv.user);
    AverageInRange(WithoutEmbeddedBy(p.reviews, rv.user));
  }

  /** Voting twice as a user who had not voted restores the review exactly. */
  lemma HelpfulTwiceRestores(s: Shop, reviewId: ReviewId, user: UserId)
    requires ReviewIdTaken(s.reviews, reviewId)
    requires var h := s.reviews[FindReview(s.reviews, reviewId).value].helpful; user !in h.users && h.count >= 0
    ensures var once := MarkReviewHelpful(s, reviewId, user);
      MarkReviewHelpful(once.shop, reviewId, user).shop == s
  {
    var i := FindReview(s.reviews, reviewId).value;
    var once := MarkReviewHelpful(s, reviewId, user);
    Reviews.FindAfterReplace(s.reviews, i, once.shop.reviews[i], reviewId);
    ToggleTwiceRestores(s.reviews[i].helpful, user);
    assert s.reviews[i := s.reviews[i]] == s.reviews;
  }
}

=== FILE: reviews.dfy ===
/**
 * The standalone review document, the (product, user) uniqueness index, the
 * helpful-vote toggle, and the list operations on the embedded review copies
 * that the review controller performs.
 */
module Reviews {
  import opened Common
  import opened Text
  import opened Products

  datatype Helpful = Helpful(count: int, users: seq<UserId>)

  datatype Review = Review(
    id: ReviewId,
    product: ProductId,
    user: UserId,
    rating: int,
    title: string,
    comment: string,
    isVerifiedPurchase: bool,
    helpful: Helpful)

  const TitleMaxLength: int := 100

  /** The validators a review save runs: rating 1..5, title at most 100 UTF-16 code units, comment present. */
  predicate ValidReview(r: Review) {
    RatingInRange(r.rating) && Utf16Length(r.title) <= TitleMaxLength && r.comment != ""
  }

  /** Sixty characters outside the Basic Multilingual Plane are 120 code units: too long a title. */
  lemma AstralTitleTooLong(r: Review)
    requires |r.title| == 60 && forall i :: 0 <= i < |r.title| ==> Astral(r.title[i])
    ensures !ValidReview(r)
  {
  }

  /**
   * `Review.create`: the title is stored trimmed, the helpful record starts
   * empty, and the verified flag is false unless one is given.
   */
  function NewReview(id: ReviewId, product: ProductId, user: UserId, rating: int, title: string, comment: string,
                     verified: Option<bool>): (r: Review)
    ensures r.id == id && r.product == product && r.user == user && r.rating == rating && r.comment == comment
    ensures r.title == Trim(title)
    ensures r.helpful == Helpful(0, [])
    ensures r.isVerifiedPurchase <==> verified == Some(true)
  {
    Review(id, product, user, rating, Trim(title), comment, verified == Some(true), Helpful(0, []))
  }

  predicate ReviewIdTaken(rs: seq<Review>, id: ReviewId) {
    exists i :: 0 <= i < |rs| && rs[i].id == id
  }

  predicate HasReviewBy(rs: seq<Review>, product: ProductId, user: UserId) {
    exists i :: 0 <= i < |rs| && rs[i].product == product && rs[i].user == user
  }

  /** The unique index on (product, user), and unique ids. */
  predicate UniqueReviews(rs: seq<Review>) {
    forall i, j :: 0 <= i < j < |rs| ==>
      rs[i].id != rs[j].id && (rs[i].product != rs[j].product || rs[i].user != rs[j].user)
  }

  /** `Review.findById`. */
  function FindReview(rs: seq<Review>, id: ReviewId): (r: Option<nat>)
    ensures r.Some? ==> r.value < |rs| && rs[r.value].id == id
    ensures r.None? <==> !ReviewIdTaken(rs, id)
    decreases |rs|
  {
    if |rs| == 0 then None
    else if rs[|rs| - 1].id == id then Some(|rs| - 1)
    else
      var r := FindReview(rs[..|rs| - 1], id);
      assert r.None? ==> forall i :: 0 <= i < |rs| - 1 ==> rs[..|rs| - 1][i] == rs[i];
      r
  }

  /** Replacing a review by one with the same id does not change where any id is found. */
  lemma {:induction false} FindAfterReplace(rs: seq<Review>, i: nat, r: Review, id: ReviewId)
    requires i < |rs| && r.id == rs[i].id
    ensures FindReview(rs[i := r], id) == FindReview(rs, id)
    decreases |rs|
  {
    var n := |rs| - 1;
    var updated := rs[i := r];
    if i < n {
      assert updated[..n] == rs[..n][i := r];
      FindAfterReplace(rs[..n], i, r, id);
    } else {
      assert updated[..n] == rs[..n];
    }
  }

  /** A review whose pair and id are unused can be appended without breaking uniqueness. */
  lemma AppendKeepsUnique(rs: seq<Review>, r: Review)
    requires UniqueReviews(rs)
    requires !HasReviewBy(rs, r.product, r.user) && !ReviewIdTaken(rs, r.id)
    ensures UniqueReviews(rs + [r])
  {
  }

  /** Replacing a review by one with the same id, product and user keeps uniqueness. */
  lemma ReplaceKeepsUnique(rs: seq<Review>, i: nat, r: Review)
    requires UniqueReviews(rs) && i < |rs|
    requires r.id == rs[i].id && r.product == rs[i].product && r.user == rs[i].user
    ensures UniqueReviews(rs[i := r])
  {
  }

  /** Deleting a review keeps uniqueness. */
  lemma DeleteKeepsUnique(rs: seq<Review>, i: nat)
    requires UniqueReviews(rs) && i < |rs|
    ensures UniqueReviews(rs[..i] + rs[i + 1..])
  {
    var r := rs[..i] + rs[i + 1..];
    assert forall k :: 0 <= k < |r| ==> r[k] == rs[if k < i then k else k + 1];
  }

  // ---------------------------------------------------------------------
  // Helpful votes
  // ---------------------------------------------------------------------

  predicate DistinctUsers(us: seq<UserId>) {
    forall i, j :: 0 <= i < j < |us| ==> us[i] != us[j]
  }

  /** The counter mirrors the voter list exactly. */
  predicate HelpfulConsistent(h: Helpful) {
    h.count == |h.users| && DistinctUsers(h.users)
  }

  /** `users.filter(u => u != user)`. */
  function WithoutUser(us: seq<UserId>, u: UserId): (r: seq<UserId>)
    ensures u !in r
    ensures forall v :: v != u ==> (v in r <==> v in us)
    ensures |r| <= |us|
    decreases |us|
  {
    if |us| == 0 then []
    else if us[0] == u then WithoutUser(us[1..], u)
    else [us[0]] + WithoutUser(us[1..], u)
  }

  lemma {:induction false} WithoutAbsentUser(us: seq<UserId>, u: UserId)
    requires u !in us
    ensures WithoutUser(us, u) == us
    decreases |us|
  {
    if |us| > 0 {
      assert forall k :: 0 <= k < |us[1..]| ==> us[1..][k] == us[k + 1];
      WithoutAbsentUser(us[1..], u);
      assert [us[0]] + us[1..] == us;
    }
  }

  /** Removing a user present once from a distinct list shortens it by exactly one and keeps it distinct. */
  lemma {:induction false} WithoutPresentUser(us: seq<UserId>, u: UserId)
    requires DistinctUsers(us) && u in us
    ensures |WithoutUser(us, u)| == |us| - 1
    ensures DistinctUsers(WithoutUser(us, u))
    decreases |us|
  {
    var tail := us[1..];
    assert DistinctUsers(tail) by {
      forall i, j | 0 <= i < j < |tail| ensures tail[i] != tail[j] {
        assert tail[i] == us[i + 1] && tail[j] == us[j + 1];
      }
    }
    if us[0] == u {
      assert u !in tail by {
        forall k | 0 <= k < |tail| ensures tail[k] != u {
          assert tail[k] == us[k + 1];
        }
      }
      WithoutAbsentUser(tail, u);
    } else {
      assert u in tail by {
        var k :| 0 <= k < |us| && us[k] == u;
        assert tail[k - 1] == u;
      }
      WithoutPresentUser(tail, u);
      var rt := WithoutUser(tail, u);
      assert us[0] !in tail by {
        forall k | 0 <= k < |tail| ensures tail[k] != us[0] {
          assert tail[k] == us[k + 1];
        }
      }
      assert us[0] !in rt;
      var r := [us[0]] + rt;
      assert forall k :: 1 <= k < |r| ==> r[k] == rt[k - 1];
    }
  }

  /**
   * `markReviewHelpful`: a voter already listed is removed and the count drops
   * (never below 0); anyone else is appended and the count rises. The flag is
   * whether the user is now marked.
   */
  function ToggleHelpful(h: Helpful, u: UserId): (r: (Helpful, bool))
    ensures r.1 <==> u !in h.users
    ensures u in r.0.users <==> u !in h.users
    ensures forall v :: v != u ==> (v in r.0.users <==> v in h.users)
    ensures u in h.users ==> r.0.count == if h.count >= 1 then h.count - 1 else 0
    ensures u !in h.users ==> r.0.count == h.count + 1
  {
    if u in h.users then (Helpful(if h.count - 1 > 0 then h.count - 1 else 0, WithoutUser(h.users, u)), false)
    else (Helpful(h.count + 1, h.users + [u]), true)
  }

  /** The toggle keeps the count equal to the number of distinct voters, and so never negative. */
  lemma ToggleKeepsConsistent(h: Helpful, u: UserId)
    requires HelpfulConsistent(h)
    ensures HelpfulConsistent(ToggleHelpful(h, u).0)
    ensures ToggleHelpful(h, u).0.count >= 0
  {
    if u in h.users {
      WithoutPresentUser(h.users, u);
    }
  }

  /** Two toggles by a user who had not voted restore the record exactly. */
  lemma ToggleTwiceRestores(h: Helpful, u: UserId)
    requires u !in h.users && h.count >= 0
    ensures ToggleHelpful(ToggleHelpful(h, u).0, u).0 == h
  {
    var once := ToggleHelpful(h, u).0;
    assert once.users == h.users + [u];
    assert u in once.users;
    WithoutAbsentUser(h.users, u);
    WithoutAppended(h.users, u);
  }

  lemma {:induction false} WithoutAppended(us: seq<UserId>, u: UserId)
    requires u !in us
    ensures WithoutUser(us + [u], u) == us
    decreases |us|
  {
    if |us| == 0 {
      assert [u][1..] == [];
    } else {
      assert (us + [u])[1..] == us[1..] + [u];
      assert forall k :: 0 <= k < |us[1..]| ==> us[1..][k] == us[k + 1];
      WithoutAppended(us[1..], u);
      assert [us[0]] + us[1..] == us;
    }
  }

  // ---------------------------------------------------------------------
  // Embedded copies inside the product
  // ---------------------------------------------------------------------

  /** `product.reviews.findIndex(r => r.user == userId)`. */
  function FindEmbeddedBy(rs: seq<EmbeddedReview>, u: UserId): (r: Option<nat>)
    ensures r.Some? ==> r.value < |rs| && rs[r.value].user == u
    ensures r.Some? ==> forall j :: 0 <= j < r.value ==> rs[j].user != u
    ensures r.None? ==> forall j :: 0 <= j < |rs| ==> rs[j].user != u
    decreases |rs|
  {
    if |rs| == 0 then None
    else if rs[0].user == u then Some(0)
    else match FindEmbeddedBy(rs[1..], u)
      case None => None
      case Some(k) => Some(k + 1)
  }

  /** `product.reviews.filter(r => r.user != userId)`: every copy by that user goes, the rest keep their order. */
  function WithoutEmbeddedBy(rs: seq<EmbeddedReview>, u: UserId): (r: seq<EmbeddedReview>)
    ensures |r| <= |rs|
    ensures forall j :: 0 <= j < |r| ==> r[j].user != u
    ensures forall j :: 0 <= j < |r| ==> r[j] in rs
    ensures forall j :: 0 <= j < |rs| && rs[j].user != u ==> rs[j] in r
    decreases |rs|
  {
    if |rs| == 0 then []
    else if rs[0].user == u then WithoutEmbeddedBy(rs[1..], u)
    else [rs[0]] + WithoutEmbeddedBy(rs[1..], u)
  }

  /** Filtering keeps the embedded ratings within 1..5. */
  lemma WithoutEmbeddedKeepsRange(rs: seq<EmbeddedReview>, u: UserId)
    requires EmbeddedRatingsInRange(rs)
    ensures EmbeddedRatingsInRange(WithoutEmbeddedBy(rs, u))
  {
    var r := WithoutEmbeddedBy(rs, u);
    forall j | 0 <= j < |r| ensures RatingInRange(r[j].rating) {
      assert r[j] in rs;
    }
  }
}

=== FILE: store.dfy ===
/**
 * The persistent collections as one immutable value, and the shape of a
 * controller's answer: the store after the request together with either the
 * payload or the error.
 */
module Store {
  import opened Common
  import opened Products
  import opened Carts
  import opened Orders
  import opened Reviews

  datatype Shop = Shop(catalog: Catalog, carts: map<UserId, Cart>, orders: seq<Order>, reviews: seq<Review>)

  /**
   * The store is carried on failure too: most failures leave it untouched,
   * but a few requests have already saved one document when a later step fails.
   */
  datatype Reply<T> = Reply(shop: Shop, result: Result<T>)

  function Fail<T>(s: Shop, e: Error): Reply<T> {
    Reply(s, Err(e))
  }

  function Done<T>(s: Shop, v: T): Reply<T> {
    Reply(s, Ok(v))
  }

  predicate ValidCarts(carts: map<UserId, Cart>) {
    forall u :: u in carts ==> ValidCart(carts[u])
  }
}

=== FILE: text.dfy ===
/**
 * The string operations the shop relies on: JavaScript's `trim` and `split`
 * on a single-character separator, with `Join` as the inverse of `Split`, and
 * the length JavaScript reports.
 */
module Text {

  /** Characters outside the Basic Multilingual Plane take two UTF-16 code units. */
  predicate Astral(c: char) {
    c as int > 0xFFFF
  }

  /** `String.prototype.length`: the number of UTF-16 code units. */
  function Utf16Length(s: string): (n: nat)
    ensures |s| <= n <= 2 * |s|
    ensures (forall i :: 0 <= i < |s| ==> !Astral(s[i])) ==> n == |s|
    ensures (forall i :: 0 <= i < |s| ==> Astral(s[i])) ==> n == 2 * |s|
    ensures n == |s| ==> forall i :: 0 <= i < |s| ==> !Astral(s[i])
  {
    if |s| == 0 then 0
    else
      var rest := Utf16Length(s[1..]);
      assert forall i :: 1 <= i < |s| ==> s[i] == s[1..][i - 1];
      (if Astral(s[0]) then 2 else 1) + rest
  }

  /** White space and line terminators as `String.prototype.trim` strips them. */
  predicate IsSpace(c: char) {
    || c == ' ' || c == '\t' || c == '\n' || c == '\r'
    || c == '\U{000B}' || c == '\U{000C}' || c == '\U{00A0}' || c == '\U{1680}'
    || ('\U{2000}' <= c <= '\U{200A}')
    || c == '\U{2028}' || c == '\U{2029}' || c == '\U{202F}' || c == '\U{205F}'
    || c == '\U{3000}' || c == '\U{FEFF}'
  }

  predicate AllSpace(s: string) {
    forall i :: 0 <= i < |s| ==> IsSpace(s[i])
  }

  /** Drops the longest all-space prefix. */
  function TrimStart(s: string): (r: string)
    ensures |r| <= |s| && r == s[|s| - |r|..]
    ensures AllSpace(s[..|s| - |r|])
    ensures |r| == 0 || !IsSpace(r[0])
  {
    if |s| == 0 || !IsSpace(s[0]) then s
    else
      var r := TrimStart(s[1..]);
      assert s[1..][..|s[1..]| - |r|] == s[1..|s| - |r|];
      var cut := s[..|s| - |r|];
      assert AllSpace(cut) by {
        forall i | 0 <= i < |cut| ensures IsSpace(cut[i]) {
          if i > 0 {
            assert cut[i] == s[1..|s| - |r|][i - 1];
          }
        }
      }
      r
  }

  /** Drops the longest all-space suffix. */
  function TrimEnd(s: string): (r: string)
    ensures |r| <= |s| && r == s[..|r|]
    ensures AllSpace(s[|r|..])
    ensures |r| == 0 || !IsSpace(r[|r| - 1])
  {
    if |s| == 0 || !IsSpace(s[|s| - 1]) then s
    else
      var r := TrimEnd(s[..|s| - 1]);
      assert s[..|s| - 1][|r|..] == s[|r|..|s| - 1];
      var cut := s[|r|..];
      assert AllSpace(cut) by {
        forall i | 0 <= i < |cut| ensures IsSpace(cut[i]) {
          if i < |cut| - 1 {
            assert cut[i] == s[|r|..|s| - 1][i];
          }
        }
      }
      r
  }

  function Trim(s: string): (r: string)
  {
    TrimEnd(TrimStart(s))
  }

  /** The trimmed string is a factor of the input, bounded by non-space characters, and only spaces were cut. */
  lemma TrimShape(s: string)
    ensures var r := Trim(s);
      exists a, b :: 0 <= a <= b <= |s| && r == s[a..b] && AllSpace(s[..a]) && AllSpace(s[b..])
    ensures var r := Trim(s); |r| == 0 || (!IsSpace(r[0]) && !IsSpace(r[|r| - 1]))
    ensures AllSpace(s) <==> Trim(s) == ""
  {
    var t := TrimStart(s);
    var r := TrimEnd(t);
    var a := |s| - |t|;
    FactorOfCuts(s, t, r);
    assert r == s[a..a + |r|] && AllSpace(s[..a]) && AllSpace(s[a + |r|..]);
    if |r| > 0 {
      assert r[0] == t[0];
    }
    TrimEmptyIffAllSpace(s);
  }

  /** A prefix r of a suffix t of s, with only spaces cut on either side, is the factor s[a..a + |r|]. */
  lemma FactorOfCuts(s: string, t: string, r: string)
    requires |t| <= |s| && t == s[|s| - |t|..] && AllSpace(s[..|s| - |t|])
    requires |r| <= |t| && r == t[..|r|] && AllSpace(t[|r|..])
    ensures var a := |s| - |t|; r == s[a..a + |r|] && AllSpace(s[..a]) && AllSpace(s[a + |r|..])
  {
    var a := |s| - |t|;
    assert t[..|r|] == s[a..a + |r|];
    assert t[|r|..] == s[a + |r|..];
  }

  /** Trimming leaves nothing exactly when the input is all white space. */
  lemma TrimEmptyIffAllSpace(s: string)
    ensures AllSpace(s) <==> Trim(s) == ""
  {
    var t := TrimStart(s);
    var a := |s| - |t|;
    if TrimEnd(t) == "" {
      assert t[0..] == t;
      assert s[..a] == s;
    }
    if |t| > 0 {
      assert t[0] == s[a];
    }
  }

  /** Trimming only removes characters: one absent before is absent after. */
  lemma TrimAddsNothing(s: string, c: char)
    requires c !in s
    ensures c !in Trim(s)
  {
    TrimShape(s);
    var a, b :| 0 <= a <= b <= |s| && Trim(s) == s[a..b];
    assert forall k :: 0 <= k < b - a ==> s[a..b][k] == s[a + k];
  }

  /** Trimming twice is trimming once. */
  lemma TrimIdempotent(s: string)
    ensures Trim(Trim(s)) == Trim(s)
  {
    TrimShape(s);
  }

  /** `s.split(sep)`: the pieces between separators, always at least one. */
  function Split(s: string, sep: char): (parts: seq<string>)
    ensures |parts| >= 1
    ensures forall i :: 0 <= i < |parts| ==> sep !in parts[i]
    ensures Join(parts, sep) == s
    decreases |s|
  {
    if |s| == 0 then [""]
    else if s[0] == sep then
      var rest := Split(s[1..], sep);
      assert s == [sep] + s[1..];
      [""] + rest
    else
      var rest := Split(s[1..], sep);
      var parts := [[s[0]] + rest[0]] + rest[1..];
      assert parts[1..] == rest[1..];
      assert s == [s[0]] + s[1..];
      parts
  }

  /** `parts.join(sep)`. */
  function Join(parts: seq<string>, sep: char): string
    requires |parts| >= 1
  {
    if |parts| == 1 then parts[0] else parts[0] + [sep] + Join(parts[1..], sep)
  }

  /** Splitting a joined list of separator-free pieces gives the pieces back. */
  lemma {:induction false} SplitJoin(parts: seq<string>, sep: char)
    requires |parts| >= 1
    requires forall i :: 0 <= i < |parts| ==> sep !in parts[i]
    ensures Split(Join(parts, sep), sep) == parts
    decreases |parts|, |parts[0]|
  {
    var p := parts[0];
    if |parts| == 1 {
      SplitPlain(p, sep);
    } else if |p| == 0 {
      var rest := parts[1..];
      SplitJoin(rest, sep);
      assert Join(parts, sep) == [sep] + Join(rest, sep);
      SplitAtSeparator(Join(rest, sep), sep);
    } else {
      var shorter := [p[1..]] + parts[1..];
      assert sep !in p[1..] by {
        assert forall k :: 0 <= k < |p[1..]| ==> p[1..][k] == p[k + 1];
      }
      assert forall i :: 0 <= i < |shorter| ==> sep !in shorter[i] by {
        forall i | 1 <= i < |shorter| ensures sep !in shorter[i] {
          assert shorter[i] == parts[i];
        }
      }
      SplitJoin(shorter, sep);
      assert shorter[1..] == parts[1..];
      assert Join(parts, sep) == [p[0]] + Join(shorter, sep);
      SplitAtOther(p[0], Join(shorter, sep), sep);
      assert [p[0]] + p[1..] == p;
      assert [[p[0]] + p[1..]] + parts[1..] == parts;
    }
  }

  /** A leading separator splits off an empty first piece. */
  lemma SplitAtSeparator(s: string, sep: char)
    ensures Split([sep] + s, sep) == [""] + Split(s, sep)
  {
    assert ([sep] + s)[1..] == s;
  }

  /** A leading non-separator joins the first piece. */
  lemma SplitAtOther(c: char, s: string, sep: char)
    requires c != sep
    ensures var rest := Split(s, sep); Split([c] + s, sep) == [[c] + rest[0]] + rest[1..]
  {
    assert ([c] + s)[1..] == s;
  }

  /** A string with no separator splits into itself. */
  lemma {:induction false} SplitPlain(s: string, sep: char)
    requires sep !in s
    ensures Split(s, sep) == [s]
    decreases |s|
  {
    if |s| > 0 {
      assert s[0] in s;
      assert sep !in s[1..] by {
        assert forall k :: 0 <= k < |s[1..]| ==> s[1..][k] == s[k + 1];
      }
      SplitPlain(s[1..], sep);
      assert [s[0]] + s[1..] == s;
    }
  }
}
